=== FILE: README.md ===
# A model of the Shizuku-in `misc` scripts

This project models, in Dafny, the decision logic of a collection of small
media-library scripts.

- **mkvFontmux.py.** The largest script, modelled in five modules:
  - **FontIndex:** the font index. Name records 1, 4 and 6 are registered under normalised keys. Lookup is exact, or tries the `_gbk`-style suffixes when smart matching is on.
  - **AssParser:** the ASS subtitle parser. It builds the style table and collects the characters each font draws.
  - **FontSubset:** the subset naming, the output extension and MIME type, the random replacement family name, and the name-table rewrite.
  - **AssRewriter:** the subtitle rewriter. It renames fonts in `Style:` lines and `\fn` overrides, and inserts the `; FontMap:` block.
  - **FontMux:** the per-container selection of subtitles, the merge of font usage, the matching, the name map, and the `mkvmerge` command.
- **checker.c** (module Checker): the markup for runs of spaces in file names, the list order, and the rename rule.
- **epub_metadata_embedder.py** (EpubPairing) and **opf-embed.py** (OpfEmbed): how EPUB files are paired with OPF metadata files in each directory.
- **WAV2FLACcue.py** (CueConvert): the FLAC path derivation and the rewrite of `FILE … WAVE` lines in cue sheets.
- **vndb.py** (Vndb) and **vndb_draft.py** (VndbDraft): the posts and drafts built from VNDB records, their file names, and how ID lists are split.
- **fontautoconv.py** (FontAutoConv): the character collection and the subset command.
- **rarer.py** (Rarer): one uncompressed RAR archive per file.
- **auto.py** (YearFolders): tidying the year-prefixed folders.
- **ss.search.py** (SheetSearch): the spreadsheet row search.

Shared modules model the Python and GLib library behaviour the scripts rely on:

- **Text:** `str.strip`, `lower`, `split`, `join`, `replace`, `find` and slicing.
- **Paths:** `os.path`, `pathlib` and `g_build_filename` on `/`-separated paths.
- **Seqs:** list comprehensions.
- **OrderedMaps:** the insertion order of `dict`.
- **Wrappers:** `Option`.

Everything the scripts do outside of their own logic becomes a parameter:

- **File system:** a directory listing is a sequence of names, and a file-type test is a predicate.
- **Parsed files:** a parsed font is a list of name records, and a parsed spreadsheet is a list of sheets of rows of cells.
- **HTTP lookups:** a function from an ID to a record.
- **External programs:** a command line is a list of strings, and the result of running it is a parameter.
- **Randomness:** `secrets.choice` is a sequence of alphabet indices.

A `None` result stands for the error paths where a script exits, raises or skips. The one exception is `Vndb.RomanTitle`, whose `None` is Python's `None` value, which the post prints as the text `None`.

## Model

| member | source | states |
|---|---|---|
| FontIndex.NormalizeKey | mkvFontmux.py:57-58 | The normalised key is trimmed, no longer than the name, and holds no upper-case ASCII letter. |
| FontIndex.SpacelessIsReplace | mkvFontmux.py:143 | The second key, `key.replace(" ", "")`, is the key with every space removed. |
| FontIndex.RegisterFace | mkvFontmux.py:134-146 | Registering a face only adds keys, and every entry is either unchanged or points at this file and face index. |
| FontIndex.RegisterRecord | mkvFontmux.py:138-143 | One record adds exactly its keys: none, or its trimmed lower-case name and that name without spaces. Each points at this file, face index and name. Every other key keeps its entry. |
| FontIndex.LastWriter | mkvFontmux.py:137-143 | Reference definition: the last record of the face that writes a given key, with none after it. |
| FontIndex.RegisterRecordSpec | mkvFontmux.py:138-143 | One record with nameID 1, 4 or 6 and a non-empty name writes exactly its trimmed lower-case key and that key without spaces. Other keys keep their entries. |
| FontIndex.RegisterFaceSpec | mkvFontmux.py:134-146 | After a face is registered, a key is present iff it was before or some record writes it. Its entry comes from the last record that writes it, so later registrations overwrite earlier ones. Otherwise the old entry stays. |
| FontIndex.RegisterFaces | mkvFontmux.py:125-128 | Registering every face of a collection adds only entries for that file. |
| FontIndex.ProcessFontFile | mkvFontmux.py:122-132 | An unreadable font file leaves the index unchanged. Otherwise only entries for that file are added. |
| FontIndex.Scan | mkvFontmux.py:111-116 | Scanning keeps every earlier key, and every new entry points at one of the scanned font files. |
| FontIndex.TrySuffixes | mkvFontmux.py:152-155 | The result is the entry for the first suffix, in list order, that the target ends with and whose removal names an indexed key. It is None iff no suffix does. |
| FontIndex.FindFont | mkvFontmux.py:148-156 | An exact hit on the normalised query wins. Without smart matching a miss is None. With it, a miss goes through the suffixes in order. A result is always an indexed entry. |
| FontIndex.RegisteredNameFound | mkvFontmux.py:134-156 | Any indexed name of a registered face is found again, pointing at that face. |
| FontIndex.FirstSuffixHit | mkvFontmux.py:152-155 | When the first suffix hits, its entry is returned. |
| FontIndex.NormalizeScenario | mkvFontmux.py:57-58 | `NotoSansCJK_gbk` normalises to `notosanscjk_gbk`. |
| FontIndex.RemoveGbkScenario | mkvFontmux.py:154 | Removing `_gbk` from `notosanscjk_gbk` gives `notosanscjk`. |
| FontIndex.SmartMatchScenario | mkvFontmux.py:148-156 | `NotoSansCJK_gbk` finds the `notosanscjk` entry with smart matching and nothing without it. |
| AssParser.Classify | mkvFontmux.py:169-176 | A stripped line is a header iff it starts with `[`. It is a style definition iff it starts with `Style:` and has more than two comma fields. |
| AssParser.LastHeader | mkvFontmux.py:167-172 | The section in force is set by a header line before the current line. |
| AssParser.LastHeaderSpec | mkvFontmux.py:167-172 | That header is the last one before the line, and there is none iff no header precedes it. |
| AssParser.LastStyleDef | mkvFontmux.py:173-176 | Reference definition: the last style line for a key, found scanning back. |
| AssParser.LastStyleDefSpec | mkvFontmux.py:173-176 | A key's last definition lies inside `[V4+ Styles]` and no later line redefines the key. It is None iff no line defines it. |
| AssParser.StyleRunSpec | mkvFontmux.py:166-176 | The style table holds a key iff some `Style:` line inside a `[V4+ Styles]` section defines it. The key is field one without `Style:`, trimmed. The value is field two, trimmed, of the last such line. |
| AssParser.StyleTableSpec | mkvFontmux.py:166-176 | A file's style table maps a name iff some line of a `[V4+ Styles]` section defines it. The value is the font of the last such line. |
| AssParser.CloseBrace | mkvFontmux.py:183 | A `{` block ends at the first `}` with no line break before it: the shortest match. |
| AssParser.StripOverrides | mkvFontmux.py:183 | Removing the override blocks and line breaks never lengthens the text or adds a character. |
| AssParser.StripPlain | mkvFontmux.py:183 | Text without `{` or `\` is kept as it is. |
| AssParser.StripPlainPrefix | mkvFontmux.py:183 | Plain text in front is kept and the rest is processed after it. |
| AssParser.StripTag | mkvFontmux.py:183 | A `{…}` block is removed, the shortest one. |
| AssParser.StripBreak | mkvFontmux.py:183 | `\N` and `\n` are removed. |
| AssParser.StripKeepsBackslash | mkvFontmux.py:183 | A `\` not followed by `N` or `n` is ordinary text and is kept. |
| AssParser.StripKeepsOpenBrace | mkvFontmux.py:183 | A `{` with no `}` before the next line break is ordinary text and is kept. |
| AssParser.CloseBraceNone | mkvFontmux.py:183 | No block closes when every later `}` comes after a line break. |
| AssParser.DialogueAt | mkvFontmux.py:177-183 | A raw line contributes iff it starts with `Dialogue:` and nine comma cuts give ten fields. The text is the tenth field, which keeps any further commas, stripped and without overrides. The font is that of the style named by the fourth field, stripped, or `Default` for an unknown style. |
| AssParser.CharSet | mkvFontmux.py:184 | The set update adds exactly the characters of the text. |
| AssParser.DrawnSpec | mkvFontmux.py:177-184 | Reference definition: a font is drawn iff some contributing dialogue line uses it. |
| AssParser.ShownSpec | mkvFontmux.py:177-184 | Reference definition: a character is shown in a font iff some dialogue line in that font has it. |
| AssParser.UsageRunShown | mkvFontmux.py:177-184 | The usage map has a font iff it is drawn, and its set is exactly the shown characters. |
| AssParser.UsageRun | mkvFontmux.py:177-184 | The usage loop builds a well-formed ordered map. Its contents are given by UsageRunSpec. |
| AssParser.UsageRunSpec | mkvFontmux.py:177-184 | A font is in `text_by_font` iff some dialogue line uses it. Its characters are the union of those lines' cleaned texts. |
| AssParser.Analyse | mkvFontmux.py:163-184 | The parse of a file is a well-formed ordered map. |
| AssParser.UnknownStyleIsDefault | mkvFontmux.py:181-182 | A dialogue line whose style is not in the table draws in `Default`. |
| AssRewriter.MapBlock | mkvFontmux.py:242-243 | One `; FontMap: src -> dst` line per map entry, in the map's order. |
| AssRewriter.LastSource | mkvFontmux.py:224 | Reference definition: the last map entry whose normalised source is the key. |
| AssRewriter.NormalizedMapSpec | mkvFontmux.py:224 | The normalised map has a key iff some source normalises to it. The value is from the last such source. |
| AssRewriter.NormalizedMap | mkvFontmux.py:224 | Every key of the normalised map is the normalised form of some source name. |
| AssRewriter.Lookup | mkvFontmux.py:251-252 | A replacement exists iff the normalised name is mapped to a non-empty name, as Python's truth test demands. |
| AssRewriter.StyleFieldReplaced | mkvFontmux.py:247-254 | On a mapped `Style:` line, splitting the result gives the old fields with the second replaced. |
| AssRewriter.StyleJoined | mkvFontmux.py:247-254 | A mapped `Style:` line becomes the fields, second replaced, joined by commas. |
| AssRewriter.StyleUnmapped | mkvFontmux.py:247-254 | Any other line, including a `Style:` line with an unmapped font or too few fields, is unchanged by the style step. |
| AssRewriter.RewriteStyle | mkvFontmux.py:247-254 | Only a line whose stripped form starts with `Style:` can change, and a changed line holds a comma. |
| AssRewriter.ArgEnd | mkvFontmux.py:261 | An `\fn` argument runs up to the next `\` or `}`. |
| AssRewriter.ArgEndAt | mkvFontmux.py:261 | The end of the argument is that first `\` or `}`. |
| AssRewriter.RewriteFnPlain | mkvFontmux.py:256-261 | Text without `\` is kept. |
| AssRewriter.RewriteFnPlainPrefix | mkvFontmux.py:256-261 | Text before the first `\` is kept. |
| AssRewriter.RewriteFnTag | mkvFontmux.py:256-261 | `\fn` + name is renamed when the name is mapped and kept otherwise. Processing continues after the argument. |
| AssRewriter.RewriteFnBackslash | mkvFontmux.py:256-261 | Text without `\` is unchanged. Text with a `\` still has one after the rewrite, since every tag written starts with one. |
| AssRewriter.RewriteFnCopies | mkvFontmux.py:261 | A character that does not open a `\fn` tag is copied and the scan goes on after it. |
| AssRewriter.RewriteFnKeepBackslash | mkvFontmux.py:261 | A `\` not followed by `f` is copied like any other character. |
| AssRewriter.FnInsideOverrideBlock | mkvFontmux.py:256-261 | Example: in `{\b1\fnArial}` with `Arial` mapped, only the name is replaced, and the bold tag and the braces are kept. |
| AssRewriter.RewriteLine | mkvFontmux.py:247-263 | The `[Script Info]` header line is never changed, and no other line is turned into one. |
| AssRewriter.RewriteKeepsInfoStatus | mkvFontmux.py:247-261 | A line changed by the style step holds a comma, and one with a backslash keeps it, so neither can strip to `[Script Info]`. |
| AssRewriter.ScriptInfoLineKept | mkvFontmux.py:234-263 | The `[Script Info]` header itself is copied unchanged. |
| AssRewriter.RwRunSpec | mkvFontmux.py:230-263 | The line loop's output equals an independent description. Each line is rewritten, and the map block comes just before each header that closes a `[Script Info]` section. |
| AssRewriter.BodySpec | mkvFontmux.py:230-268 | After the loop, a `[Script Info]` section still open at the end gets a blank line and the map block appended. |
| AssRewriter.Body | mkvFontmux.py:230-268 | Without a `[Script Info]` header the output of the loop is just the rewritten lines. |
| AssRewriter.RunWithoutScriptInfo | mkvFontmux.py:234-263 | Without a `[Script Info]` header the loop copies the rewritten lines and ends outside that section. |
| AssRewriter.Finish | mkvFontmux.py:270-274 | The result always has a `[Script Info]` header. A body that has one is kept as it is. Otherwise the body follows the new block. |
| AssRewriter.HeaderLine | mkvFontmux.py:271 | The inserted header line strips to `[Script Info]`. |
| AssRewriter.RewriteLines | mkvFontmux.py:226-274 | Every rewritten file has a `[Script Info]` header. |
| AssRewriter.BodyKeepsScriptInfo | mkvFontmux.py:234-270 | A file with a `[Script Info]` header still has one after rewriting. |
| AssRewriter.RewriteWithScriptInfo | mkvFontmux.py:226-274 | Such a file is rewritten into exactly the loop's output, with no extra block in front. |
| AssRewriter.ExpectedWithoutScriptInfo | mkvFontmux.py:234-263 | Without a `[Script Info]` header, no block is inserted and the lines are only rewritten. |
| AssRewriter.RewriteWithoutScriptInfo | mkvFontmux.py:230-274 | A file without `[Script Info]` gets a new `[Script Info]` block with the map, and a blank line, in front of its rewritten lines. |
| AssRewriter.InsertedBeforeNextHeader | mkvFontmux.py:236-245 | Example: the block lands between the `[Script Info]` section's content and the next header. |
| AssRewriter.RewriteAss | mkvFontmux.py:217-219 | One output per subtitle file. An empty map returns the files unchanged, and otherwise each file is rewritten with the map by RewriteLines. |
| FontSubset.AlphabetChar | mkvFontmux.py:61 | Each position of the alphabet holds an ASCII letter or digit. |
| FontSubset.Alphabet | mkvFontmux.py:61 | The alphabet is the 62 ASCII letters and digits, in `ascii_letters + digits` order. |
| FontSubset.RandomName | mkvFontmux.py:60-62 | A random name is 10 characters, each drawn from the alphabet. |
| FontSubset.AlphabetIndex | mkvFontmux.py:61 | Every letter or digit sits at some position of the alphabet. |
| FontSubset.RandomNameCovers | mkvFontmux.py:60-62 | Every 10-character string over the alphabet can be drawn. |
| FontSubset.OutputBase | mkvFontmux.py:187-188 | The base is the stem, plus `_sub{index}` exactly when the index is positive. |
| FontSubset.OutputBaseInjective | mkvFontmux.py:187-188 | Two faces of one file never share a base name. |
| FontSubset.OutExt | mkvFontmux.py:189-190 | The output extension is `.otf` iff the lower-cased source suffix is `.otf`, and `.ttf` otherwise. |
| FontSubset.MimeOf | mkvFontmux.py:191 | The MIME type is the OpenType one iff the output extension is `.otf`. |
| FontSubset.SubsetArgs | mkvFontmux.py:202-206 | The subsetter arguments hold the font, text, output and font number. The WOFF2 flavour flag is added iff the source is `.woff2`. |
| FontSubset.SubsetFontTask | mkvFontmux.py:186-215 | Disabled subsetting returns the original path. The disable check comes first, so empty text is only checked after it and gives None. A failed subset gives None. A successful rename gives the obfuscated path, otherwise the subset path. |
| FontSubset.OutputNameSplits | mkvFontmux.py:192-193 | An output path splits back into its base name and extension. |
| FontSubset.SubsetNameRecoverable | mkvFontmux.py:186-212 | A returned path has the output extension and the MIME type that matches it. Its stem is the base plus `_` + the new name, or the base plus `_subset`. |
| FontSubset.Targets | mkvFontmux.py:68-71 | The targets are exactly the platform/encoding/language triples of the name records with ID 1, 4 or 6. |
| FontSubset.RenamedKeys | mkvFontmux.py:72-75 | The renamed records are IDs 1, 4 and 6 of every target triple. |
| FontSubset.Obfuscate | mkvFontmux.py:72-75 | The rewritten table sets every renamed record to the new name, adding it if absent, and keeps every other record. |
| FontSubset.ObfuscateTargets | mkvFontmux.py:68-75 | Renaming does not change the target triples. |
| FontSubset.ObfuscateSetsNames | mkvFontmux.py:68-75 | Afterwards every record with ID 1, 4 or 6 holds the new name. |
| FontSubset.ObfuscateIdempotent | mkvFontmux.py:64-78 | Renaming twice with the same name is renaming once. |
| FontMux.DefaultIgnored | mkvFontmux.py:32 | The `Default` sentinel normalises into the ignored set. |
| FontMux.SelectSubtitles | mkvFontmux.py:289-290 | The subtitles are exactly the listed files whose name ends in `.ass`, as `glob("*.ass")` selects, and whose lower-cased name starts with the lower-cased container stem, kept in listing order. |
| FontMux.SubtitleMatchIgnoresCase | mkvFontmux.py:290 | The case of the stem does not matter. |
| FontMux.SeenSpec | mkvFontmux.py:301-306 | Reference definition: a font is seen iff some file's usage lists it. |
| FontMux.GatheredSpec | mkvFontmux.py:301-306 | Reference definition: the characters of a font are those any file lists for it. |
| FontMux.Merge | mkvFontmux.py:299-306 | The merge loop builds a well-formed ordered map. Its keys and sets are given by MergeGathers. |
| FontMux.MergeGathers | mkvFontmux.py:299-306 | The merged map has a font iff it is seen and not skipped. Its set is the union over all files. |
| FontMux.PairsFonts | mkvFontmux.py:303 | The font-and-characters pairs cover exactly the fonts of the files' usages. |
| FontMux.PairsChars | mkvFontmux.py:303 | They carry exactly the characters of those usages. |
| FontMux.Needed | mkvFontmux.py:299-306 | The needed fonts form a well-formed ordered map. Its contents are given by NeededSpec. |
| FontMux.NeededSpec | mkvFontmux.py:299-306 | A font is needed iff some subtitle uses it and its normalised name is not `default`, `arial` or `sans-serif`. Its characters are the union across files. |
| FontMux.DefaultNotNeeded | mkvFontmux.py:299-306 | `Default` never reaches matching. |
| FontMux.MatchedFonts | mkvFontmux.py:319-332 | The matched fonts are exactly the needed fonts the finder resolves. |
| FontMux.ValidFonts | mkvFontmux.py:317-332 | Each valid entry holds a matched font, its found record, and its needed characters, in needed order. |
| FontMux.ValidFontsSpec | mkvFontmux.py:317-332 | A font is valid iff it is needed and found, and no font appears twice. |
| FontMux.Names | mkvFontmux.py:370 | One fresh random name is drawn per valid font, in order. |
| FontMux.NameMapSpec | mkvFontmux.py:368-371 | The name map holds the valid fonts in order, each mapped to its own random name. |
| FontMux.NameMapFor | mkvFontmux.py:368-371 | The name map of the valid fonts is a well-formed ordered map. Its contents are given by NameMapForSpec. |
| FontMux.NameMapForSpec | mkvFontmux.py:368-371 | Every valid font gets its name in the map whether or not its subset later succeeds. |
| FontMux.NameMapNonEmpty | mkvFontmux.py:368-371 | With at least one valid font the map is not empty, so the subtitles are rewritten. |
| FontMux.Results | mkvFontmux.py:368-372 | Each valid font yields the result of `subset_font_task` for its job. A job yields a file iff subsetting is disabled, or the font has characters to keep and the subsetter succeeds. With subsetting disabled, every job yields the original font file with its MIME type. |
| FontMux.Attachments | mkvFontmux.py:373-374 | The attachments are never more than the results. |
| FontMux.AttachmentsHave | mkvFontmux.py:373-374 | A path and MIME pair is attached iff some call of `subset_font_task` returned it. |
| FontMux.AttachmentsAppend | mkvFontmux.py:373-374 | Attachments keep the order of the results. |
| FontMux.OutFileName | mkvFontmux.py:377-382 | The output file is named `temp_` + the container's name with `--overwrite`, and the container's name in `output` otherwise. |
| FontMux.LanguageArgs | mkvFontmux.py:387-388 | Three arguments per subtitle. |
| FontMux.AttachArgs | mkvFontmux.py:389-390 | Four arguments per attachment, each starting with the MIME flag. |
| FontMux.MuxCommand | mkvFontmux.py:386-390 | The command has 4 + 3 per subtitle + 4 per attachment arguments. |
| FontMux.DecodeLanguageArgs | mkvFontmux.py:387-388 | The subtitle arguments can be read back into the subtitle paths. |
| FontMux.DecodeAttachArgs | mkvFontmux.py:389-390 | The attachment arguments can be read back into the attachments. |
| FontMux.MuxCommandDecodes | mkvFontmux.py:386-390 | The `mkvmerge` command decodes back into the output, the container, the subtitles and the attachments, in order. |
| FontMux.SubtitlePaths | mkvFontmux.py:276 | One rewritten subtitle path per subtitle. |
| FontMux.Mux | mkvFontmux.py:358-390 | The muxing step always builds the name map from the valid fonts, and the subtitles it hands on are the selected files rewritten with that map. With at least one valid font, the command names the output file, the container, the rewritten subtitles under `temp_ass`, and the attachments of the successful subsets, in job order. |
| FontMux.MuxOnlyWhenAsked | mkvFontmux.py:287-356 | A container is muxed iff it has subtitles, neither report-only flag is set, and some font was matched. Then the muxing step runs on exactly those fonts. |
| FontMux.ProcessMkv | mkvFontmux.py:287-356 | A container is skipped iff no listed file is one of its subtitles. It only reports iff it has subtitles and a report flag is set, and then it reports the needed fonts and their matches. It stops for want of fonts only when none matched. |
| FontMux.MuxNames | mkvFontmux.py:368-371 | The map of a mux holds the valid fonts in order with their random names. |
| FontMux.NamesBeforeSubsetting | mkvFontmux.py:368-372 | The name map and the rewritten subtitles do not depend on whether subsetting or renaming succeeds. |
| FontMux.MatchedDistinct | mkvFontmux.py:299-332 | The valid fonts of a real analysis are distinct. |
| Checker.Spaces | checker.c:39 | `%*s` with an empty string gives exactly n spaces. |
| Checker.SpaceEnd | checker.c:34-35 | A run of spaces is maximal: it ends at the first non-space. |
| Checker.WordEnd | checker.c:44-45 | A chunk is maximal: it ends at the first space. |
| Checker.TokensFrom | checker.c:32-53 | The name splits into alternating maximal space runs and chunks, with no empty ones. |
| Checker.TokensFlatten | checker.c:32-53 | The runs and chunks put back together give the name, so each character is emitted exactly once. |
| Checker.WideFrom | checker.c:33-38 | Some run is longer than one iff the name has two consecutive spaces. |
| Checker.SkipRun | checker.c:32-53 | The inner loops stop exactly at the end of the run. |
| Checker.Markup | checker.c:26-55 | An empty name gives empty markup. A name without spaces is just escaped. A name of one space is a green span and a name of n > 1 spaces is one red span. |
| Checker.GenerateMarkup | checker.c:26-55 | The loop produces the markup of the tokens, in order. A lone space is a green span. A run of n > 1 spaces is one red span of n spaces. A chunk is escaped. `multi_space` is set iff the name has two consecutive spaces. An empty name gives empty markup and false. |
| Checker.ListItem | checker.c:61-70 | A file item holds the built path, the entry name, its markup and its multi-space flag. |
| Checker.SortFunc | checker.c:78-84 | A multi-space item sorts before a plain one. Ties compare by collation. |
| Checker.SortedGroups | checker.c:78-84 | In a list sorted by it, every multi-space item comes before every plain one, and each group is in collation order. |
| Checker.RenameTarget | checker.c:112-115 | A rename is ignored iff the new text is empty or equals the current name. |
| Checker.RenameInPlace | checker.c:112-115 | For a new text without `/` that is neither empty nor the current name, the target is the old file's directory joined with the new text, and it is named by the new text. |
| EpubPairing.WithExt | epub_metadata_embedder.py:13-14 | The files of a kind are exactly those whose lower-cased name ends with the extension, in listing order. |
| EpubPairing.MatchOpf | epub_metadata_embedder.py:19-34 | A match is always one of the directory's OPF files. |
| EpubPairing.ExactWins | epub_metadata_embedder.py:23-27 | An OPF with the EPUB's exact base name is chosen over any fuzzy candidate, taking the first such in listing order. |
| EpubPairing.FuzzyFallback | epub_metadata_embedder.py:29-34 | Without an exact match, the first OPF is chosen where the EPUB base is in the OPF name or the OPF base is in the EPUB base. There is no match iff none qualifies. |
| EpubPairing.Pairings | epub_metadata_embedder.py:19-39 | At most one target per EPUB. |
| EpubPairing.PairingsSpec | epub_metadata_embedder.py:19-39 | A target is an EPUB with its match. OPFs are not consumed, and an EPUB without a match gives nothing. |
| EpubPairing.DirTargets | epub_metadata_embedder.py:16-17 | A directory yields targets only if it holds both an EPUB and an OPF. |
| EpubPairing.DirTargetsSpec | epub_metadata_embedder.py:12-39 | A directory's targets are exactly its EPUBs with their matched OPFs, which are files of that directory. |
| EpubPairing.FindTargetsFrom | epub_metadata_embedder.py:10-41 | The targets of the walk are those of its directories. |
| EpubPairing.EbookMeta | epub_metadata_embedder.py:63-64 | `ebook-meta <epub> --from-opf <opf>`. |
| EpubPairing.EmbedCommand | epub_metadata_embedder.py:51-64 | The command joins the directory onto both file names. |
| EpubPairing.EmbedNamesTarget | epub_metadata_embedder.py:51-52 | The command's paths name the target's EPUB and OPF. |
| EpubPairing.BackupPath | epub_metadata_embedder.py:55 | The backup is the EPUB path plus `.bak.epub`. |
| OpfEmbed.DirTarget | opf-embed.py:13-16 | A target is only in a directory holding `metadata.opf`. |
| OpfEmbed.DirTargetSpec | opf-embed.py:13-20 | A directory gives a target iff it holds `metadata.opf` and exactly one EPUB (case-insensitive), and the target names that EPUB. Zero or several EPUBs give none. |
| OpfEmbed.FindTargetsSpec | opf-embed.py:10-21 | The walk's targets are those of its directories. |
| OpfEmbed.EmbedCommand | opf-embed.py:31-44 | The OPF used is always `metadata.opf` in the target's own directory. |
| CueConvert.FlacPathOfWav | WAV2FLACcue.py:10 | A `.wav` path gets exactly its extension replaced by `.flac`. |
| CueConvert.DirReport | WAV2FLACcue.py:7-12 | One report line per `.wav` file, in listing order. |
| CueConvert.DirReportSpec | WAV2FLACcue.py:7-12 | A directory reports exactly its `.wav` files (case-sensitive). |
| CueConvert.UnquotedLineLosesWave | WAV2FLACcue.py:18-21 | As written, `FILE a.wav WAVE` without quotes becomes `FILE a.flac`, losing its file type. |
| CueConvert.CueLine | WAV2FLACcue.py:18-22 | Corrected rule: lines lacking `FILE` or `WAVE`, or a quoted name, are written back unchanged. |
| CueConvert.CueLineRewrites | WAV2FLACcue.py:19-21 | On a line with a quoted name, everything up to the first `"` and from the last `"` on is kept. The name loses its final extension and gains `.flac`. |
| CueConvert.DotlessNameGainsFlac | WAV2FLACcue.py:20-21 | A quoted name without a dot just gets `.flac` appended. |
| CueConvert.CueLineKeepsBreak | WAV2FLACcue.py:15-22 | A rewritten line is still one line ending as before. |
| CueConvert.RewriteCue | WAV2FLACcue.py:14-22 | Corrected rule: a cue sheet keeps its line count, each line rewritten on its own. |
| CueConvert.CueLineAsWritten | WAV2FLACcue.py:18-21 | As written, a line lacking `FILE` or `WAVE` is written back unchanged. |
| CueConvert.AsWrittenUnquoted | WAV2FLACcue.py:18-21 | As written, a `FILE … WAVE` line without quotes loses its last character from the name: the text before that character's last dot, then `.flac`, then that character. |
| CueConvert.AsWrittenOneQuote | WAV2FLACcue.py:18-21 | As written, a line with a single quote gets `.flac` inserted after it and the quote repeated: `FILE "a.wav WAVE` becomes `FILE ".flac"a.wav WAVE`. |
| CueConvert.RewriteCueAsWritten | WAV2FLACcue.py:14-22 | As written, a cue sheet keeps its line count, each line rewritten on its own. |
| CueConvert.AsWrittenAgrees | WAV2FLACcue.py:14-22 | A sheet whose every `FILE … WAVE` line quotes its file comes out the same under both rules. |
| Vndb.JpTitleSpec | vndb.py:24 | The Japanese title is the first official `ja` title, else `Unknown`. |
| Vndb.RomanTitle | vndb.py:25 | Without a `ja` title the romanised title is `Unknown`. It is `None`, which the post prints as `None`, only when some `ja` title lacks a latin form; RomanFromFirstJa pins this to the first `ja` title. |
| Vndb.RomanFromFirstJa | vndb.py:25 | The romanised title is the first `ja` title's latin form, shown as `None` when missing. |
| Vndb.DateSlashes | vndb.py:26 | Every `-` of the release date becomes `/` and nothing else changes. |
| Vndb.MissingDateUnknown | vndb.py:26 | A missing release date reads `Unknown`. |
| Vndb.DevsSpec | vndb.py:27 | No developers gives `Unknown`. Otherwise the names are joined by `, ` and split back. |
| Vndb.CoverText | vndb.py:29 | The cover is the image URL, or the placeholder when the image or its URL is missing. A null image fails. |
| Vndb.ShotLinesKeepTame | vndb.py:30-33 | With no null scores, exactly the screenshots with sexual ≤ 1 and violence ≤ 1 are kept, a missing score counting as 0, in order. |
| Vndb.ShotLinesFail | vndb.py:32 | The screenshot list fails iff some screenshot's test compares a null. |
| Vndb.PlaceholderWhenNoneKept | vndb.py:30-33 | The placeholder is used iff no screenshot survives. |
| Vndb.LinesAreTags | vndb.py:31 | Every kept line is an `[img]` tag. |
| Vndb.Content | vndb.py:23-44 | The post is built iff no field it needs is null. It returns the Japanese title and the slash date. |
| Vndb.DateParts | vndb.py:47 | The date parts are exactly three, none containing `/`. |
| Vndb.DatePartsOfRelease | vndb.py:26-47 | A `Y-M-D` release gives `[Y, M, D]`. A bare year is padded with `00`, `00`. |
| Vndb.SafeTitle | vndb.py:48 | The safe title has the title's length, or that of `Unknown` for an empty title. |
| Vndb.SafeTitleSafe | vndb.py:48 | Only alphanumerics and ` _-[]` survive, and making a title safe twice is making it safe once. |
| Vndb.SafeTitleKeeps | vndb.py:48 | An already safe title is kept. |
| Vndb.FileName | vndb.py:49 | The file name is `[…] ….txt`. |
| Vndb.FileNameHasNoSlash | vndb.py:49-52 | The file name stays inside the output directory. |
| Vndb.SplitIds | vndb.py:58-61 | One trimmed ID per comma-separated piece. |
| Vndb.SplitIdsJoin | vndb.py:58-61 | Joining trimmed IDs by commas and splitting gives them back. |
| Vndb.Process | vndb.py:61-67 | An ID fails iff its record cannot be fetched or its post cannot be built. A failure reports that ID. |
| Vndb.GeneratedPath | vndb.py:49-65 | A generated post is written to the output directory under the post's file name. |
| Vndb.Run | vndb.py:57-67 | Every ID is processed, and an error never stops the loop. |
| VndbDraft.MainTitle | vndb_draft.py:23-27 | A title exists iff the record has titles. |
| VndbDraft.MainTitleSpec | vndb_draft.py:23-27 | The title is the first `ja` main title, else the first title. |
| VndbDraft.MonthField | vndb_draft.py:33 | A month is 1 to 12. |
| VndbDraft.DayField | vndb_draft.py:33 | A day is 1 to 31. |
| VndbDraft.ParseDate | vndb_draft.py:33 | A parsed date is a real calendar date. |
| VndbDraft.FileDate | vndb_draft.py:34 | The file date has six characters. |
| VndbDraft.Dates | vndb_draft.py:28-38 | A missing date or `TBA` gives `TBA` twice, and a null date fails. |
| VndbDraft.PaddedDates | vndb_draft.py:32-35 | `YYYY-MM-DD` gives file date `yymmdd` and display date `YYYY/MM/DD`. |
| VndbDraft.ParsePadded | vndb_draft.py:33 | A padded date parses to its fields. |
| VndbDraft.YearValue | vndb_draft.py:34 | `%y` is the last two digits of the year. |
| VndbDraft.ShortFields | vndb_draft.py:33 | A one-digit month and day are accepted as `strptime` accepts them. |
| VndbDraft.CreateMarkdown | vndb_draft.py:22-48 | A draft is made iff the record has titles, its tags are not null, and its date parses. |
| VndbDraft.TbaDraftName | vndb_draft.py:28-40 | A missing date gives `[TBA] title.md`. |
| VndbDraft.PaddedDraftName | vndb_draft.py:32-40 | A padded date gives `[yymmdd] title.md`. |
| VndbDraft.TagsInOrder | vndb_draft.py:30 | The tags are joined by `, ` in order and split back. |
| VndbDraft.StripAll | vndb_draft.py:55 | Every piece is trimmed. |
| VndbDraft.ParseIds | vndb_draft.py:54-55 | The IDs are non-empty and trimmed. |
| VndbDraft.ParseIdsJoin | vndb_draft.py:54-55 | Joining such IDs by `, ` and parsing gives them back. |
| VndbDraft.NoIdsInEmpty | vndb_draft.py:54-59 | Empty input gives no IDs. |
| VndbDraft.Steps | vndb_draft.py:61-66 | Each ID is looked up in order and written or reported missing. A record the draft builder rejects ends the run at that ID. |
| VndbDraft.Run | vndb_draft.py:53-66 | The run exits early iff no ID is given. |
| FontAutoConv.Insert | fontautoconv.py:19 | Inserting keeps the list strictly increasing and adds exactly the character. |
| FontAutoConv.SortChars | fontautoconv.py:19 | `sorted(set(…), key=ord)` is strictly increasing by code point with exactly the input's characters. |
| FontAutoConv.IncreasingUnique | fontautoconv.py:19 | Two increasing lists with the same characters are equal. |
| FontAutoConv.GetChars | fontautoconv.py:18-19 | `get_chars` gives exactly the non-whitespace characters of the text, each once, in code point order. |
| FontAutoConv.Merge | fontautoconv.py:56-61 | The merged list is sorted and deduplicated again. |
| FontAutoConv.MergeIsGetChars | fontautoconv.py:56-61 | Merging page by page gives the characters of all pages' text at once. |
| FontAutoConv.SubsetPathSpec | fontautoconv.py:23-68 | The subset is named stem + `_subset.woff2` and sits in the font's directory. |
| FontAutoConv.SubsetCommand | fontautoconv.py:26-32 | The `pyftsubset` command names the font and exactly the characters. |
| FontAutoConv.SubsetJob | fontautoconv.py:63-69 | A job exists iff the stripped font name is a file, and it lists every non-whitespace character of the pages once. |
| Rarer.ExtNoDot | rarer.py:23 | Exactly one leading dot is removed. |
| Rarer.ArchiveNameOfExt | rarer.py:22-24 | `stem.ext` is stored as `stem [NS] (ext).rar`. |
| Rarer.ArchiveNameNoExt | rarer.py:22-24 | A file without an extension gives `name [NS] ().rar`. |
| Rarer.FilesToStore | rarer.py:19-21 | Exactly the listed entries that are regular files are archived. |
| Rarer.StoreCommand | rarer.py:28 | `rar a -m0 <archive> <file>`. |
| Rarer.ArchiveInCompressed | rarer.py:16-25 | The archive lands under its name in `compressed` below the source directory. |
| Rarer.StoreAll | rarer.py:31-34 | Every file is reported in order. A failed archive does not stop later files. Only an archiver that cannot start ends the loop. |
| Rarer.Main | rarer.py:6-17 | The script proceeds iff it has one argument that is a directory. |
| YearFolders.NewName | auto.py:36 | Exactly one leading `dddd年` is removed and the rest is kept. |
| YearFolders.Flatten | auto.py:25-33 | Each entry of the child moves up under the same name and the child is removed. Nothing else changes, and a missing child changes nothing. |
| YearFolders.ProcessFolderSpec | auto.py:19-38 | A year folder leaves under its new name, keeping its entries other than the two flattened children. The rest of the directory stays. |
| YearFolders.ProcessFolder | auto.py:19-38 | An empty or taken new name is an error. On success the folder leaves under its new name, and every other entry of the directory stays as it was. |
| YearFolders.Walk | auto.py:16-40 | Entries whose name lacks the year prefix, and files, are never touched. |
| YearFolders.Main | auto.py:6-40 | With the wrong argument count nothing changes. |
| SheetSearch.OdsPaths | ss.search.py:5-8 | Only `.ods` files of the walk are opened. |
| SheetSearch.OdsPathsComplete | ss.search.py:5-8 | Every `.ods` file of the walk is opened. |
| SheetSearch.Cell | ss.search.py:12 | A cell is `''` when empty, else its text trimmed, losing only whitespace. |
| SheetSearch.AnyHas | ss.search.py:13 | A row matches iff the keyword occurs in some lower-cased cell. |
| SheetSearch.KeywordCaseIgnored | ss.search.py:13 | Two keywords that agree after lower-casing match the same rows. |
| SheetSearch.TransformCell | ss.search.py:14 | Only a cell containing `密码：` changes, and it loses every space. |
| SheetSearch.PwdCellRewrites | ss.search.py:14 | Such a cell has `密码：` replaced by `?pwd=`, with spaces removed. |
| SheetSearch.SecondField | ss.search.py:15 | A second cell without `}` is kept. Otherwise the result holds no `}`. |
| SheetSearch.SecondFieldBetween | ss.search.py:15 | It becomes the text between the first and second `}`. |
| SheetSearch.SecondFieldAfterOnly | ss.search.py:15 | With a single `}`, it becomes the text after it. |
| SheetSearch.TransformRow | ss.search.py:14-16 | A row with fewer than two cells raises. Otherwise the printed cells are exactly the non-empty transformed ones. |
| SheetSearch.TransformRowKeepsAll | ss.search.py:14-16 | With no empty cell, every cell keeps its place. |
| SheetSearch.SearchRows | ss.search.py:10-17 | Exactly the matching rows are printed, transformed, in order, until a short matching row ends the search. |
| Text.Strip | mkvFontmux.py:58 | `strip()` gives a trimmed slice, empty iff the input is all whitespace. |
| Text.StripIdempotent | mkvFontmux.py:58 | Stripping twice is stripping once. |
| Text.Split | mkvFontmux.py:174 | `split(sep)` pieces join back to the input and hold no separator. |
| Text.SplitN | mkvFontmux.py:179 | `split(sep, n)` makes at most n cuts and joins back to the input. |
| Text.ReplaceCharByEmpty | mkvFontmux.py:143 | `replace(c, "")` removes every `c` and keeps the rest in order. |
| Text.SplitJoinSep | vndb_draft.py:54 | Splitting undoes joining on a separator that no part holds. |
| Paths.SplitExt | rarer.py:22 | `splitext` gives stem and extension that concatenate to the name. |
| OrderedMaps.Put | mkvFontmux.py:306 | A `dict` keeps a key's first insertion position, and a new key goes last. |

## Left out

- **I/O.** All file reading and writing, HTTP requests, `subprocess` runs, logging, console output and progress bars are left out. Reads are parameters; commands are modelled as argument lists.
- **Font files.** Reading and writing them with fontTools, and `subset_main` itself, are foreign libraries. A font is a list of name records and the subsetter's success is a parameter.
- **`write_sheet` in fontautoconv.py.** It only prints the subset font's character map.
- **`_get_system_font_dirs` and the `main` functions' argument parsing.** These are platform and CLI plumbing. The flags they produce are parameters.
- **Temporary directories.** Their creation and removal in mkvFontmux.py, and the move back over the source with `--overwrite`, are file-system effects.
- **Listings.** `os.walk`, `os.listdir`, `glob` and `rglob` order is a parameter, and only `/` separators are modelled. The `.ass` test of `glob("*.ass")` in mkvFontmux.py is case-sensitive, as on POSIX; Windows matches `.ASS` as well.
- **Case mapping.** `str.lower()` is modelled on ASCII letters only. `isalnum` and the `\d` class are predicate parameters. Python's full Unicode case mapping is not modelled.
- **`str(cell.value)` in ss.search.py.** The text of a cell is given directly, because number formatting is not modelled.
- **strptime in vndb_draft.py.** Only ASCII digits are accepted in the date.
- **Name collisions.** A `shutil.move` or `os.rename` collision in auto.py is reported as an error result. The platform-specific overwrite and move-into-directory behaviour is not modelled.
- **The `compressed` directory in rarer.py.** `os.makedirs` failing because a file of that name exists is not modelled.
- **Output formats.** The printed form of a row in ss.search.py, and the report table in mkvFontmux.py, are console output.
- **The `D:\` paths.** The hard-coded Windows paths are kept as constants only where they name output.
- FontSubset.RandomName: `secrets.choice` is modelled by a given sequence of alphabet indices, so randomness is not modelled.
- FontMux.Mux: the outcome of running `mkvmerge` is not part of the model. The result is the command that would run.
- CueConvert.RewriteCue: states the corrected rule, which keeps a `FILE … WAVE` line without a pair of quotes. What the script writes for such lines is CueConvert.RewriteCueAsWritten.
- FontSubset.SubsetFontTask: a `shutil.move` failure after a successful rename is not modelled. The script then returns `(None, None)`, while the model returns the renamed path whenever `renameOk` holds.
- FontIndex.RegisterFace: an exception from `toUnicode` part way through a face is not modelled. The script keeps the records registered before it, while the model registers every record.
- FontIndex.ProcessFontFile: the listed path is stored as given, taken to be already resolved. The script stores `file_path.resolve()`, which is absolute and follows symbolic links, so for a linked font the stem and suffix used for the output name come from the link's target.
- VndbDraft.PaddedDates: the `%Y` of `strftime("%Y/%m/%d")` at vndb_draft.py:35 is modelled as the GNU C library prints it, so a year below 1000 stays unpadded; the lemma itself covers years from 1000 on, whose first digit is not `0`. Platforms whose C library pads `%Y` to four digits are not modelled.
- Paths.GBuildFilename: `GBuildFilename("", x)` gives `/x`, and `GDirname("//a")` gives `//`, unlike GLib. Neither input can come from checker.c, whose paths are joined onto a non-empty folder.

## Findings

| source | as written | input that shows it | evidently intended | confidence | as-written member | corrected member |
|---|---|---|---|---|---|---|
| WAV2FLACcue.py:18-21 | A `FILE … WAVE` line without a pair of quotes is cut at `find` + 1 and `rfind`. With no quote these are 0 and -1, so the whole line but its last character is taken as the file name. With one quote they cross, so `.flac` is inserted after the quote and the quote is repeated. | `FILE a.wav WAVE` + newline becomes `FILE a.flac` + newline, losing `WAVE`. `FILE "a.wav WAVE` becomes `FILE ".flac"a.wav WAVE`. | Only a quoted file name is rewritten, and other lines are kept. Rewriting an unquoted `a.wav` to `a.flac` while keeping `WAVE` would be an equally plausible intent; the corrected rule takes the narrower reading. | not executed | CueConvert.AsWrittenUnquoted | CueConvert.CueLineRewrites |

=== FILE: ass_parser.dfy ===
/**
 The subtitle analyser of the MKV font tool (`AssParser` in mkvFontmux.py): a
 first pass over the stripped lines builds the style-to-font table from the
 `[V4+ Styles]` section, and a second pass over the raw lines collects, for
 every font a `Dialogue:` line uses, the set of characters it shows once
 override blocks and line breaks are removed.
 */
module AssParser {
  import opened Wrappers
  import opened Text
  import opened OrderedMaps

  /** Style name to font name. */
  type Styles = map<string, string>

  /** Font name to the characters drawn in it, in first-use order. */
  type Usage = ODict<string, set<char>>

  const StylesSection: string := "[V4+ Styles]"

  /** What the first pass sees in a line once it is stripped. */
  datatype LineKind = Header(name: string) | StyleDef(key: string, font: string) | OtherLine

  /** A stripped line that defines a style: it starts with `Style:` and has
      more than two comma fields. */
  predicate IsStyleDef(line: string) {
    StartsWith(line, "Style:") && |Split(line, ",")| > 2
  }

  /** A stripped line starting with '[' opens a section named by the whole
      line; a style definition maps the first field without `Style:`,
      stripped, to the second field, stripped. */
  function Classify(raw: string): (k: LineKind)
    ensures k.Header? <==> StartsWith(Strip(raw), "[")
    ensures k.Header? ==> k.name == Strip(raw)
    ensures k.StyleDef? <==> IsStyleDef(Strip(raw))
  {
    var line := Strip(raw);
    if StartsWith(line, "[") then Header(line)
    else if IsStyleDef(line) then
      var parts := Split(line, ",");
      StyleDef(Strip(Replace(parts[0], "Style:", "")), Strip(parts[1]))
    else OtherLine
  }

  function Kinds(lines: seq<string>): (r: seq<LineKind>)
    ensures |r| == |lines| && forall i :: 0 <= i < |lines| ==> r[i] == Classify(lines[i])
  {
    seq(|lines|, i requires 0 <= i < |lines| => Classify(lines[i]))
  }

  /** The position of the last header before line `n`. */
  function LastHeader(kinds: seq<LineKind>, n: nat): (r: Option<nat>)
    requires n <= |kinds|
    ensures r.Some? ==> r.value < n && kinds[r.value].Header?
  {
    if n == 0 then None
    else if kinds[n - 1].Header? then Some(n - 1)
    else LastHeader(kinds, n - 1)
  }

  /** `LastHeader` finds a header with none after it, and finds nothing only
      when no line before `n` is a header. */
  lemma {:induction false} LastHeaderSpec(kinds: seq<LineKind>, n: nat)
    requires n <= |kinds|
    ensures LastHeader(kinds, n).Some? ==> forall j :: LastHeader(kinds, n).value < j < n ==> !kinds[j].Header?
    ensures LastHeader(kinds, n).None? <==> forall j :: 0 <= j < n ==> !kinds[j].Header?
  {
    if n > 0 {
      LastHeaderSpec(kinds, n - 1);
    }
  }

  /** The section in force for line `n`: the one the last header before it opens, if any. */
  function SectionAt(kinds: seq<LineKind>, n: nat): Option<string>
    requires n <= |kinds|
  {
    match LastHeader(kinds, n)
    case None => None
    case Some(i) => Some(kinds[i].name)
  }

  /** The state of the first pass: the current section and the table so far. */
  datatype StyleState = StyleState(section: Option<string>, styles: Styles)

  /** One line of the first pass. */
  function StyleStep(st: StyleState, k: LineKind): StyleState {
    match k
    case Header(name) => StyleState(Some(name), st.styles)
    case StyleDef(key, font) =>
      if st.section == Some(StylesSection) then StyleState(st.section, st.styles[key := font]) else st
    case OtherLine => st
  }

  /** The first pass over the first `n` lines. */
  function StyleRun(kinds: seq<LineKind>, n: nat): StyleState
    requires n <= |kinds|
  {
    if n == 0 then StyleState(None, map[]) else StyleStep(StyleRun(kinds, n - 1), kinds[n - 1])
  }

  /** The style table of a file. */
  function StyleTable(lines: seq<string>): Styles {
    StyleRun(Kinds(lines), |lines|).styles
  }

  /** A file's style table maps a name exactly when some line of a
      `[V4+ Styles]` section defines it, to the font of the last such line. */
  lemma StyleTableSpec(lines: seq<string>, key: string)
    ensures key in StyleTable(lines) <==> exists i :: 0 <= i < |lines| && DefinesStyle(Kinds(lines), i, key)
    ensures key in StyleTable(lines) ==>
      exists i :: (0 <= i < |lines| && DefinesStyle(Kinds(lines), i, key)
        && StyleTable(lines)[key] == Kinds(lines)[i].font
        && forall j :: i < j < |lines| ==> !DefinesStyle(Kinds(lines), j, key))
  {
    var kinds := Kinds(lines);
    StyleRunSpec(kinds, |lines|, key);
    LastStyleDefSpec(kinds, |lines|, key);
  }

  /** Line `i` defines style `key` inside the `[V4+ Styles]` section. */
  predicate DefinesStyle(kinds: seq<LineKind>, i: nat, key: string)
    requires i < |kinds|
  {
    SectionAt(kinds, i) == Some(StylesSection) && kinds[i].StyleDef? && kinds[i].key == key
  }

  /** The last line before `n` defining `key`. */
  function LastStyleDef(kinds: seq<LineKind>, n: nat, key: string): (r: Option<nat>)
    requires n <= |kinds|
    ensures r.Some? ==> r.value < n && kinds[r.value].StyleDef?
  {
    if n == 0 then None
    else if DefinesStyle(kinds, n - 1, key) then Some(n - 1)
    else LastStyleDef(kinds, n - 1, key)
  }

  /** `LastStyleDef` finds a definition of `key` with none after it, and finds
      nothing only when no line before `n` defines `key`. */
  lemma {:induction false} LastStyleDefSpec(kinds: seq<LineKind>, n: nat, key: string)
    requires n <= |kinds|
    ensures LastStyleDef(kinds, n, key).Some? ==> (DefinesStyle(kinds, LastStyleDef(kinds, n, key).value, key)
      && forall j :: LastStyleDef(kinds, n, key).value < j < n ==> !DefinesStyle(kinds, j, key))
    ensures LastStyleDef(kinds, n, key).None? <==> forall j :: 0 <= j < n ==> !DefinesStyle(kinds, j, key)
  {
    if n > 0 {
      LastStyleDefSpec(kinds, n - 1, key);
    }
  }

  /** The first pass tracks the section correctly, and the table maps a style
      name exactly when some line of the styles section defines it, to the font
      of the last such line. */
  lemma {:induction false} StyleRunSpec(kinds: seq<LineKind>, n: nat, key: string)
    requires n <= |kinds|
    ensures StyleRun(kinds, n).section == SectionAt(kinds, n)
    ensures key in StyleRun(kinds, n).styles <==> LastStyleDef(kinds, n, key).Some?
    ensures LastStyleDef(kinds, n, key).Some? ==>
      StyleRun(kinds, n).styles[key] == kinds[LastStyleDef(kinds, n, key).value].font
  {
    if n > 0 {
      StyleRunSpec(kinds, n - 1, key);
      SectionStep(kinds, n);
      if DefinesStyle(kinds, n - 1, key) {
        DefiningStep(kinds, n, key);
      } else {
        OtherStep(kinds, n, key);
      }
    }
  }

  /** A header line opens its section; any other line stays in the current one. */
  lemma SectionStep(kinds: seq<LineKind>, n: nat)
    requires 0 < n <= |kinds|
    requires StyleRun(kinds, n - 1).section == SectionAt(kinds, n - 1)
    ensures StyleRun(kinds, n).section == SectionAt(kinds, n)
  {
    assert SectionAt(kinds, n) == if kinds[n - 1].Header? then Some(kinds[n - 1].name) else SectionAt(kinds, n - 1);
  }

  /** A line defining `key` becomes its last definition and sets its font. */
  lemma DefiningStep(kinds: seq<LineKind>, n: nat, key: string)
    requires 0 < n <= |kinds| && DefinesStyle(kinds, n - 1, key)
    requires StyleRun(kinds, n - 1).section == SectionAt(kinds, n - 1)
    ensures LastStyleDef(kinds, n, key) == Some(n - 1)
    ensures StyleRun(kinds, n).styles == StyleRun(kinds, n - 1).styles[key := kinds[n - 1].font]
  {
  }

  /** A line not defining `key` leaves its entry and its last definition alone. */
  lemma OtherStep(kinds: seq<LineKind>, n: nat, key: string)
    requires 0 < n <= |kinds| && !DefinesStyle(kinds, n - 1, key)
    requires StyleRun(kinds, n - 1).section == SectionAt(kinds, n - 1)
    ensures LastStyleDef(kinds, n, key) == LastStyleDef(kinds, n - 1, key)
    ensures key in StyleRun(kinds, n).styles <==> key in StyleRun(kinds, n - 1).styles
    ensures key in StyleRun(kinds, n - 1).styles ==> StyleRun(kinds, n).styles[key] == StyleRun(kinds, n - 1).styles[key]
  {
    var st := StyleRun(kinds, n - 1);
    if kinds[n - 1].StyleDef? && st.section == Some(StylesSection) {
      assert kinds[n - 1].key != key;
      assert StyleRun(kinds, n).styles == st.styles[kinds[n - 1].key := kinds[n - 1].font];
    } else {
      assert StyleRun(kinds, n).styles == st.styles;
    }
  }

  /** The first `}` at or after `i`, unless a line break comes first: where a
      non-greedy `\{.*?\}` opened before `i` ends, since '.' does not match
      a line break. */
  function CloseBrace(s: string, i: nat): (r: Option<nat>)
    requires i <= |s|
    ensures r.Some? ==> (i <= r.value < |s| && s[r.value] == '}'
      && forall j :: i <= j < r.value ==> s[j] != '}' && s[j] != '\n')
    decreases |s| - i
  {
    if i == |s| || s[i] == '\n' then None
    else if s[i] == '}' then Some(i)
    else CloseBrace(s, i + 1)
  }

  /** `re.sub(r'\{.*?\}|\\N|\\n', '', s)`: a `{...}` block (to the nearest
      `}`), `\N` and `\n` are deleted, scanning left to right; everything else
      is kept in order. */
  function StripOverrides(s: string): (r: string)
    ensures |r| <= |s|
    ensures forall c :: c in r ==> c in s
    decreases |s|
  {
    if |s| == 0 then ""
    else if s[0] == '{' && CloseBrace(s, 1).Some? then
      var rest := StripOverrides(s[CloseBrace(s, 1).value + 1..]);
      assert forall c :: c in s[CloseBrace(s, 1).value + 1..] ==> c in s;
      rest
    else if s[0] == '\\' && |s| >= 2 && (s[1] == 'N' || s[1] == 'n') then
      var rest := StripOverrides(s[2..]);
      assert forall c :: c in s[2..] ==> c in s;
      rest
    else
      var rest := StripOverrides(s[1..]);
      assert forall c :: c in s[1..] ==> c in s;
      [s[0]] + rest
  }

  /** Text without braces or backslashes carries no override and is kept whole. */
  predicate Plain(s: string) {
    '{' !in s && '\\' !in s
  }

  lemma {:induction false} StripPlain(s: string)
    requires Plain(s)
    ensures StripOverrides(s) == s
    decreases |s|
  {
    if |s| > 0 {
      assert s[0] in s;
      assert forall c :: c in s[1..] ==> c in s;
      StripPlain(s[1..]);
      assert s == [s[0]] + s[1..];
    }
  }

  /** Plain text followed by text: the plain part is kept and the rest is
      stripped on its own. */
  lemma {:induction false} StripPlainPrefix(a: string, b: string)
    requires Plain(a)
    ensures StripOverrides(a + b) == a + StripOverrides(b)
    decreases |a|
  {
    if |a| > 0 {
      assert a[0] in a;
      assert forall c :: c in a[1..] ==> c in a;
      assert (a + b)[0] == a[0];
      assert (a + b)[1..] == a[1..] + b;
      assert StripOverrides(a + b) == [a[0]] + StripOverrides(a[1..] + b);
      StripPlainPrefix(a[1..], b);
      assert a == [a[0]] + a[1..];
    } else {
      assert a + b == b;
    }
  }

  /** An override block `{t}` after plain text disappears entirely. */
  lemma StripTag(a: string, t: string, b: string)
    requires Plain(a) && '}' !in t && '\n' !in t
    ensures StripOverrides(a + "{" + t + "}" + b) == a + StripOverrides(b)
  {
    var s := "{" + t + "}" + b;
    assert a + "{" + t + "}" + b == a + s;
    StripPlainPrefix(a, s);
    assert CloseBrace(s, 1) == Some(|t| + 1) by {
      CloseBraceSkips(s, 1, |t| + 1);
    }
    assert s[|t| + 2..] == b;
  }

  lemma {:induction false} CloseBraceSkips(s: string, i: nat, k: nat)
    requires i <= k < |s| && s[k] == '}'
    requires forall j :: i <= j < k ==> s[j] != '}' && s[j] != '\n'
    ensures CloseBrace(s, i) == Some(k)
    decreases k - i
  {
    if i < k {
      CloseBraceSkips(s, i + 1, k);
    }
  }

  /** A backslash that does not start `\N` or `\n` is ordinary text. */
  lemma StripKeepsBackslash(t: string)
    requires t == "" || (t[0] != 'N' && t[0] != 'n')
    ensures StripOverrides("\\" + t) == "\\" + StripOverrides(t)
  {
    assert ("\\" + t)[1..] == t;
  }

  /** A `{` that no `}` closes on its own line is ordinary text: the `}`
      that follows it, if any, comes after a line break. */
  lemma StripKeepsOpenBrace(t: string)
    requires forall j :: 0 <= j < |t| && t[j] == '}' ==> exists k :: 0 <= k < j && t[k] == '\n'
    ensures StripOverrides("{" + t) == "{" + StripOverrides(t)
  {
    var s := "{" + t;
    forall j | 1 <= j < |s| && s[j] == '}' ensures exists k :: 1 <= k < j && s[k] == '\n' {
      assert t[j - 1] == '}';
      var k :| 0 <= k < j - 1 && t[k] == '\n';
      assert s[k + 1] == '\n';
    }
    CloseBraceNone(s, 1);
    assert s[1..] == t;
  }

  lemma {:induction false} CloseBraceNone(s: string, i: nat)
    requires i <= |s|
    requires forall j :: i <= j < |s| && s[j] == '}' ==> exists k :: i <= k < j && s[k] == '\n'
    ensures CloseBrace(s, i).None?
    decreases |s| - i
  {
    if i < |s| && s[i] != '\n' {
      assert s[i] != '}';
      forall j | i + 1 <= j < |s| && s[j] == '}' ensures exists k :: i + 1 <= k < j && s[k] == '\n' {
        var k :| i <= k < j && s[k] == '\n';
        assert k != i;
      }
      CloseBraceNone(s, i + 1);
    }
  }

  /** The line breaks `\N` and `\n` of the subtitle text are dropped. */
  lemma StripBreak(b: string)
    ensures StripOverrides("\\N" + b) == StripOverrides(b)
    ensures StripOverrides("\\n" + b) == StripOverrides(b)
  {
    assert ("\\N" + b)[2..] == b;
    assert ("\\n" + b)[2..] == b;
  }

  /** The font and the shown text of a raw `Dialogue:` line with at least ten
      fields: the font of its style (fourth field, stripped), `Default` for an
      unknown style; the text is the tenth field, which keeps any further
      commas, stripped and without overrides. */
  function DialogueAt(styles: Styles, raw: string): (r: Option<(string, string)>)
    ensures r.Some? <==> StartsWith(raw, "Dialogue:") && |SplitN(raw, ",", 9)| >= 10
    ensures r.Some? ==> r.value.1 == StripOverrides(Strip(SplitN(raw, ",", 9)[9]))
    ensures r.Some? && Strip(SplitN(raw, ",", 9)[3]) in styles ==> r.value.0 == styles[Strip(SplitN(raw, ",", 9)[3])]
    ensures r.Some? && Strip(SplitN(raw, ",", 9)[3]) !in styles ==> r.value.0 == "Default"
  {
    if StartsWith(raw, "Dialogue:") then
      var parts := SplitN(raw, ",", 9);
      if |parts| >= 10 then
        var style := Strip(parts[3]);
        var font := if style in styles then styles[style] else "Default";
        Some((font, StripOverrides(Strip(parts[9]))))
      else None
    else None
  }

  /** The characters of a string, as `set.update(text)` adds them. */
  function CharSet(s: string): (r: set<char>)
    ensures forall c :: c in r <==> c in s
  {
    set c | c in s
  }

  /** `text_by_font.setdefault(font, set()).update(text)`: the font is
      recorded even when the text is empty. */
  function AddChars(u: Usage, font: string, text: string): (r: Usage)
    requires Valid(u)
    ensures Valid(r)
  {
    Put(u, font, (if font in u.vals then u.vals[font] else {}) + CharSet(text))
  }

  /** The second pass over the dialogue lines (font, text) found, in file order. */
  function UsageRun(ds: seq<Option<(string, string)>>, n: nat): (r: Usage)
    requires n <= |ds|
    ensures Valid(r)
  {
    if n == 0 then Empty()
    else
      var u := UsageRun(ds, n - 1);
      match ds[n - 1]
      case None => u
      case Some(ft) => AddChars(u, ft.0, ft.1)
  }

  function Dialogues(styles: Styles, lines: seq<string>): (r: seq<Option<(string, string)>>)
    ensures |r| == |lines| && forall i :: 0 <= i < |lines| ==> r[i] == DialogueAt(styles, lines[i])
  {
    seq(|lines|, i requires 0 <= i < |lines| => DialogueAt(styles, lines[i]))
  }

  /** `AssParser(path).text_by_font` for the lines of a file. */
  function Analyse(lines: seq<string>): (r: Usage)
    ensures Valid(r)
  {
    var ds := Dialogues(StyleTable(lines), lines);
    UsageRun(ds, |ds|)
  }

  /** Dialogue `d` is drawn in `font`. */
  predicate DrawsIn(d: Option<(string, string)>, font: string) {
    d.Some? && d.value.0 == font
  }

  /** Some dialogue among the first `n` is drawn in `font`. */
  predicate Drawn(ds: seq<Option<(string, string)>>, n: nat, font: string)
    requires n <= |ds|
  {
    n > 0 && (Drawn(ds, n - 1, font) || DrawsIn(ds[n - 1], font))
  }

  /** The characters the first `n` dialogues show in `font`. */
  function Shown(ds: seq<Option<(string, string)>>, n: nat, font: string): set<char>
    requires n <= |ds|
  {
    if n == 0 then {}
    else Shown(ds, n - 1, font) + (if DrawsIn(ds[n - 1], font) then CharSet(ds[n - 1].value.1) else {})
  }

  /** `Drawn` is "some line is drawn in the font". */
  lemma {:induction false} DrawnSpec(ds: seq<Option<(string, string)>>, n: nat, font: string)
    requires n <= |ds|
    ensures Drawn(ds, n, font) <==> exists i :: 0 <= i < n && DrawsIn(ds[i], font)
  {
    if n > 0 {
      DrawnSpec(ds, n - 1, font);
      if DrawsIn(ds[n - 1], font) {
        assert 0 <= n - 1 < n && DrawsIn(ds[n - 1], font);
      }
    }
  }

  /** `Shown` holds a character exactly when some line drawn in the font shows it. */
  lemma {:induction false} ShownSpec(ds: seq<Option<(string, string)>>, n: nat, font: string, c: char)
    requires n <= |ds|
    ensures c in Shown(ds, n, font) <==> exists i :: 0 <= i < n && DrawsIn(ds[i], font) && c in ds[i].value.1
  {
    if n > 0 {
      ShownSpec(ds, n - 1, font, c);
      if DrawsIn(ds[n - 1], font) && c in ds[n - 1].value.1 {
        assert 0 <= n - 1 < n && DrawsIn(ds[n - 1], font) && c in ds[n - 1].value.1;
      }
    }
  }

  /** The second pass records a font exactly when some dialogue line is drawn
      in it, with the characters those lines show. */
  lemma {:induction false} UsageRunShown(ds: seq<Option<(string, string)>>, n: nat, font: string)
    requires n <= |ds|
    ensures font in UsageRun(ds, n).vals <==> Drawn(ds, n, font)
    ensures font in UsageRun(ds, n).vals ==> UsageRun(ds, n).vals[font] == Shown(ds, n, font)
    ensures font !in UsageRun(ds, n).vals ==> Shown(ds, n, font) == {}
  {
    if n > 0 {
      UsageRunShown(ds, n - 1, font);
      UsageStep(ds, n, font);
    }
  }

  /** A font is recorded exactly when some dialogue line is drawn in it, and
      its set holds exactly the characters shown by those lines. */
  lemma UsageRunSpec(ds: seq<Option<(string, string)>>, n: nat, font: string, c: char)
    requires n <= |ds|
    ensures font in UsageRun(ds, n).vals <==> exists i :: 0 <= i < n && DrawsIn(ds[i], font)
    ensures font in UsageRun(ds, n).vals ==>
      (c in UsageRun(ds, n).vals[font] <==> exists i :: 0 <= i < n && DrawsIn(ds[i], font) && c in ds[i].value.1)
  {
    UsageRunShown(ds, n, font);
    DrawnSpec(ds, n, font);
    ShownSpec(ds, n, font, c);
  }

  /** One dialogue line adds its characters to its own font's set only. */
  lemma UsageStep(ds: seq<Option<(string, string)>>, n: nat, font: string)
    requires 0 < n <= |ds|
    ensures font in UsageRun(ds, n).vals <==> font in UsageRun(ds, n - 1).vals || DrawsIn(ds[n - 1], font)
    ensures font in UsageRun(ds, n).vals ==> (UsageRun(ds, n).vals[font] ==
      (if font in UsageRun(ds, n - 1).vals then UsageRun(ds, n - 1).vals[font] else {})
      + (if DrawsIn(ds[n - 1], font) then CharSet(ds[n - 1].value.1) else {}))
  {
  }

  /** A dialogue line whose style is unknown credits its characters to the
      `Default` sentinel. */
  lemma UnknownStyleIsDefault(styles: Styles, raw: string)
    requires DialogueAt(styles, raw).Some?
    requires Strip(SplitN(raw, ",", 9)[3]) !in styles
    ensures DrawsIn(DialogueAt(styles, raw), "Default")
  {
  }
}

=== FILE: ass_rewriter.dfy ===
/**
 The subtitle rewriter of the MKV font tool (`rewrite_ass_files` in
 mkvFontmux.py): once every embedded font has a random family name, each
 subtitle file is rewritten so that its Style lines and its `\fn` override
 tags name the new families, and `; FontMap: old -> new` comment lines record
 the mapping in the `[Script Info]` section.
 */
module AssRewriter {
  import opened Wrappers
  import opened Text
  import opened Seqs
  import opened OrderedMaps
  import opened FontIndex

  /** The font-name map: subtitle font name to random family name, in the
      order the fonts were matched. */
  type NameMap = ODict<string, string>

  const ScriptInfo: string := "[Script Info]"

  /** The comment line recording one entry of the map. */
  function MapLine(src: string, dst: string): string {
    "; FontMap: " + src + " -> " + dst + "\n"
  }

  /** One comment line per entry of the map, in the map's order. */
  function MapBlock(fm: NameMap): (r: seq<string>)
    requires Valid(fm)
    ensures |r| == |fm.keys|
    ensures forall i :: 0 <= i < |r| ==> r[i] == MapLine(fm.keys[i], fm.vals[fm.keys[i]])
  {
    seq(|fm.keys|, i requires 0 <= i < |fm.keys| => MapLine(fm.keys[i], fm.vals[fm.keys[i]]))
  }

  /** `{normalize_font_key(k): v for k, v in items}`: a later entry whose key
      normalises to the same string wins. */
  function NormalizedMap(items: seq<(string, string)>): (r: map<string, string>)
    ensures forall k :: k in r ==> exists i :: 0 <= i < |items| && NormalizeKey(items[i].0) == k
    decreases |items|
  {
    if |items| == 0 then map[]
    else
      var init := items[..|items| - 1];
      var m := NormalizedMap(init);
      assert forall i :: 0 <= i < |init| ==> init[i] == items[i];
      m[NormalizeKey(items[|items| - 1].0) := items[|items| - 1].1]
  }

  /** The last entry whose key normalises to `key`. */
  function LastSource(items: seq<(string, string)>, key: string): (r: Option<nat>)
    ensures r.Some? ==> r.value < |items| && NormalizeKey(items[r.value].0) == key
    ensures r.Some? ==> forall j :: r.value < j < |items| ==> NormalizeKey(items[j].0) != key
    ensures r.None? <==> forall j :: 0 <= j < |items| ==> NormalizeKey(items[j].0) != key
  {
    LastIndex(items, (it: (string, string)) => NormalizeKey(it.0) == key)
  }

  /** A normalised key is in the map exactly when some entry's key normalises
      to it, and it maps to the value of the last such entry. */
  lemma {:induction false} NormalizedMapSpec(items: seq<(string, string)>, key: string)
    ensures key in NormalizedMap(items) <==> LastSource(items, key).Some?
    ensures key in NormalizedMap(items) ==> NormalizedMap(items)[key] == items[LastSource(items, key).value].1
    decreases |items|
  {
    if |items| > 0 {
      var init := items[..|items| - 1];
      NormalizedMapSpec(init, key);
      assert forall j :: 0 <= j < |init| ==> init[j] == items[j];
      if NormalizeKey(items[|items| - 1].0) == key {
        assert LastSource(items, key) == Some(|items| - 1);
      } else {
        LastSourceInit(items, key);
      }
    }
  }

  /** When the last entry does not normalise to `key`, the last source of
      `key` lies in the entries before it. */
  lemma LastSourceInit(items: seq<(string, string)>, key: string)
    requires |items| > 0 && NormalizeKey(items[|items| - 1].0) != key
    ensures LastSource(items, key) == LastSource(items[..|items| - 1], key)
  {
    var init := items[..|items| - 1];
    assert forall j :: 0 <= j < |init| ==> init[j] == items[j];
  }

  /** `normalized_map.get(normalize_font_key(name))`, taken only when it is a
      non-empty string. */
  function Lookup(nm: map<string, string>, name: string): (r: Option<string>)
    ensures r.Some? <==> NormalizeKey(name) in nm && nm[NormalizeKey(name)] != ""
    ensures r.Some? ==> r.value == nm[NormalizeKey(name)]
  {
    var k := NormalizeKey(name);
    if k in nm && nm[k] != "" then Some(nm[k]) else None
  }

  /** A Style line whose second comma field names a mapped font gets that
      field replaced by the new name; every other field is kept. */
  function RewriteStyle(nm: map<string, string>, line: string): (r: string)
    ensures !StartsWith(Strip(line), "Style:") ==> r == line
    ensures r != line ==> ',' in r
  {
    if StartsWith(Strip(line), "Style:") then
      var parts := Split(line, ",");
      if |parts| > 2 then
        match Lookup(nm, Strip(parts[1]))
        case Some(rep) =>
          JoinHasSep(parts[1 := rep], ',');
          Join(parts[1 := rep], ",")
        case None => line
      else line
    else line
  }

  /** Joining two or more pieces puts the separator between them. */
  lemma JoinHasSep(parts: seq<string>, c: char)
    requires |parts| >= 2
    ensures c in Join(parts, [c])
  {
    assert Join(parts, [c]) == parts[0] + [c] + Join(parts[1..], [c]);
    assert Join(parts, [c])[|parts[0]|] == c;
  }

  /** The Style rewrite changes exactly the second field, when the new name
      has no comma; the line then splits into the same fields with that one
      replaced. */
  lemma StyleFieldReplaced(nm: map<string, string>, line: string)
    requires StartsWith(Strip(line), "Style:") && |Split(line, ",")| > 2
    requires Lookup(nm, Strip(Split(line, ",")[1])).Some?
    requires ',' !in Lookup(nm, Strip(Split(line, ",")[1])).value
    ensures var parts := Split(line, ",");
      Split(RewriteStyle(nm, line), ",") == parts[1 := Lookup(nm, Strip(parts[1])).value]
  {
    StyleJoined(nm, line);
    SplitReplaceField(line, ",", 1, Lookup(nm, Strip(Split(line, ",")[1])).value);
  }

  lemma StyleJoined(nm: map<string, string>, line: string)
    requires StartsWith(Strip(line), "Style:") && |Split(line, ",")| > 2
    requires Lookup(nm, Strip(Split(line, ",")[1])).Some?
    ensures var parts := Split(line, ",");
      RewriteStyle(nm, line) == Join(parts[1 := Lookup(nm, Strip(parts[1])).value], ",")
  {
  }

  /** A line that is not a Style line, or whose font is not mapped, keeps its
      Style part unchanged. */
  lemma StyleUnmapped(nm: map<string, string>, line: string)
    requires !StartsWith(Strip(line), "Style:") || |Split(line, ",")| <= 2
      || Lookup(nm, Strip(Split(line, ",")[1])).None?
    ensures RewriteStyle(nm, line) == line
  {
  }

  /** Where the font-name argument of a `\fn` tag that starts at `i` ends: the
      first `\` or `}` at or after `i`, or the end of the line. */
  function ArgEnd(s: string, i: nat): (e: nat)
    requires i <= |s|
    ensures i <= e <= |s|
    ensures forall j :: i <= j < e ==> s[j] != '\\' && s[j] != '}'
    ensures e < |s| ==> s[e] == '\\' || s[e] == '}'
    decreases |s| - i
  {
    if i == |s| || s[i] == '\\' || s[i] == '}' then i else ArgEnd(s, i + 1)
  }

  /** `\fn` followed by at least one character other than `\` and `}`: where
      `\\fn([^\\}]+)` matches. */
  predicate FnTagAt(s: string)
  {
    |s| > 3 && s[0] == '\\' && s[1] == 'f' && s[2] == 'n' && s[3] != '\\' && s[3] != '}'
  }

  /** `re.sub(r"\\fn([^\\}]+)", _replace_fn, s)`: scanning left to right,
      each `\fn` tag takes the new name `rename` gives for its (greedy)
      argument, if any; every other character is kept. */
  function RewriteFn(rename: string -> Option<string>, s: string): string
    decreases |s|
  {
    if |s| == 0 then ""
    else if FnTagAt(s) then
      var e := ArgEnd(s, 3);
      var tag := match rename(s[3..e]) case Some(rep) => "\\fn" + rep case None => s[..e];
      tag + RewriteFn(rename, s[e..])
    else [s[0]] + RewriteFn(rename, s[1..])
  }

  /** The font rewrite leaves text without a backslash alone, and every
      tag it writes starts with one: a line keeps a backslash if it had one. */
  lemma {:induction false} RewriteFnBackslash(rename: string -> Option<string>, s: string)
    ensures '\\' !in s ==> RewriteFn(rename, s) == s
    ensures '\\' in s ==> '\\' in RewriteFn(rename, s)
    decreases |s|
  {
    if |s| == 0 {
    } else if FnTagAt(s) {
      var e := ArgEnd(s, 3);
      var tag := match rename(s[3..e]) case Some(rep) => "\\fn" + rep case None => s[..e];
      assert tag[0] == '\\';
      assert RewriteFn(rename, s) == tag + RewriteFn(rename, s[e..]);
      assert RewriteFn(rename, s)[0] == '\\';
    } else {
      RewriteFnBackslash(rename, s[1..]);
      assert RewriteFn(rename, s) == [s[0]] + RewriteFn(rename, s[1..]);
      if '\\' !in s {
        assert '\\' !in s[1..] by {
          forall c | c in s[1..] ensures c in s { }
        }
        assert s == [s[0]] + s[1..];
      } else if s[0] != '\\' {
        var k :| 0 <= k < |s| && s[k] == '\\';
        assert s[1..][k - 1] == '\\';
        var r1 := RewriteFn(rename, s[1..]);
        var j :| 0 <= j < |r1| && r1[j] == '\\';
        assert RewriteFn(rename, s)[j + 1] == '\\';
      } else {
        assert RewriteFn(rename, s)[0] == '\\';
      }
    }
  }

  /** A character that does not open an `\fn` tag, a backslash included, is
      copied and the scan goes on after it. */
  lemma RewriteFnCopies(rename: string -> Option<string>, s: string)
    requires |s| > 0 && !FnTagAt(s)
    ensures RewriteFn(rename, s) == [s[0]] + RewriteFn(rename, s[1..])
  {
  }

  /** A font tag among other overrides: in `{\b1\fnArial}` only the name
      changes, the bold tag and the braces are kept. */
  lemma FnInsideOverrideBlock(rename: string -> Option<string>, name: string, rep: string)
    requires name != "" && '\\' !in name && '}' !in name
    requires rename(name) == Some(rep)
    ensures RewriteFn(rename, "{\\b1\\fn" + name + "}") == "{\\b1\\fn" + rep + "}"
  {
    var s1 := "\\b1\\fn" + name + "}";
    FnAfterBoldTag(rename, name, rep);
    RewriteFnPlainPrefix(rename, "{", s1);
    assert "{" + s1 == "{\\b1\\fn" + name + "}";
    assert "{" + ("\\b1\\fn" + rep + "}") == "{\\b1\\fn" + rep + "}";
  }

  lemma FnAfterBoldTag(rename: string -> Option<string>, name: string, rep: string)
    requires name != "" && '\\' !in name && '}' !in name
    requires rename(name) == Some(rep)
    ensures RewriteFn(rename, "\\b1\\fn" + name + "}") == "\\b1\\fn" + rep + "}"
  {
    var s2 := "b1" + ("\\fn" + name + "}");
    FnAfterText(rename, name, rep);
    RewriteFnKeepBackslash(rename, s2);
    assert "\\b1\\fn" + name + "}" == "\\" + s2;
    assert "\\" + ("b1" + ("\\fn" + rep + "}")) == "\\b1\\fn" + rep + "}";
  }

  lemma FnAfterText(rename: string -> Option<string>, name: string, rep: string)
    requires name != "" && '\\' !in name && '}' !in name
    requires rename(name) == Some(rep)
    ensures RewriteFn(rename, "b1" + ("\\fn" + name + "}")) == "b1" + ("\\fn" + rep + "}")
  {
    FnThenBrace(rename, name, rep);
    RewriteFnPlainPrefix(rename, "b1", "\\fn" + name + "}");
  }

  lemma FnThenBrace(rename: string -> Option<string>, name: string, rep: string)
    requires name != "" && '\\' !in name && '}' !in name
    requires rename(name) == Some(rep)
    ensures RewriteFn(rename, "\\fn" + name + "}") == "\\fn" + rep + "}"
  {
    RewriteFnTag(rename, name, "}");
    RewriteFnPlain(rename, "}");
  }

  /** A backslash that does not open `\fn` is copied like any character. */
  lemma RewriteFnKeepBackslash(rename: string -> Option<string>, t: string)
    requires |t| > 0 && t[0] != 'f'
    ensures RewriteFn(rename, "\\" + t) == "\\" + RewriteFn(rename, t)
  {
    assert ("\\" + t)[1..] == t;
  }

  /** Text without a backslash holds no tag and is kept whole. */
  lemma {:induction false} RewriteFnPlainPrefix(rename: string -> Option<string>, a: string, b: string)
    requires '\\' !in a
    ensures RewriteFn(rename, a + b) == a + RewriteFn(rename, b)
    decreases |a|
  {
    if |a| == 0 {
      assert a + b == b;
    } else {
      assert '\\' !in a[1..] by {
        forall c | c in a[1..] ensures c in a { }
      }
      RewriteFnPlainPrefix(rename, a[1..], b);
      assert a[0] in a;
      RewriteFnPlainStep(rename, a, b);
    }
  }

  lemma RewriteFnPlainStep(rename: string -> Option<string>, a: string, b: string)
    requires |a| > 0 && a[0] != '\\'
    requires RewriteFn(rename, a[1..] + b) == a[1..] + RewriteFn(rename, b)
    ensures RewriteFn(rename, a + b) == a + RewriteFn(rename, b)
  {
    var t := a[1..] + b;
    assert a + b == [a[0]] + t;
    RewriteFnKeep(rename, a[0], t);
    assert a == [a[0]] + a[1..];
  }

  /** A character that does not start a `\fn` tag is copied. */
  lemma RewriteFnKeep(rename: string -> Option<string>, c: char, t: string)
    requires c != '\\'
    ensures RewriteFn(rename, [c] + t) == [c] + RewriteFn(rename, t)
  {
    assert ([c] + t)[1..] == t;
  }

  lemma RewriteFnPlain(rename: string -> Option<string>, a: string)
    requires '\\' !in a
    ensures RewriteFn(rename, a) == a
  {
    RewriteFnPlainPrefix(rename, a, "");
    assert a + "" == a;
  }

  /** A `\fn` tag is replaced as a whole: its argument runs to the next `\`
      or `}`, becomes the new name when there is one and stays as it was
      otherwise, and the rest of the line is rewritten on its own. */
  lemma RewriteFnTag(rename: string -> Option<string>, name: string, b: string)
    requires name != "" && '\\' !in name && '}' !in name
    requires b == "" || b[0] == '\\' || b[0] == '}'
    ensures RewriteFn(rename, "\\fn" + name + b) ==
      "\\fn" + (match rename(name) case Some(rep) => rep case None => name) + RewriteFn(rename, b)
  {
    var s := "\\fn" + name + b;
    assert s[3] == name[0];
    assert FnTagAt(s);
    var e := |name| + 3;
    forall j | 3 <= j < e ensures s[j] != '\\' && s[j] != '}' {
      assert s[j] == name[j - 3];
    }
    ArgEndAt(s, 3, e);
    assert s[3..e] == name;
    assert s[..e] == "\\fn" + name;
    assert s[e..] == b;
  }

  lemma {:induction false} ArgEndAt(s: string, i: nat, e: nat)
    requires i <= e <= |s|
    requires forall j :: i <= j < e ==> s[j] != '\\' && s[j] != '}'
    requires e < |s| ==> s[e] == '\\' || s[e] == '}'
    ensures ArgEnd(s, i) == e
    decreases e - i
  {
    if i < e {
      ArgEndAt(s, i + 1, e);
    }
  }

  /** One line: the Style rewrite, then the `\fn` rewrite. */
  function RewriteLine(nm: map<string, string>, line: string): (r: string)
    ensures IsScriptInfoLine(line) ==> r == line
    ensures !IsScriptInfoLine(line) ==> !IsScriptInfoLine(r)
  {
    var t := RewriteStyle(nm, line);
    var r := RewriteFn(name => Lookup(nm, name), t);
    RewriteFnBackslash(name => Lookup(nm, name), t);
    RewriteKeepsInfoStatus(line, t, r);
    r
  }

  /** A line holding a character that is neither whitespace nor part of
      `[Script Info]` cannot strip to it. */
  lemma NotScriptInfoWith(x: string, c: char)
    requires c in x && !IsSpace(c) && c !in ScriptInfo
    ensures !IsScriptInfoLine(x)
  {
    StripKeeps(x, c);
  }

  /** The two rewrites never make a line read `[Script Info]` and never
      touch one that does: a changed Style line holds a comma, and a line
      with a backslash keeps one. */
  lemma RewriteKeepsInfoStatus(line: string, t: string, r: string)
    requires !StartsWith(Strip(line), "Style:") ==> t == line
    requires t != line ==> ',' in t
    requires '\\' !in t ==> r == t
    requires '\\' in t ==> '\\' in r
    ensures IsScriptInfoLine(line) ==> r == line
    ensures !IsScriptInfoLine(line) ==> !IsScriptInfoLine(r)
  {
    if IsScriptInfoLine(line) {
      assert Strip(line)[0] == '[';
      if '\\' in line {
        NotScriptInfoWith(line, '\\');
      }
    } else if '\\' in t {
      NotScriptInfoWith(r, '\\');
    } else if t != line {
      NotScriptInfoWith(t, ',');
    }
  }

  /** A line stripping to `[...]`: a section header. */
  predicate IsSectionLine(line: string) {
    StartsWith(Strip(line), "[") && EndsWith(Strip(line), "]")
  }

  predicate IsScriptInfoLine(line: string) {
    Strip(line) == ScriptInfo
  }

  /** The `[Script Info]` header line is kept as it is. */
  lemma ScriptInfoLineKept(nm: map<string, string>, line: string)
    requires IsScriptInfoLine(line)
    ensures RewriteLine(nm, line) == line
  {
  }

  /** How the loop treats a line: `[Script Info]`, another section header,
      or anything else. */
  datatype LineKind = Content | InfoHeader | OtherHeader

  function KindOf(line: string): LineKind {
    if IsSectionLine(line) then (if IsScriptInfoLine(line) then InfoHeader else OtherHeader)
    else Content
  }

  lemma ScriptInfoKind(line: string)
    requires IsScriptInfoLine(line)
    ensures KindOf(line) == InfoHeader
  {
    assert Strip(line)[0] == '[' && Strip(line)[|Strip(line)| - 1] == ']';
  }

  /** The state of the rewrite loop: inside `[Script Info]`, whether the map
      has been written for it, and the lines produced so far. */
  datatype RwState = RwState(inScript: bool, inserted: bool, out: seq<string>)

  /** One line of the loop, given its kind and its rewritten text: a section
      header may first emit the map, then the rewritten line is appended. */
  function RwStep(block: seq<string>, st: RwState, kind: LineKind, line: string): RwState {
    var st1 :=
      match kind
      case Content => st
      case InfoHeader => RwState(true, false, st.out)
      case OtherHeader =>
        if st.inScript && !st.inserted then RwState(false, true, st.out + block)
        else RwState(false, st.inserted, st.out);
    RwState(st1.inScript, st1.inserted, st1.out + [line])
  }

  /** The loop over the first `n` lines, with their kinds and rewritten texts. */
  function RwRun(block: seq<string>, kinds: seq<LineKind>, outs: seq<string>, n: nat): RwState
    requires n <= |kinds| && n <= |outs|
  {
    if n == 0 then RwState(false, false, [])
    else RwStep(block, RwRun(block, kinds, outs, n - 1), kinds[n - 1], outs[n - 1])
  }

  /** The section in force after the first `n` lines is `[Script Info]`. */
  predicate InScriptInfo(kinds: seq<LineKind>, n: nat)
    requires n <= |kinds|
  {
    n > 0 &&
    match kinds[n - 1]
    case Content => InScriptInfo(kinds, n - 1)
    case InfoHeader => true
    case OtherHeader => false
  }

  /** Line `i` is a header that closes a `[Script Info]` section. */
  predicate ClosesScriptInfo(kinds: seq<LineKind>, i: nat)
    requires i < |kinds|
  {
    kinds[i] == OtherHeader && InScriptInfo(kinds, i)
  }

  /** What the loop produces, stated line by line: every line rewritten, and
      the map emitted right before each header that closes a `[Script Info]`
      section. */
  function Expected(block: seq<string>, kinds: seq<LineKind>, outs: seq<string>, n: nat): seq<string>
    requires n <= |kinds| && n <= |outs|
  {
    if n == 0 then []
    else
      Expected(block, kinds, outs, n - 1) + (if ClosesScriptInfo(kinds, n - 1) then block else [])
        + [outs[n - 1]]
  }

  /** The loop is inside `[Script Info]` exactly when that is the section in
      force, the map is never pending outside it, and its output is the
      expected one: the `inserted` flag never suppresses a copy that the
      section structure calls for. */
  lemma {:induction false} RwRunSpec(block: seq<string>, kinds: seq<LineKind>, outs: seq<string>, n: nat)
    requires n <= |kinds| && n <= |outs|
    ensures RwRun(block, kinds, outs, n).inScript == InScriptInfo(kinds, n)
    ensures RwRun(block, kinds, outs, n).inScript ==> !RwRun(block, kinds, outs, n).inserted
    ensures RwRun(block, kinds, outs, n).out == Expected(block, kinds, outs, n)
  {
    if n > 0 {
      RwRunSpec(block, kinds, outs, n - 1);
      RwStepSpec(block, kinds, outs, n);
    }
  }

  /** One step of the loop keeps the correspondence with the section in
      force and the expected output. */
  lemma RwStepSpec(block: seq<string>, kinds: seq<LineKind>, outs: seq<string>, n: nat)
    requires 0 < n <= |kinds| && n <= |outs|
    requires RwRun(block, kinds, outs, n - 1).inScript == InScriptInfo(kinds, n - 1)
    requires RwRun(block, kinds, outs, n - 1).inScript ==> !RwRun(block, kinds, outs, n - 1).inserted
    requires RwRun(block, kinds, outs, n - 1).out == Expected(block, kinds, outs, n - 1)
    ensures RwRun(block, kinds, outs, n).inScript == InScriptInfo(kinds, n)
    ensures RwRun(block, kinds, outs, n).inScript ==> !RwRun(block, kinds, outs, n).inserted
    ensures RwRun(block, kinds, outs, n).out == Expected(block, kinds, outs, n)
  {
  }

  function Kinds(lines: seq<string>): (r: seq<LineKind>)
    ensures |r| == |lines|
  {
    seq(|lines|, i requires 0 <= i < |lines| => KindOf(lines[i]))
  }

  function Outs(nm: map<string, string>, lines: seq<string>): (r: seq<string>)
    ensures |r| == |lines|
  {
    seq(|lines|, i requires 0 <= i < |lines| => RewriteLine(nm, lines[i]))
  }

  /** The loop's output, followed by a blank line and the map when the file
      ends inside `[Script Info]` before the map was written. */
  function Body(nm: map<string, string>, block: seq<string>, lines: seq<string>): (r: seq<string>)
    ensures (forall i :: 0 <= i < |lines| ==> !IsScriptInfoLine(lines[i])) ==> r == Outs(nm, lines)
  {
    var st := RwRun(block, Kinds(lines), Outs(nm, lines), |lines|);
    RunWithoutScriptInfo(block, lines, Outs(nm, lines));
    st.out + (if st.inScript && !st.inserted then ["\n"] + block else [])
  }

  /** With no `[Script Info]` line the loop only copies the rewritten lines
      and ends outside that section. */
  lemma RunWithoutScriptInfo(block: seq<string>, lines: seq<string>, outs: seq<string>)
    requires |outs| == |lines|
    ensures (forall i :: 0 <= i < |lines| ==> !IsScriptInfoLine(lines[i])) ==>
      (RwRun(block, Kinds(lines), outs, |lines|).out == outs && !RwRun(block, Kinds(lines), outs, |lines|).inScript)
  {
    if forall i :: 0 <= i < |lines| ==> !IsScriptInfoLine(lines[i]) {
      var kinds := Kinds(lines);
      forall i | 0 <= i < |kinds| ensures kinds[i] != InfoHeader {
        assert kinds[i] == KindOf(lines[i]);
      }
      RwRunSpec(block, kinds, outs, |lines|);
      ExpectedWithoutScriptInfo(block, kinds, outs, |lines|);
      assert outs[..|lines|] == outs;
    }
  }

  predicate HasScriptInfo(ls: seq<string>) {
    exists i | 0 <= i < |ls| :: IsScriptInfoLine(ls[i])
  }

  /** A file that still has no `[Script Info]` header gets one, holding the
      map, in front. */
  function Finish(body: seq<string>, block: seq<string>): (r: seq<string>)
    ensures HasScriptInfo(r)
    ensures HasScriptInfo(body) ==> r == body
    ensures |body| <= |r| && r[|r| - |body|..] == body
  {
    if HasScriptInfo(body) then body
    else
      var r := [ScriptInfo + "\n"] + block + ["\n"] + body;
      HeaderLine();
      assert r[0] == ScriptInfo + "\n";
      r
  }

  /** The header line `[Script Info]` with its line break. */
  lemma HeaderLine()
    ensures IsScriptInfoLine(ScriptInfo + "\n")
  {
    assert AllSpace("\n") by { assert IsSpace('\n'); }
    StripPadded("", ScriptInfo, "\n");
    assert "" + ScriptInfo + "\n" == ScriptInfo + "\n";
  }

  /** The lines of a rewritten subtitle file. */
  function RewriteLines(fm: NameMap, lines: seq<string>): (r: seq<string>)
    requires Valid(fm)
    ensures HasScriptInfo(r)
  {
    var block := MapBlock(fm);
    Finish(Body(NormalizedMap(Items(fm)), block, lines), block)
  }

  /** Every rewritten line appears in the loop's output. */
  lemma {:induction false} ExpectedHolds(block: seq<string>, kinds: seq<LineKind>, outs: seq<string>, n: nat, i: nat)
    requires i < n <= |kinds| && n <= |outs|
    ensures outs[i] in Expected(block, kinds, outs, n)
  {
    if i < n - 1 {
      ExpectedHolds(block, kinds, outs, n - 1, i);
    }
  }

  /** The file body before the final check: the expected lines, then the
      map after a blank line when the file ends inside `[Script Info]`. */
  lemma BodySpec(nm: map<string, string>, block: seq<string>, lines: seq<string>)
    ensures Body(nm, block, lines) == Expected(block, Kinds(lines), Outs(nm, lines), |lines|)
      + (if InScriptInfo(Kinds(lines), |lines|) then ["\n"] + block else [])
  {
    RwRunSpec(block, Kinds(lines), Outs(nm, lines), |lines|);
  }

  /** The `[Script Info]` header survives into the body. */
  lemma BodyKeepsScriptInfo(nm: map<string, string>, block: seq<string>, lines: seq<string>, i: nat)
    requires i < |lines| && IsScriptInfoLine(lines[i])
    ensures HasScriptInfo(Body(nm, block, lines))
  {
    var kinds := Kinds(lines);
    var outs := Outs(nm, lines);
    BodySpec(nm, block, lines);
    ExpectedHolds(block, kinds, outs, |lines|, i);
    ScriptInfoLineKept(nm, lines[i]);
    assert outs[i] == lines[i];
    var ex := Expected(block, kinds, outs, |lines|);
    var k :| 0 <= k < |ex| && ex[k] == lines[i];
    var body := Body(nm, block, lines);
    assert body[k] == lines[i];
  }

  /** A file with a `[Script Info]` section gets the map inside it: once
      before the header that ends each such section, or after a blank line at
      the end when the file ends inside one; no block is prepended. */
  lemma RewriteWithScriptInfo(fm: NameMap, lines: seq<string>, i: nat)
    requires Valid(fm) && i < |lines| && IsScriptInfoLine(lines[i])
    ensures var nm := NormalizedMap(Items(fm));
      RewriteLines(fm, lines) == Expected(MapBlock(fm), Kinds(lines), Outs(nm, lines), |lines|)
        + (if InScriptInfo(Kinds(lines), |lines|) then ["\n"] + MapBlock(fm) else [])
  {
    var nm := NormalizedMap(Items(fm));
    BodyKeepsScriptInfo(nm, MapBlock(fm), lines, i);
    BodySpec(nm, MapBlock(fm), lines);
  }

  /** Without `[Script Info]` nothing is inserted between the lines. */
  lemma {:induction false} ExpectedWithoutScriptInfo(block: seq<string>, kinds: seq<LineKind>, outs: seq<string>, n: nat)
    requires n <= |kinds| && n <= |outs|
    requires forall i :: 0 <= i < |kinds| ==> kinds[i] != InfoHeader
    ensures !InScriptInfo(kinds, n)
    ensures Expected(block, kinds, outs, n) == outs[..n]
  {
    if n > 0 {
      ExpectedWithoutScriptInfo(block, kinds, outs, n - 1);
      assert outs[..n] == outs[..n - 1] + [outs[n - 1]];
    }
  }

  /** A file without `[Script Info]` keeps its lines, rewritten, in order,
      and the map goes into a new `[Script Info]` block in front of them: no
      rewritten line can read `[Script Info]`. */
  lemma RewriteWithoutScriptInfo(fm: NameMap, lines: seq<string>)
    requires Valid(fm) && forall i :: 0 <= i < |lines| ==> !IsScriptInfoLine(lines[i])
    ensures RewriteLines(fm, lines) == [ScriptInfo + "\n"] + MapBlock(fm) + ["\n"] + Outs(NormalizedMap(Items(fm)), lines)
  {
    var nm := NormalizedMap(Items(fm));
    var outs := Outs(nm, lines);
    assert Body(nm, MapBlock(fm), lines) == outs;
    assert !HasScriptInfo(outs) by {
      forall i | 0 <= i < |outs| ensures !IsScriptInfoLine(outs[i]) {
        assert outs[i] == RewriteLine(nm, lines[i]);
      }
    }
  }

  /** A typical file: the map lands right before the header that follows
      `[Script Info]` and is not repeated at later headers. */
  lemma InsertedBeforeNextHeader(block: seq<string>, o: seq<string>)
    requires |o| == 5
    ensures var kinds := [InfoHeader, Content, OtherHeader, Content, OtherHeader];
      RwRun(block, kinds, o, 5).out == [o[0], o[1]] + block + [o[2], o[3], o[4]]
  {
    var kinds := [InfoHeader, Content, OtherHeader, Content, OtherHeader];
    RwRunSpec(block, kinds, o, 5);
    assert InScriptInfo(kinds, 1) && InScriptInfo(kinds, 2) && ClosesScriptInfo(kinds, 2);
    assert !InScriptInfo(kinds, 3) && !InScriptInfo(kinds, 4) && !ClosesScriptInfo(kinds, 4);
    assert Expected(block, kinds, o, 1) == [o[0]];
    assert Expected(block, kinds, o, 2) == [o[0], o[1]];
    assert Expected(block, kinds, o, 3) == [o[0], o[1]] + block + [o[2]];
  }

  /** `rewrite_ass_files` on the contents of the subtitle files: an empty map
      returns them untouched, otherwise each file is rewritten. */
  function RewriteAss(fm: NameMap, files: seq<seq<string>>): (r: seq<seq<string>>)
    requires Valid(fm)
    ensures |r| == |files|
    ensures fm.keys == [] ==> r == files
    ensures fm.keys != [] ==> forall i :: 0 <= i < |files| ==> r[i] == RewriteLines(fm, files[i])
  {
    if fm.keys == [] then files
    else seq(|files|, i requires 0 <= i < |files| => RewriteLines(fm, files[i]))
  }
}

=== FILE: auto.dfy ===
/**
 auto.py: tidies the year folders of a directory. A folder named like
 `2023年…` has the contents of its same-named child and of its `会社合集`
 child moved up into it, those children removed, and the year prefix
 dropped from its name. The directory tree is a value here; `isDecimal`
 is the regular expression class `\d`.
 */
module YearFolders {
  import opened Wrappers

  /** A directory entry: a file, or a folder with its entries by name. */
  datatype Node = File | Folder(entries: map<string, Node>)

  const YearMark: char := '年'
  const CompanyFolder: string := "会社合集"

  /** `re.match(r"\d{4}年.*", name)`: four digits and `年` open the name. */
  predicate Qualifies(isDecimal: char -> bool, name: string) {
    |name| >= 5 && isDecimal(name[0]) && isDecimal(name[1]) && isDecimal(name[2]) && isDecimal(name[3])
    && name[4] == YearMark
  }

  /** `re.sub(r"^\d{4}年", "", name)`: exactly one prefix goes, even when
      the rest of the name starts with another year; a name without the
      prefix is kept. */
  function NewName(isDecimal: char -> bool, name: string): (r: string)
    ensures Qualifies(isDecimal, name) ==> (name[..5] + r == name && |r| == |name| - 5)
    ensures !Qualifies(isDecimal, name) ==> r == name
  {
    if Qualifies(isDecimal, name) then name[5..] else name
  }

  /** Moving every entry of the child `sub` up into `entries` and removing
      the child; nothing happens when there is no such child. `None` is an
      error: the child is a file, or one of its entries' names is taken. */
  function Flatten(entries: map<string, Node>, sub: string): (r: Option<map<string, Node>>)
    ensures r.Some? ==> (sub !in r.value || (sub !in entries && r.value == entries))
    ensures r.Some? ==> forall k :: k in entries && k != sub ==> k in r.value && r.value[k] == entries[k]
    ensures r.Some? && sub in entries ==> (entries[sub].Folder?
      && forall k :: k in entries[sub].entries ==> k in r.value && r.value[k] == entries[sub].entries[k])
    ensures r.Some? ==> forall k :: k in r.value ==> k in entries || (sub in entries && k in entries[sub].entries)
  {
    if sub !in entries then Some(entries)
    else
      match entries[sub]
      case File => None
      case Folder(kids) =>
        if exists k :: k in kids && k in entries then None
        else Some((entries - {sub}) + kids)
  }

  /** One year folder: its two children flattened, then the folder renamed.
      `None` is an error: see `Flatten`, or the new name is empty or
      taken. */
  function ProcessFolder(isDecimal: char -> bool, root: map<string, Node>, name: string): (r: Option<map<string, Node>>)
    requires name in root && root[name].Folder? && Qualifies(isDecimal, name)
    ensures NewName(isDecimal, name) == "" || NewName(isDecimal, name) in root ==> r.None?
    ensures r.Some? ==> name !in r.value && NewName(isDecimal, name) in r.value
    ensures r.Some? ==> r.value.Keys == root.Keys - {name} + {NewName(isDecimal, name)}
    ensures r.Some? ==> forall k :: k in root && k != name ==> k in r.value && r.value[k] == root[k]
  {
    match Flatten(root[name].entries, name)
    case None => None
    case Some(e1) =>
      match Flatten(e1, CompanyFolder)
      case None => None
      case Some(e2) =>
        var nn := NewName(isDecimal, name);
        if nn == "" || nn in root then None
        else Some((root - {name})[nn := Folder(e2)])
  }

  /** The folder leaves under its new name, keeping every entry other than
      the two flattened children, and the rest of the directory stays. */
  lemma ProcessFolderSpec(isDecimal: char -> bool, root: map<string, Node>, name: string)
    requires name in root && root[name].Folder? && Qualifies(isDecimal, name)
    requires ProcessFolder(isDecimal, root, name).Some?
    ensures var r := ProcessFolder(isDecimal, root, name).value;
      var nn := NewName(isDecimal, name);
      name !in r && nn in r && r[nn].Folder?
      && (forall k :: k in root[name].entries && k != name && k != CompanyFolder ==>
            k in r[nn].entries && r[nn].entries[k] == root[name].entries[k])
      && (forall k :: k in root && k != name ==> k in r && r[k] == root[k])
  {
    var e1 := Flatten(root[name].entries, name).value;
    var e2 := Flatten(e1, CompanyFolder).value;
    assert ProcessFolder(isDecimal, root, name).value[NewName(isDecimal, name)].entries == e2;
  }

  /** The loop over the listing, each name looked up in the directory as
      it is by then. */
  function Walk(isDecimal: char -> bool, root: map<string, Node>, listing: seq<string>): (r: Option<map<string, Node>>)
    ensures r.Some? ==> forall k :: k in root && !Qualifies(isDecimal, k) ==> k in r.value && r.value[k] == root[k]
    ensures r.Some? ==> forall k :: k in root && root[k].File? ==> k in r.value && r.value[k].File?
    decreases |listing|
  {
    if listing == [] then Some(root)
    else
      var name := listing[0];
      if name in root && root[name].Folder? && Qualifies(isDecimal, name) then
        match ProcessFolder(isDecimal, root, name)
        case None => None
        case Some(next) =>
          ProcessFolderSpec(isDecimal, root, name);
          Walk(isDecimal, next, listing[1..])
      else Walk(isDecimal, root, listing[1..])
  }

  /** `main`: with the wrong number of arguments nothing changes. */
  function Main(isDecimal: char -> bool, argv: seq<string>, root: map<string, Node>, listing: seq<string>): (r: Option<map<string, Node>>)
    ensures |argv| != 2 ==> r == Some(root)
    ensures r.Some? ==> forall k :: k in root && !Qualifies(isDecimal, k) ==> k in r.value && r.value[k] == root[k]
    ensures r.Some? ==> forall k :: k in root && root[k].File? ==> k in r.value && r.value[k].File?
  {
    if |argv| != 2 then Some(root) else Walk(isDecimal, root, listing)
  }
}

=== FILE: checker.dfy ===
/**
 The file-name checker (checker.c): every file name is shown with its spaces
 made visible — a lone space on a green background, a run of several spaces
 on a red one — the names with such runs are listed first, and a name can be
 edited in place to rename the file.
 */
module Checker {
  import opened Wrappers
  import opened Text
  import opened Paths

  const GreenSpan: string := "<span background='#0f5c22'> </span>"
  const RedOpen: string := "<span background='#8a1b1b'>"
  const SpanClose: string := "</span>"

  function Spaces(n: nat): (r: string)
    ensures |r| == n && forall k :: 0 <= k < n ==> r[k] == ' '
  {
    seq(n, _ => ' ')
  }

  /** `"<span background='#8a1b1b'>%*s</span>"` with width `n`: `n` spaces. */
  function RedSpan(n: nat): string {
    RedOpen + Spaces(n) + SpanClose
  }

  // ---- Cutting a name into runs ----------------------------------------

  /** A maximal run of `n` spaces, or a maximal chunk without spaces. */
  datatype Token = Gap(n: nat) | Word(w: string)

  /** The end of the run of spaces starting at `i`. */
  function SpaceEnd(s: string, i: nat): (j: nat)
    requires i <= |s|
    ensures i <= j <= |s| && (forall k :: i <= k < j ==> s[k] == ' ') && (j < |s| ==> s[j] != ' ')
    decreases |s| - i
  {
    if i < |s| && s[i] == ' ' then SpaceEnd(s, i + 1) else i
  }

  /** The end of the chunk without spaces starting at `i`. */
  function WordEnd(s: string, i: nat): (j: nat)
    requires i <= |s|
    ensures i <= j <= |s| && (forall k :: i <= k < j ==> s[k] != ' ') && (j < |s| ==> s[j] == ' ')
    decreases |s| - i
  {
    if i < |s| && s[i] != ' ' then WordEnd(s, i + 1) else i
  }

  /** No empty token, words hold no space, and a gap and a word alternate,
      so every run is maximal. */
  predicate Maximal(ts: seq<Token>) {
    && (forall k :: 0 <= k < |ts| ==> (ts[k].Gap? ==> ts[k].n > 0) && (ts[k].Word? ==> ts[k].w != [] && ' ' !in ts[k].w))
    && (forall k :: 0 <= k < |ts| - 1 ==> ts[k].Gap? != ts[k + 1].Gap?)
  }

  /** The runs of `s[i..]`, in order. */
  function TokensFrom(s: string, i: nat): (r: seq<Token>)
    requires i <= |s|
    ensures r == [] <==> i == |s|
    ensures r != [] ==> (r[0].Gap? <==> s[i] == ' ')
    ensures Maximal(r)
    decreases |s| - i
  {
    if i == |s| then []
    else if s[i] == ' ' then
      var j := SpaceEnd(s, i);
      [Gap(j - i)] + TokensFrom(s, j)
    else
      var j := WordEnd(s, i);
      [Word(s[i..j])] + TokensFrom(s, j)
  }

  /** The text a sequence of runs stands for. */
  function Flatten(ts: seq<Token>): string {
    if ts == [] then []
    else (match ts[0] case Gap(n) => Spaces(n) case Word(w) => w) + Flatten(ts[1..])
  }

  /** Cutting loses nothing: the runs put back together are the name. */
  lemma {:induction false} TokensFlatten(s: string, i: nat)
    requires i <= |s|
    ensures Flatten(TokensFrom(s, i)) == s[i..]
    decreases |s| - i
  {
    if i < |s| {
      var j := if s[i] == ' ' then SpaceEnd(s, i) else WordEnd(s, i);
      TokensFlatten(s, j);
      FlattenStep(s, i, j);
    }
  }

  lemma FlattenStep(s: string, i: nat, j: nat)
    requires i < |s| && j == (if s[i] == ' ' then SpaceEnd(s, i) else WordEnd(s, i))
    requires Flatten(TokensFrom(s, j)) == s[j..]
    ensures Flatten(TokensFrom(s, i)) == s[i..]
  {
    var ts := TokensFrom(s, i);
    assert ts[1..] == TokensFrom(s, j);
    if s[i] == ' ' {
      assert Spaces(j - i) == s[i..j];
    }
    assert s[i..] == s[i..j] + s[j..];
  }

  // ---- Markup ----------------------------------------------------------

  /** One run shown: a lone space green, a longer run red with the same
      number of spaces, a chunk escaped by `escape` (`g_markup_escape_text`). */
  function RenderToken(escape: string -> string, t: Token): string {
    match t
    case Gap(n) => if n > 1 then RedSpan(n) else GreenSpan
    case Word(w) => escape(w)
  }

  function Render(escape: string -> string, ts: seq<Token>): string {
    if ts == [] then [] else RenderToken(escape, ts[0]) + Render(escape, ts[1..])
  }

  /** The markup of a name: its runs shown one after the other. */
  function Markup(escape: string -> string, name: string): (r: string)
    ensures name == [] ==> r == []
    ensures name != [] && ' ' !in name ==> r == escape(name)
    ensures name != [] && (forall k :: 0 <= k < |name| ==> name[k] == ' ') ==>
      r == (if |name| > 1 then RedSpan(|name|) else GreenSpan)
  {
    var ts := TokensFrom(name, 0);
    if name == [] then
      Render(escape, ts)
    else
      var j := if name[0] == ' ' then SpaceEnd(name, 0) else WordEnd(name, 0);
      assert ' ' !in name ==> j == |name|;
      assert (forall k :: 0 <= k < |name| ==> name[k] == ' ') ==> j == |name|;
      assert ts[1..] == TokensFrom(name, j);
      assert name[0..|name|] == name;
      assert Render(escape, ts) == RenderToken(escape, ts[0]) + Render(escape, TokensFrom(name, j));
      Render(escape, ts)
  }

  /** Some run has two or more spaces. */
  function Wide(ts: seq<Token>): bool {
    ts != [] && ((ts[0].Gap? && ts[0].n > 1) || Wide(ts[1..]))
  }

  predicate HasDoubleSpace(s: string) {
    exists k :: 0 <= k < |s| - 1 && s[k] == ' ' && s[k + 1] == ' '
  }

  /** A run of two or more spaces starts at or after `i` exactly when two
      consecutive spaces do. */
  lemma {:induction false} WideFrom(s: string, i: nat)
    requires i <= |s|
    ensures Wide(TokensFrom(s, i)) <==> exists k :: i <= k < |s| - 1 && s[k] == ' ' && s[k + 1] == ' '
    decreases |s| - i
  {
    if i < |s| {
      var ts := TokensFrom(s, i);
      var j := if s[i] == ' ' then SpaceEnd(s, i) else WordEnd(s, i);
      WideFrom(s, j);
      assert ts[1..] == TokensFrom(s, j);
      if s[i] == ' ' && j - i > 1 {
        assert s[i] == ' ' && s[i + 1] == ' ';
      }
      forall k | i <= k < j && k < |s| - 1 && s[k] == ' ' && s[k + 1] == ' '
        ensures s[i] == ' ' && j - i > 1
      {
      }
    }
  }

  /** The end of the run of spaces (`space`) or of other characters
      starting at `i`. */
  method SkipRun(name: string, i: nat, space: bool) returns (j: nat)
    requires i <= |name|
    ensures j == if space then SpaceEnd(name, i) else WordEnd(name, i)
  {
    j := i;
    while j < |name| && (name[j] == ' ') == space
      invariant i <= j <= |name|
      invariant (if space then SpaceEnd(name, j) else WordEnd(name, j)) == (if space then SpaceEnd(name, i) else WordEnd(name, i))
      decreases |name| - j
    {
      j := j + 1;
    }
  }

  /** `generate_markup`: the markup of `name` and whether it holds a run of
      several spaces. */
  method GenerateMarkup(escape: string -> string, name: string) returns (markup: string, multi: bool)
    ensures markup == Markup(escape, name)
    ensures multi <==> HasDoubleSpace(name)
    ensures name == [] ==> markup == [] && !multi
  {
    markup := [];
    multi := false;
    var i := 0;
    while i < |name|
      invariant i <= |name|
      invariant markup + Render(escape, TokensFrom(name, i)) == Markup(escape, name)
      invariant (multi || Wide(TokensFrom(name, i))) == Wide(TokensFrom(name, 0))
      decreases |name| - i
    {
      ghost var before := markup;
      var j := SkipRun(name, i, name[i] == ' ');
      ghost var t := if name[i] == ' ' then Gap(j - i) else Word(name[i..j]);
      TokensCons(escape, name, i, j, t);
      if name[i] == ' ' {
        var spaces := j - i;
        if spaces > 1 {
          multi := true;
          markup := markup + RedSpan(spaces);
        } else {
          markup := markup + GreenSpan;
        }
      } else {
        markup := markup + escape(name[i..j]);
      }
      i := j;
      Associative(before, RenderToken(escape, t), Render(escape, TokensFrom(name, i)));
    }
    WideFrom(name, 0);
  }

  lemma Associative(a: string, b: string, c: string)
    ensures (a + b) + c == a + (b + c)
  {
  }

  /** The runs from `i` are the run `t` ending at `j` and the runs after it. */
  lemma TokensCons(escape: string -> string, s: string, i: nat, j: nat, t: Token)
    requires i < j <= |s|
    requires t == (if s[i] == ' ' then Gap(SpaceEnd(s, i) - i) else Word(s[i..WordEnd(s, i)]))
    requires j == (if s[i] == ' ' then SpaceEnd(s, i) else WordEnd(s, i))
    ensures Render(escape, TokensFrom(s, i)) == RenderToken(escape, t) + Render(escape, TokensFrom(s, j))
    ensures Wide(TokensFrom(s, i)) == ((t.Gap? && t.n > 1) || Wide(TokensFrom(s, j)))
  {
    var ts := TokensFrom(s, i);
    assert ts == [t] + TokensFrom(s, j);
    assert ts[1..] == TokensFrom(s, j);
  }

  // ---- Listing order ---------------------------------------------------

  /** A listed file: its path, its name, the name's markup and whether the
      name holds a run of several spaces. */
  datatype FileItem = FileItem(fullPath: string, name: string, markup: string, multiSpace: bool)

  /** The entry `scan_dir` makes for the file `entry` of directory `dir`. */
  method ListItem(escape: string -> string, dir: string, entry: string) returns (item: FileItem)
    ensures item.fullPath == GBuildFilename(dir, entry) && item.name == entry
    ensures item.markup == Markup(escape, entry)
    ensures item.multiSpace <==> HasDoubleSpace(entry)
  {
    var markup, multi := GenerateMarkup(escape, entry);
    item := FileItem(GBuildFilename(dir, entry), entry, markup, multi);
  }

  /** `sort_func`: a negative result puts `a` first. `collate` is
      `g_utf8_collate`. */
  function SortFunc(collate: (string, string) -> int, a: FileItem, b: FileItem): (r: int)
    ensures a.multiSpace && !b.multiSpace ==> r < 0
    ensures !a.multiSpace && b.multiSpace ==> r > 0
    ensures a.multiSpace == b.multiSpace ==> r == collate(a.name, b.name)
  {
    if a.multiSpace != b.multiSpace then
      (if b.multiSpace then 1 else 0) - (if a.multiSpace then 1 else 0)
    else collate(a.name, b.name)
  }

  /** The order `g_ptr_array_sort` leaves the list in. */
  predicate Sorted(collate: (string, string) -> int, items: seq<FileItem>) {
    forall i, j :: 0 <= i < j < |items| ==> SortFunc(collate, items[i], items[j]) <= 0
  }

  /** In a sorted list every name with a run of spaces comes before every
      other name, and names of the same kind are in collation order. */
  lemma SortedGroups(collate: (string, string) -> int, items: seq<FileItem>, i: nat, j: nat)
    requires Sorted(collate, items) && i < j < |items|
    ensures items[j].multiSpace ==> items[i].multiSpace
    ensures items[i].multiSpace == items[j].multiSpace ==> collate(items[i].name, items[j].name) <= 0
  {
    assert SortFunc(collate, items[i], items[j]) <= 0;
  }

  // ---- Renaming --------------------------------------------------------

  /** `on_rename_confirm`: nothing to do for an empty or unchanged name,
      else the new path, next to the old one. */
  function RenameTarget(item: FileItem, newText: string): (r: Option<string>)
    ensures r.None? <==> newText == [] || newText == item.name
  {
    if |newText| == 0 || newText == item.name then None
    else Some(GBuildFilename(GDirname(item.fullPath), newText))
  }

  /** The renamed file stays in its directory and gets the new text as its
      name. */
  lemma RenameInPlace(item: FileItem, newText: string)
    requires newText != [] && newText != item.name && '/' !in newText
    ensures RenameTarget(item, newText) == Some(TrimSlashEnd(GDirname(item.fullPath)) + "/" + newText)
    ensures Basename(RenameTarget(item, newText).value) == newText
  {
    var dir := GDirname(item.fullPath);
    assert newText[0] != '/';
    var r := TrimSlashEnd(dir) + "/" + newText;
    assert Basename(r) == newText by {
      BasenameAfterSlash(TrimSlashEnd(dir), newText);
    }
  }
}

=== FILE: cue.dfy ===
/**
 WAV2FLACcue.py: every `.wav` file of a tree is transcoded to FLAC next to
 itself, and every cue sheet is rewritten so that its `FILE "… .wav" WAVE`
 lines name the `.flac` file instead.
 */
module CueConvert {
  import opened Wrappers
  import opened Text
  import opened Seqs
  import opened Paths

  // ---- Transcoding -----------------------------------------------------

  /** `wav_path.rsplit(".", 1)[0] + ".flac"`. */
  function FlacPath(wavPath: string): string {
    BeforeLast(wavPath, '.') + ".flac"
  }

  /** For a `.wav` file only the extension changes. */
  lemma FlacPathOfWav(wavPath: string)
    requires EndsWith(wavPath, ".wav")
    ensures FlacPath(wavPath) == wavPath[..|wavPath| - 4] + ".flac"
  {
    var n := |wavPath|;
    assert wavPath[n - 4..] == ".wav";
    assert wavPath[n - 4] == '.';
    assert forall j :: n - 4 < j < n ==> wavPath[j] != '.';
    assert '.' in wavPath;
    assert |BeforeLast(wavPath, '.')| == n - 4;
  }

  predicate IsWav(name: string) {
    EndsWith(name, ".wav")
  }

  predicate IsCue(name: string) {
    EndsWith(name, ".cue")
  }

  /** `f"[{wav_path}]--->[{flac_path}]"`. */
  function ReportLine(wavPath: string): string {
    "[" + wavPath + "]--->[" + FlacPath(wavPath) + "]"
  }

  /** The report entries of one directory of the walk: one per `.wav` file,
      in listing order. */
  function DirReport(root: string, files: seq<string>): (r: seq<string>)
    ensures |r| == |Filter(files, IsWav)|
    ensures forall i :: 0 <= i < |r| ==> r[i] == ReportLine(JoinPath(root, Filter(files, IsWav)[i]))
  {
    var ws := Filter(files, IsWav);
    seq(|ws|, i requires 0 <= i < |ws| => ReportLine(JoinPath(root, ws[i])))
  }

  /** A directory reports exactly its `.wav` files. */
  lemma DirReportSpec(root: string, files: seq<string>, x: string)
    ensures x in DirReport(root, files) <==> exists f :: f in files && IsWav(f) && x == ReportLine(JoinPath(root, f))
  {
    var ws := Filter(files, IsWav);
    if x in DirReport(root, files) {
      var i :| 0 <= i < |ws| && DirReport(root, files)[i] == x;
      assert ws[i] in ws;
    }
    forall f | f in files && IsWav(f) && x == ReportLine(JoinPath(root, f))
      ensures x in DirReport(root, files)
    {
      assert f in ws;
      var i :| 0 <= i < |ws| && ws[i] == f;
      assert DirReport(root, files)[i] == x;
    }
  }

  /** `convert`'s report over the walk. */
  function Report(walk: seq<(string, seq<string>)>): seq<string> {
    Concat(seq(|walk|, i requires 0 <= i < |walk| => DirReport(walk[i].0, walk[i].1)))
  }

  // ---- Cue sheets ------------------------------------------------------

  /** Python's `line.find('"')`, with -1 for no quote. */
  function FirstQuote(line: string): int {
    match IndexOf(line, '"') case None => -1 case Some(k) => k
  }

  /** Python's `line.rfind('"')`, with -1 for no quote. */
  function LastQuote(line: string): int {
    match LastIndexOf(line, '"') case None => -1 case Some(k) => k
  }

  predicate IsFileWaveLine(line: string) {
    Contains(line, "FILE") && Contains(line, "WAVE")
  }

  /** The cue line rewrite as the script performs it, Python's negative
      slice bounds included: with no quote `start` is 0 and `end` is -1. */
  function CueLineAsWritten(line: string): (r: string)
    ensures !IsFileWaveLine(line) ==> r == line
  {
    if IsFileWaveLine(line) then Splice(line, FirstQuote(line) + 1, LastQuote(line)) else line
  }

  /** A `FILE … WAVE` line is at least as long as those two words. */
  lemma FileWaveLength(line: string)
    requires IsFileWaveLine(line)
    ensures |line| >= 4
  {
    var k :| 0 <= k <= |line| - 4 && OccursAt(line, "FILE", k);
  }

  /** `line[:start] + line[start:end].rsplit('.', 1)[0] + '.flac' + line[end:]`. */
  function Splice(line: string, start: int, end: int): string {
    PySlice(line, 0, start) + BeforeLast(PySlice(line, start, end), '.') + ".flac" + PySlice(line, end, |line|)
  }

  /** Without a quote the script takes the whole line but its last
      character for the file name, so `FILE a.wav WAVE` comes out as
      `FILE a.flac`: the file type is lost. */
  lemma UnquotedLineLosesWave(line: string)
    requires IsFileWaveLine(line) && '"' !in line && EndsWith(line, " WAVE\n")
    ensures CueLineAsWritten(line) == BeforeLast(line[..|line| - 1], '.') + ".flac\n"
    ensures !EndsWith(CueLineAsWritten(line), "WAVE\n")
  {
    assert FirstQuote(line) == -1 && LastQuote(line) == -1;
    SpliceUnquoted(line);
  }

  /** As written, a `FILE … WAVE` line without any quote is cut before its
      last character: everything before that character's last dot is kept,
      `.flac` is added and the last character follows. */
  lemma AsWrittenUnquoted(line: string)
    requires IsFileWaveLine(line) && '"' !in line
    ensures CueLineAsWritten(line) == BeforeLast(line[..|line| - 1], '.') + ".flac" + line[|line| - 1..]
  {
    FileWaveLength(line);
    assert FirstQuote(line) == -1 && LastQuote(line) == -1;
    SpliceWhole(line);
  }

  /** The cut the script makes when it finds no quote. */
  lemma SpliceWhole(line: string)
    requires |line| > 0
    ensures Splice(line, 0, -1) == BeforeLast(line[..|line| - 1], '.') + ".flac" + line[|line| - 1..]
  {
    var n := |line|;
    assert PySlice(line, 0, -1) == line[..n - 1];
    assert PySlice(line, 0, 0) == "";
    assert PySlice(line, -1, n) == line[n - 1..];
  }

  /** As written, a `FILE … WAVE` line with a single quote gets `.flac`
      inserted after it and the quote repeated: `FILE "a.wav WAVE` becomes
      `FILE ".flac"a.wav WAVE`. */
  lemma AsWrittenOneQuote(line: string, k: nat)
    requires IsFileWaveLine(line) && k < |line| && line[k] == '"'
    requires forall j :: 0 <= j < |line| && j != k ==> line[j] != '"'
    ensures CueLineAsWritten(line) == line[..k + 1] + ".flac" + line[k..]
  {
    assert '"' in line;
    assert IndexOf(line, '"') == Some(k);
    assert LastIndexOf(line, '"') == Some(k);
    assert PySlice(line, 0, k + 1) == line[..k + 1];
    assert PySlice(line, k + 1, k) == "";
    assert BeforeLast("", '.') == "";
    assert PySlice(line, k, |line|) == line[k..];
  }

  lemma SpliceUnquoted(line: string)
    requires EndsWith(line, " WAVE\n")
    ensures Splice(line, 0, -1) == BeforeLast(line[..|line| - 1], '.') + ".flac\n"
    ensures !EndsWith(Splice(line, 0, -1), "WAVE\n")
  {
    var n := |line|;
    assert PySlice(line, 0, -1) == line[..n - 1];
    assert PySlice(line, 0, 0) == "";
    assert PySlice(line, -1, n) == "\n" by {
      assert line[n - 1] == "\n"[0];
    }
    var r := Splice(line, 0, -1);
    assert r == "" + BeforeLast(line[..n - 1], '.') + ".flac" + "\n";
    assert r[|r| - 2] == 'c';
  }

  /** A line naming its file between two quotes. */
  predicate Quoted(line: string) {
    match (IndexOf(line, '"'), LastIndexOf(line, '"'))
    case (Some(s), Some(e)) => s < e
    case _ => false
  }

  /** The cue line rewrite as intended: a `FILE … WAVE` line with a quoted
      name gets that name's extension replaced by `.flac`; every other line,
      including one without a quoted name, is kept. */
  function CueLine(line: string): (r: string)
    ensures !IsFileWaveLine(line) || !Quoted(line) ==> r == line
  {
    if IsFileWaveLine(line) && Quoted(line) then CueLineAsWritten(line) else line
  }

  /** On a rewritten line the text up to and including the first quote and
      from the last quote on is kept, and the quoted name loses its final
      extension and gains `.flac`. */
  lemma CueLineRewrites(line: string)
    requires IsFileWaveLine(line) && Quoted(line)
    ensures var s := IndexOf(line, '"').value;
      var e := LastIndexOf(line, '"').value;
      s < e && CueLine(line) == line[..s + 1] + BeforeLast(line[s + 1..e], '.') + ".flac" + line[e..]
  {
    QuotedIndices(line);
    var s := IndexOf(line, '"').value;
    var e := LastIndexOf(line, '"').value;
    assert s < e < |line| && CueLine(line) == Splice(line, s + 1, e) by {
      QuoteBounds(line);
    }
    assert Splice(line, s + 1, e) == line[..s + 1] + BeforeLast(line[s + 1..e], '.') + ".flac" + line[e..] by {
      SpliceQuoted(line, s, e);
    }
  }

  /** On a quoted line the script cuts just after the first quote and at the last. */
  lemma QuoteBounds(line: string)
    requires IsFileWaveLine(line) && Quoted(line)
    ensures IndexOf(line, '"').Some? && LastIndexOf(line, '"').Some?
    ensures IndexOf(line, '"').value < LastIndexOf(line, '"').value < |line|
    ensures CueLine(line) == Splice(line, IndexOf(line, '"').value + 1, LastIndexOf(line, '"').value)
  {
    QuotedIndices(line);
    var s := IndexOf(line, '"').value;
    var e := LastIndexOf(line, '"').value;
    assert FirstQuote(line) == s && LastQuote(line) == e;
    assert CueLine(line) == CueLineAsWritten(line);
  }

  lemma QuotedIndices(line: string)
    requires Quoted(line)
    ensures IndexOf(line, '"').Some? && LastIndexOf(line, '"').Some?
    ensures IndexOf(line, '"').value < LastIndexOf(line, '"').value < |line|
  {
    match (IndexOf(line, '"'), LastIndexOf(line, '"'))
    case (Some(s), Some(e)) =>
  }

  lemma SpliceQuoted(line: string, s: nat, e: nat)
    requires s < e < |line|
    ensures Splice(line, s + 1, e) == line[..s + 1] + BeforeLast(line[s + 1..e], '.') + ".flac" + line[e..]
  {
    assert PySlice(line, s + 1, e) == line[s + 1..e];
    assert PySlice(line, 0, s + 1) == line[..s + 1];
    assert PySlice(line, e, |line|) == line[e..];
  }

  /** A name without a dot just gets `.flac` appended. */
  lemma DotlessNameGainsFlac(line: string)
    requires IsFileWaveLine(line) && Quoted(line)
    requires '.' !in line[IndexOf(line, '"').value + 1..LastIndexOf(line, '"').value]
    ensures CueLine(line) == line[..LastIndexOf(line, '"').value] + ".flac" + line[LastIndexOf(line, '"').value..]
  {
    QuotedIndices(line);
    var s := IndexOf(line, '"').value;
    var e := LastIndexOf(line, '"').value;
    assert CueLine(line) == line[..s + 1] + BeforeLast(line[s + 1..e], '.') + ".flac" + line[e..] by {
      CueLineRewrites(line);
    }
    assert line[..s + 1] + BeforeLast(line[s + 1..e], '.') + ".flac" + line[e..] == line[..e] + ".flac" + line[e..] by {
      DotlessSplice(line, s, e);
    }
  }

  lemma DotlessSplice(line: string, s: nat, e: nat)
    requires s < e <= |line| && '.' !in line[s + 1..e]
    ensures line[..s + 1] + BeforeLast(line[s + 1..e], '.') + ".flac" + line[e..] == line[..e] + ".flac" + line[e..]
  {
    assert line[..s + 1] + line[s + 1..e] == line[..e];
  }

  /** One line as `readlines` returns it: a line break can only end it. */
  predicate OneLine(s: string) {
    |s| > 0 && forall j :: 0 <= j < |s| - 1 ==> s[j] != '\n'
  }

  /** The rewrite keeps a line's last character, and adds no line break:
      a line read by `readlines` is written back as one line. */
  lemma CueLineKeepsBreak(line: string)
    requires OneLine(line)
    ensures OneLine(CueLine(line)) && CueLine(line)[|CueLine(line)| - 1] == line[|line| - 1]
  {
    if IsFileWaveLine(line) && Quoted(line) {
      QuotedIndices(line);
      var s := IndexOf(line, '"').value;
      var e := LastIndexOf(line, '"').value;
      assert CueLine(line) == line[..s + 1] + BeforeLast(line[s + 1..e], '.') + ".flac" + line[e..] by {
        CueLineRewrites(line);
      }
      KeepsBreak(line, s, e);
    } else {
      assert CueLine(line) == line;
    }
  }

  lemma KeepsBreak(line: string, s: nat, e: nat)
    requires OneLine(line) && s < e < |line|
    ensures var r := line[..s + 1] + BeforeLast(line[s + 1..e], '.') + ".flac" + line[e..];
      OneLine(r) && r[|r| - 1] == line[|line| - 1]
  {
    var head := line[..s + 1] + BeforeLast(line[s + 1..e], '.') + ".flac";
    assert '\n' !in line[..e];
    assert '\n' !in head by {
      assert BeforeLast(line[s + 1..e], '.') <= line[s + 1..e];
    }
    Glue(head, line[e..]);
  }

  lemma Glue(head: string, tail: string)
    requires '\n' !in head && OneLine(tail)
    ensures OneLine(head + tail) && (head + tail)[|head + tail| - 1] == tail[|tail| - 1]
  {
    var r := head + tail;
    forall j | 0 <= j < |r| - 1 ensures r[j] != '\n' {
      if j < |head| {
        assert r[j] == head[j];
      } else {
        assert r[j] == tail[j - |head|];
      }
    }
  }

  /** A cue sheet rewritten line by line keeps its line count. */
  function RewriteCue(lines: seq<string>): (r: seq<string>)
    ensures |r| == |lines| && forall i :: 0 <= i < |r| ==> r[i] == CueLine(lines[i])
  {
    seq(|lines|, i requires 0 <= i < |lines| => CueLine(lines[i]))
  }

  /** The cue sheet as the script writes it back, line by line. */
  function RewriteCueAsWritten(lines: seq<string>): (r: seq<string>)
    ensures |r| == |lines| && forall i :: 0 <= i < |r| ==> r[i] == CueLineAsWritten(lines[i])
  {
    seq(|lines|, i requires 0 <= i < |lines| => CueLineAsWritten(lines[i]))
  }

  /** The two rewrites differ only on `FILE … WAVE` lines without a quoted
      name: a sheet whose every such line quotes its file comes out the same. */
  lemma AsWrittenAgrees(lines: seq<string>)
    requires forall i :: 0 <= i < |lines| && IsFileWaveLine(lines[i]) ==> Quoted(lines[i])
    ensures RewriteCueAsWritten(lines) == RewriteCue(lines)
  {
    forall i | 0 <= i < |lines| ensures CueLineAsWritten(lines[i]) == CueLine(lines[i]) { }
  }
}

=== FILE: epub.dfy ===
/**
 The two EPUB metadata embedders: each walks a directory tree, pairs EPUB
 books with an OPF metadata file of the same directory, and hands every pair
 to `ebook-meta --from-opf`. epub_metadata_embedder.py pairs by file name;
 opf-embed.py uses the `metadata.opf` that Calibre writes next to a single
 book.
 */
module EpubPairing {
  import opened Wrappers
  import opened Text
  import opened Seqs
  import opened Paths

  /** A directory of the walk: its path and the names of its files. */
  type Dir = (string, seq<string>)

  /** The names whose lower-cased form ends with `ext`, in listing order. */
  function WithExt(names: seq<string>, ext: string): (r: seq<string>)
    ensures forall f :: f in r <==> f in names && LowerEndsWith(f, ext)
  {
    Filter(names, (f: string) => LowerEndsWith(f, ext))
  }

  /** `os.path.splitext(f)[0]`. */
  function Base(f: string): string {
    SplitExt(f).0
  }

  predicate ExactMatch(epub: string, opf: string) {
    Base(opf) == Base(epub)
  }

  /** The fallback: the book's base name occurs in the OPF's name, or the
      OPF's base name occurs in the book's base name. */
  predicate FuzzyMatch(epub: string, opf: string) {
    Contains(opf, Base(epub)) || Contains(Base(epub), Base(opf))
  }

  /** The OPF chosen for `epub`: the first with the same base name, else the
      first fuzzy match, else none. */
  function MatchOpf(epub: string, opfs: seq<string>): (r: Option<string>)
    ensures r.Some? ==> r.value in opfs
  {
    match First(opfs, (o: string) => ExactMatch(epub, o))
    case Some(o) => Some(o)
    case None => First(opfs, (o: string) => FuzzyMatch(epub, o))
  }

  /** An OPF with the book's base name always wins, and the first one in
      listing order is taken. */
  lemma ExactWins(epub: string, opfs: seq<string>, k: nat)
    requires k < |opfs| && ExactMatch(epub, opfs[k])
    ensures MatchOpf(epub, opfs).Some?
    ensures exists i :: (0 <= i <= k && opfs[i] == MatchOpf(epub, opfs).value && ExactMatch(epub, opfs[i])
      && forall j :: 0 <= j < i ==> !ExactMatch(epub, opfs[j]))
  {
    var p := (o: string) => ExactMatch(epub, o);
    assert p(opfs[k]);
    var r := First(opfs, p);
    var i :| 0 <= i < |opfs| && opfs[i] == r.value && forall j :: 0 <= j < i ==> !p(opfs[j]);
    assert i <= k;
  }

  /** Without an exact match the first fuzzy match in listing order is
      taken, and without one either the book is skipped. */
  lemma FuzzyFallback(epub: string, opfs: seq<string>)
    requires forall j :: 0 <= j < |opfs| ==> !ExactMatch(epub, opfs[j])
    ensures MatchOpf(epub, opfs).None? <==> forall j :: 0 <= j < |opfs| ==> !FuzzyMatch(epub, opfs[j])
    ensures MatchOpf(epub, opfs).Some? ==> exists i :: (0 <= i < |opfs| && opfs[i] == MatchOpf(epub, opfs).value
      && FuzzyMatch(epub, opfs[i]) && forall j :: 0 <= j < i ==> !FuzzyMatch(epub, opfs[j]))
  {
    var p := (o: string) => ExactMatch(epub, o);
    assert forall j :: 0 <= j < |opfs| ==> !p(opfs[j]);
    assert First(opfs, p).None?;
  }

  /** The `(dirpath, epub, opf)` targets of the books `epubs` of `dir`. Every
      book is matched against all of `opfs`: an OPF is never used up. */
  function Pairings(dir: string, epubs: seq<string>, opfs: seq<string>): (r: seq<(string, string, string)>)
    ensures |r| <= |epubs|
  {
    if epubs == [] then []
    else
      var rest := Pairings(dir, epubs[1..], opfs);
      match MatchOpf(epubs[0], opfs)
      case Some(o) => [(dir, epubs[0], o)] + rest
      case None => rest
  }

  /** A target names a book of the directory with the OPF chosen for it; a
      book has a target exactly when an OPF matches it. */
  lemma {:induction false} PairingsSpec(dir: string, epubs: seq<string>, opfs: seq<string>, t: (string, string, string))
    ensures t in Pairings(dir, epubs, opfs) <==>
      t.0 == dir && t.1 in epubs && MatchOpf(t.1, opfs) == Some(t.2)
    decreases |epubs|
  {
    if epubs != [] {
      PairingsSpec(dir, epubs[1..], opfs, t);
      assert t.1 in epubs <==> t.1 == epubs[0] || t.1 in epubs[1..];
    }
  }

  /** `find_targets` for one directory: nothing unless it holds both an
      `.epub` and an `.opf`, compared without regard to case. */
  function DirTargets(d: Dir): (r: seq<(string, string, string)>)
    ensures r != [] ==> WithExt(d.1, ".epub") != [] && WithExt(d.1, ".opf") != []
  {
    var epubs := WithExt(d.1, ".epub");
    var opfs := WithExt(d.1, ".opf");
    if epubs == [] || opfs == [] then [] else Pairings(d.0, epubs, opfs)
  }

  /** Each target of a directory pairs one of its books with one of its
      OPFs, and two books may share an OPF. */
  lemma DirTargetsSpec(d: Dir, t: (string, string, string))
    ensures t in DirTargets(d) <==>
      t.0 == d.0 && t.1 in d.1 && LowerEndsWith(t.1, ".epub") && WithExt(d.1, ".opf") != []
      && MatchOpf(t.1, WithExt(d.1, ".opf")) == Some(t.2)
    ensures t in DirTargets(d) ==> t.2 in d.1 && LowerEndsWith(t.2, ".opf")
  {
    PairingsSpec(d.0, WithExt(d.1, ".epub"), WithExt(d.1, ".opf"), t);
  }

  /** `find_targets`: the targets of every directory of the walk, in walk order. */
  function FindTargets(walk: seq<Dir>): seq<(string, string, string)> {
    Concat(seq(|walk|, i requires 0 <= i < |walk| => DirTargets(walk[i])))
  }

  /** Every target comes from one directory of the walk and satisfies that
      directory's rule. */
  lemma FindTargetsFrom(walk: seq<Dir>, t: (string, string, string))
    ensures t in FindTargets(walk) <==> exists i :: 0 <= i < |walk| && t in DirTargets(walk[i])
  {
    var ss := seq(|walk|, i requires 0 <= i < |walk| => DirTargets(walk[i]));
    ConcatHas(ss, t);
    assert forall i :: 0 <= i < |walk| ==> ss[i] == DirTargets(walk[i]);
  }

  /** `ebook-meta <epub> --from-opf <opf>`. */
  function EbookMeta(epubPath: string, opfPath: string): (r: seq<string>)
    ensures |r| == 4 && r[1] == epubPath && r[3] == opfPath
  {
    ["ebook-meta", epubPath, "--from-opf", opfPath]
  }

  /** The command `embed_metadata_to_epub` runs for a target: both files
      are taken from the target's directory. */
  function EmbedCommand(t: (string, string, string)): (r: seq<string>)
    ensures |r| == 4 && r[0] == "ebook-meta" && r[2] == "--from-opf"
  {
    EbookMeta(JoinPath(t.0, t.1), JoinPath(t.0, t.2))
  }

  /** The command names the target's book and OPF. */
  lemma EmbedNamesTarget(t: (string, string, string))
    requires t.1 != [] && '/' !in t.1 && t.2 != [] && '/' !in t.2
    ensures Basename(EmbedCommand(t)[1]) == t.1 && Basename(EmbedCommand(t)[3]) == t.2
  {
    BasenameOfJoin(t.0, t.1);
    BasenameOfJoin(t.0, t.2);
  }

  /** The optional backup copy: the book's path plus `.bak.epub`. */
  function BackupPath(epubPath: string): (r: string)
    ensures |r| == |epubPath| + 9 && r[..|epubPath|] == epubPath && EndsWith(r, ".bak.epub")
  {
    epubPath + ".bak.epub"
  }
}

/** opf-embed.py: a directory is used only when it holds Calibre's
    `metadata.opf` and exactly one EPUB. */
module OpfEmbed {
  import opened Wrappers
  import opened Text
  import opened Seqs
  import opened Paths
  import EpubPairing

  type Dir = EpubPairing.Dir

  const MetadataOpf: string := "metadata.opf"

  /** The target of one directory, if any: its path and its only EPUB. */
  function DirTarget(d: Dir): (r: Option<(string, string)>)
    ensures r.Some? ==> r.value.0 == d.0 && MetadataOpf in d.1
  {
    if MetadataOpf in d.1 then
      var epubs := EpubPairing.WithExt(d.1, ".epub");
      if |epubs| == 1 then Some((d.0, epubs[0])) else None
    else None
  }

  /** A directory with `metadata.opf` yields a target exactly when it holds
      one EPUB, and then names that EPUB; zero or several yield none. */
  lemma DirTargetSpec(d: Dir)
    ensures DirTarget(d).Some? <==> MetadataOpf in d.1 && |EpubPairing.WithExt(d.1, ".epub")| == 1
    ensures DirTarget(d).Some? ==> DirTarget(d).value.1 in d.1 && LowerEndsWith(DirTarget(d).value.1, ".epub")
    ensures DirTarget(d).Some? ==> forall f :: f in d.1 && LowerEndsWith(f, ".epub") ==> f == DirTarget(d).value.1
  {
    if DirTarget(d).Some? {
      var epubs := EpubPairing.WithExt(d.1, ".epub");
      assert epubs[0] in epubs;
      forall f | f in d.1 && LowerEndsWith(f, ".epub") ensures f == epubs[0] {
        assert f in epubs;
      }
    }
  }

  function Targets(d: Dir): seq<(string, string)> {
    match DirTarget(d)
    case Some(t) => [t]
    case None => []
  }

  /** `find_targets`: one target per qualifying directory, in walk order. */
  function FindTargets(walk: seq<Dir>): seq<(string, string)> {
    Concat(seq(|walk|, i requires 0 <= i < |walk| => Targets(walk[i])))
  }

  /** The targets are exactly those of the directories of the walk. */
  lemma FindTargetsSpec(walk: seq<Dir>, t: (string, string))
    ensures t in FindTargets(walk) <==> exists i :: 0 <= i < |walk| && DirTarget(walk[i]) == Some(t)
  {
    var ss := seq(|walk|, i requires 0 <= i < |walk| => Targets(walk[i]));
    ConcatHas(ss, t);
    assert forall i :: 0 <= i < |walk| ==> (t in ss[i] <==> DirTarget(walk[i]) == Some(t));
  }

  /** The command for a target always reads `metadata.opf` from the
      target's own directory. */
  function EmbedCommand(t: (string, string)): (r: seq<string>)
    ensures |r| == 4 && r[1] == JoinPath(t.0, t.1) && r[3] == JoinPath(t.0, MetadataOpf)
    ensures Basename(r[3]) == MetadataOpf
  {
    BasenameOfJoin(t.0, MetadataOpf);
    EpubPairing.EbookMeta(JoinPath(t.0, t.1), JoinPath(t.0, MetadataOpf))
  }
}

=== FILE: font_index.dfy ===
/**
 The font index of the MKV font tool (`FontManager` in mkvFontmux.py): every
 family, full and PostScript name of every scanned face is stored under its
 normalised key and again with the spaces removed, and a lookup tries the exact
 key first and then, when smart matching is on, the key with a regional
 encoding suffix removed.
 */
module FontIndex {
  import opened Wrappers
  import opened Text
  import opened Paths
  import opened Seqs

  /** One record of an OpenType `name` table, its string already decoded. */
  datatype NameRecord = NameRecord(platformID: int, platEncID: int, langID: int, nameID: int, text: string)

  /** What the index stores for a name: the font file, the face within a
      collection, and the name as the font spells it. */
  datatype FontRecord = FontRecord(filePath: string, fontIndex: nat, displayName: string)

  type Index = map<string, FontRecord>

  /** Regional encoding suffixes tried, in this order, by the smart match. */
  const SmartSuffixes: seq<string> := ["_gbk", "_gb2312", "_big5", "_jis", "_kr"]

  /** Name IDs 1 (family), 4 (full name) and 6 (PostScript name). */
  predicate IsFontNameID(nameID: int) {
    nameID == 1 || nameID == 4 || nameID == 6
  }

  /** `normalize_font_key`: lower-cased, then stripped. */
  function NormalizeKey(name: string): (r: string)
    ensures Trimmed(r) && |r| <= |name|
    ensures forall i :: 0 <= i < |r| ==> !('A' <= r[i] <= 'Z')
  {
    Strip(Lower(name))
  }

  /** The key with its spaces removed. */
  function Spaceless(key: string): string {
    Without(key, ' ')
  }

  /** `Spaceless` is the tool's `key.replace(" ", "")`. */
  lemma SpacelessIsReplace(key: string)
    ensures Spaceless(key) == Replace(key, " ", "")
  {
    ReplaceCharByEmpty(key, ' ');
  }

  /** A record the index takes: a font name ID with a non-empty string. */
  predicate IsIndexedName(rec: NameRecord) {
    IsFontNameID(rec.nameID) && rec.text != ""
  }

  /** The keys a record is stored under: none, or its normalised and spaceless keys. */
  function KeysOf(rec: NameRecord): set<string> {
    if IsIndexedName(rec) then {NormalizeKey(rec.text), Spaceless(NormalizeKey(rec.text))} else {}
  }

  /** `rec` is stored under `key`. */
  predicate Writes(rec: NameRecord, key: string) {
    key in KeysOf(rec)
  }

  /** One step of `_register_font`: the normalised key, then the spaceless key. */
  function RegisterRecord(m: Index, path: string, index: nat, rec: NameRecord): (r: Index)
    ensures r.Keys == m.Keys + KeysOf(rec)
    ensures forall k :: k in KeysOf(rec) ==> r[k] == FontRecord(path, index, rec.text)
    ensures forall k :: k in m && k !in KeysOf(rec) ==> r[k] == m[k]
  {
    if IsIndexedName(rec) then
      var key := NormalizeKey(rec.text);
      var entry := FontRecord(path, index, rec.text);
      m[key := entry][Spaceless(key) := entry]
    else m
  }

  /** `_register_font`: the records of one face in table order. Every key it
      touches now points at this face; every other key is left alone. */
  function RegisterFace(m: Index, path: string, index: nat, recs: seq<NameRecord>): (r: Index)
    ensures m.Keys <= r.Keys
    ensures forall k :: k in r ==> (k in m && r[k] == m[k]) || (r[k].filePath == path && r[k].fontIndex == index)
    decreases |recs|
  {
    if |recs| == 0 then m
    else RegisterFace(RegisterRecord(m, path, index, recs[0]), path, index, recs[1..])
  }

  /** The position of the last record of `recs` stored under `key`: the one
      whose entry survives, since a later registration overwrites an earlier one. */
  function LastWriter(recs: seq<NameRecord>, key: string): (r: Option<nat>)
    ensures r.Some? ==> r.value < |recs| && Writes(recs[r.value], key)
    ensures r.Some? ==> forall j :: r.value < j < |recs| ==> !Writes(recs[j], key)
    ensures r.None? <==> forall j :: 0 <= j < |recs| ==> !Writes(recs[j], key)
  {
    LastIndex(recs, WriterOf(key))
  }

  /** The records stored under `key`, as a predicate. */
  function WriterOf(key: string): NameRecord -> bool {
    rec => Writes(rec, key)
  }

  /** The last record writing `key` is the one with no writer of `key` after it. */
  lemma LastWriterIs(recs: seq<NameRecord>, key: string, v: nat)
    requires v < |recs| && Writes(recs[v], key)
    requires forall j :: v < j < |recs| ==> !Writes(recs[j], key)
    ensures LastWriter(recs, key) == Some(v)
  {
    LastIndexIs(recs, WriterOf(key), v);
  }

  /** One record stores its text under the keys it writes and leaves every
      other key alone. */
  lemma RegisterRecordSpec(m: Index, path: string, index: nat, rec: NameRecord, key: string)
    ensures key in RegisterRecord(m, path, index, rec) <==> key in m || Writes(rec, key)
    ensures Writes(rec, key) ==> RegisterRecord(m, path, index, rec)[key] == FontRecord(path, index, rec.text)
    ensures !Writes(rec, key) && key in m ==> RegisterRecord(m, path, index, rec)[key] == m[key]
  {
  }

  /** Registering a face stores every font name under its normalised key and its
      spaceless key, the last record for a key winning, and changes nothing else. */
  lemma {:induction false} RegisterFaceSpec(m: Index, path: string, index: nat, recs: seq<NameRecord>, key: string)
    ensures key in RegisterFace(m, path, index, recs) <==> key in m || LastWriter(recs, key).Some?
    ensures LastWriter(recs, key).Some? ==>
      RegisterFace(m, path, index, recs)[key] == FontRecord(path, index, recs[LastWriter(recs, key).value].text)
    ensures LastWriter(recs, key).None? && key in m ==> RegisterFace(m, path, index, recs)[key] == m[key]
    decreases |recs|
  {
    if |recs| > 0 {
      var m1 := RegisterRecord(m, path, index, recs[0]);
      var tail := recs[1..];
      assert RegisterFace(m, path, index, recs) == RegisterFace(m1, path, index, tail);
      RegisterRecordSpec(m, path, index, recs[0], key);
      RegisterFaceSpec(m1, path, index, tail, key);
      assert WriterOf(key)(recs[0]) == Writes(recs[0], key);
      FaceStep(m, m1, RegisterFace(m1, path, index, tail), path, index, recs, key, WriterOf(key));
    }
  }

  /** The first record, then the rest: the last record passing `w` is the
      rest's last one if it has one, else the first record if it passes. */
  lemma FaceStep(m: Index, m1: Index, r: Index, path: string, index: nat, recs: seq<NameRecord>, key: string,
                 w: NameRecord -> bool)
    requires |recs| > 0
    requires key in m1 <==> key in m || w(recs[0])
    requires w(recs[0]) ==> m1[key] == FontRecord(path, index, recs[0].text)
    requires !w(recs[0]) && key in m ==> m1[key] == m[key]
    requires key in r <==> key in m1 || LastIndex(recs[1..], w).Some?
    requires LastIndex(recs[1..], w).Some? ==>
      r[key] == FontRecord(path, index, recs[1..][LastIndex(recs[1..], w).value].text)
    requires LastIndex(recs[1..], w).None? && key in m1 ==> r[key] == m1[key]
    ensures key in r <==> key in m || LastIndex(recs, w).Some?
    ensures LastIndex(recs, w).Some? ==> r[key] == FontRecord(path, index, recs[LastIndex(recs, w).value].text)
    ensures LastIndex(recs, w).None? && key in m ==> r[key] == m[key]
  {
    LastIndexCons(recs, w);
    if LastIndex(recs[1..], w).Some? {
      var j := LastIndex(recs[1..], w).value;
      assert recs[1..][j] == recs[j + 1];
    }
  }

  /** A font file found by the directory scan. `faces` is `None` when the file
      could not be opened, else the name records of each face it holds. */
  datatype FontFile = FontFile(path: string, faces: Option<seq<seq<NameRecord>>>)

  /** The extensions the scan picks up, compared case-insensitively. */
  predicate IsFontFile(path: string) {
    var ext := Lower(PathSuffix(path));
    ext == ".ttf" || ext == ".otf" || ext == ".ttc"
  }

  /** The faces of a collection, registered under their positions `from`, `from + 1`, .... */
  function RegisterFaces(m: Index, path: string, faces: seq<seq<NameRecord>>, from: nat): (r: Index)
    ensures m.Keys <= r.Keys
    ensures forall k :: k in r ==> (k in m && r[k] == m[k]) || r[k].filePath == path
    decreases |faces|
  {
    if |faces| == 0 then m
    else RegisterFaces(RegisterFace(m, path, from, faces[0]), path, faces[1..], from + 1)
  }

  /** `_process_font_file`: a collection registers each face under its index;
      any other font file registers its face under index 0; an unreadable file
      is skipped. */
  function ProcessFontFile(m: Index, f: FontFile): (r: Index)
    requires IsFontFile(f.path)
    ensures m.Keys <= r.Keys
    ensures forall k :: k in r ==> (k in m && r[k] == m[k]) || r[k].filePath == f.path
    ensures f.faces.None? ==> r == m
  {
    match f.faces
    case None => m
    case Some(faces) =>
      if Lower(PathSuffix(f.path)) == ".ttc" then RegisterFaces(m, f.path, faces, 0)
      else if |faces| > 0 then RegisterFace(m, f.path, 0, faces[0])
      else m
  }

  /** The paths of the font files among `files`. */
  function FontPaths(files: seq<FontFile>): set<string> {
    set f | f in files && IsFontFile(f.path) :: f.path
  }

  /** `_scan_dirs` over the files the recursive walk lists, in walk order:
      files without a font extension are ignored, and every entry of the
      result comes from one of the font files. */
  function Scan(m: Index, files: seq<FontFile>): (r: Index)
    ensures m.Keys <= r.Keys
    ensures forall k :: k in r ==> (k in m && r[k] == m[k]) || r[k].filePath in FontPaths(files)
    decreases |files|
  {
    if |files| == 0 then m
    else
      var m1 := if IsFontFile(files[0].path) then ProcessFontFile(m, files[0]) else m;
      assert forall k :: k in m1 ==> (k in m && m1[k] == m[k]) || m1[k].filePath in FontPaths(files);
      assert FontPaths(files[1..]) <= FontPaths(files) by {
        forall f | f in files[1..] ensures f in files { }
      }
      Scan(m1, files[1..])
  }

  /** The suffix `s` is non-empty and ends the key, and the key with every `s`
      removed is indexed. */
  predicate SuffixHit(m: Index, target: string, s: string) {
    |s| > 0 && EndsWith(target, s) && Replace(target, s, "") in m
  }

  /** The loop over the smart suffixes: the first suffix (in list order) that
      ends the key and whose removal gives an indexed key decides the result;
      a suffix that ends the key but whose removal misses lets the loop go on. */
  function TrySuffixes(m: Index, target: string, suffixes: seq<string>): (r: Option<FontRecord>)
    ensures r.None? <==> forall i :: 0 <= i < |suffixes| ==> !SuffixHit(m, target, suffixes[i])
    ensures r.Some? ==> exists i :: (0 <= i < |suffixes| && SuffixHit(m, target, suffixes[i])
      && r == Some(m[Replace(target, suffixes[i], "")])
      && forall j :: 0 <= j < i ==> !SuffixHit(m, target, suffixes[j]))
  {
    match FirstIndex(suffixes, s => SuffixHit(m, target, s))
    case None => None
    case Some(i) => Some(m[Replace(target, suffixes[i], "")])
  }

  /** `find_font`: an exact hit on the normalised name wins; otherwise only the
      smart match may find something, and a miss is `None`, never an error. */
  function FindFont(m: Index, query: string, smartMatch: bool): (r: Option<FontRecord>)
    ensures NormalizeKey(query) in m ==> r == Some(m[NormalizeKey(query)])
    ensures r.Some? ==> r.value in m.Values
    ensures NormalizeKey(query) !in m && !smartMatch ==> r.None?
    ensures NormalizeKey(query) !in m && smartMatch ==> r == TrySuffixes(m, NormalizeKey(query), SmartSuffixes)
  {
    var target := NormalizeKey(query);
    if target in m then Some(m[target])
    else if smartMatch then
      TrySuffixes(m, target, SmartSuffixes)
    else None
  }

  /** A name registered for a face, looked up again, finds that face (whichever
      of its records wrote the key last), with or without smart matching. */
  lemma RegisteredNameFound(m: Index, path: string, index: nat, recs: seq<NameRecord>, i: nat, smartMatch: bool)
    requires i < |recs| && IsIndexedName(recs[i])
    ensures var r := FindFont(RegisterFace(m, path, index, recs), recs[i].text, smartMatch);
      r.Some? && r.value.filePath == path && r.value.fontIndex == index
  {
    var key := NormalizeKey(recs[i].text);
    assert Writes(recs[i], key);
    RegisterFaceSpec(m, path, index, recs, key);
  }

  lemma NormalizeScenario()
    ensures NormalizeKey("NotoSansCJK_gbk") == "notosanscjk_gbk"
  {
    var t := "notosanscjk_gbk";
    assert Lower("NotoSansCJK_gbk") == t;
    assert Strip(t) == t by {
      StripPadded("", t, "");
      assert "" + t + "" == t;
    }
  }

  lemma RemoveGbkScenario()
    ensures Replace("notosanscjk_gbk", "_gbk", "") == "notosanscjk"
  {
    assert "notosanscjk_gbk" == "notosanscjk" + "_gbk";
    ReplaceTrailing("notosanscjk", "_gbk");
  }

  /** A hit on the first suffix decides the smart match. */
  lemma FirstSuffixHit(m: Index, target: string, suffixes: seq<string>)
    requires |suffixes| > 0 && SuffixHit(m, target, suffixes[0])
    ensures TrySuffixes(m, target, suffixes) == Some(m[Replace(target, suffixes[0], "")])
  {
    assert FirstIndex(suffixes, s => SuffixHit(m, target, s)) == Some(0);
  }

  /** The regional-suffix scenario: an index holding "notosanscjk" resolves
      "NotoSansCJK_gbk" under smart matching and misses it under exact matching. */
  lemma SmartMatchScenario(rec: FontRecord)
    ensures FindFont(map["notosanscjk" := rec], "NotoSansCJK_gbk", true) == Some(rec)
    ensures FindFont(map["notosanscjk" := rec], "NotoSansCJK_gbk", false) == None
  {
    var m := map["notosanscjk" := rec];
    var target := "notosanscjk_gbk";
    NormalizeScenario();
    assert target !in m by { assert |target| != |"notosanscjk"|; }
    RemoveGbkScenario();
    assert EndsWith(target, "_gbk") by { assert target[|target| - 4..] == "_gbk"; }
    assert SuffixHit(m, target, SmartSuffixes[0]);
    FirstSuffixHit(m, target, SmartSuffixes);
  }
}

=== FILE: font_mux.dfy ===
/**
 The per-container part of the MKV font tool (`process_mkv` in mkvFontmux.py):
 pick the subtitles that belong to a container, gather the characters every
 font has to show across them, match the fonts against the index, give each
 matched font a random family name, subset it, rewrite the subtitles and
 build the `mkvmerge` command line.
 */
module FontMux {
  import opened Wrappers
  import opened Text
  import opened Paths
  import opened Seqs
  import opened OrderedMaps
  import opened FontIndex
  import AssParser
  import FontSubset
  import AssRewriter

  /** Font names that never reach matching, compared after normalisation;
      they include the `Default` sentinel of the analyser. */
  const IgnoreFonts: set<string> := {"default", "arial", "sans-serif"}

  const MkvmergeBin: string :=
    "D:\\Program Files\\MKVToolNixPortable_84.0_azo\\MKVToolNixPortable\\App\\ProgramFiles64\\mkvmerge.exe"

  predicate Ignored(font: string) {
    NormalizeKey(font) in IgnoreFonts
  }

  /** The analyser's sentinel for dialogue in an unknown style is ignored. */
  lemma DefaultIgnored()
    ensures Ignored("Default")
  {
    assert Lower("Default") == "default";
    StripPadded("", "default", "");
    assert "" + "default" + "" == "default";
  }

  // ---- Selection -------------------------------------------------------

  /** A file of the container's directory: its name and its lines. */
  datatype SubFile = SubFile(name: string, lines: seq<string>)

  /** A subtitle of the container with stem `stem`: an `.ass` file whose
      lower-cased name starts with the lower-cased stem. */
  predicate IsSubtitleFor(stem: string, name: string) {
    EndsWith(name, ".ass") && StartsWith(Lower(name), Lower(stem))
  }

  /** The container's subtitles, in listing order. */
  function SelectSubtitles(stem: string, listing: seq<SubFile>): (r: seq<SubFile>)
    ensures forall f :: f in r <==> f in listing && IsSubtitleFor(stem, f.name)
  {
    Filter(listing, (f: SubFile) => IsSubtitleFor(stem, f.name))
  }

  /** Lower-casing the stem first changes nothing. */
  lemma SubtitleMatchIgnoresCase(stem: string, name: string)
    ensures IsSubtitleFor(Lower(stem), name) <==> IsSubtitleFor(stem, name)
  {
    LowerIdempotent(stem);
  }

  // ---- Merging the character sets --------------------------------------

  type Pair = (string, set<char>)

  /** The (font, characters) entries of the analysed files, file by file,
      each file's fonts in first-use order. */
  function Pairs(us: seq<AssParser.Usage>, n: nat): (r: seq<Pair>)
    requires n <= |us| && forall i :: 0 <= i < |us| ==> Valid(us[i])
  {
    if n == 0 then [] else Pairs(us, n - 1) + Items(us[n - 1])
  }

  /** `needed_fonts.setdefault(font, set()).update(chars)` over the first `n`
      entries, skipping the fonts `skip` rejects. */
  function Merge(pairs: seq<Pair>, n: nat, skip: string -> bool): (r: ODict<string, set<char>>)
    requires n <= |pairs|
    ensures Valid(r)
  {
    if n == 0 then Empty()
    else
      var d := Merge(pairs, n - 1, skip);
      var font := pairs[n - 1].0;
      if skip(font) then d
      else Put(d, font, (if font in d.vals then d.vals[font] else {}) + pairs[n - 1].1)
  }

  /** Some of the first `n` entries is for `font`. */
  predicate Seen(pairs: seq<Pair>, n: nat, font: string)
    requires n <= |pairs|
  {
    n > 0 && (Seen(pairs, n - 1, font) || pairs[n - 1].0 == font)
  }

  /** The characters of the first `n` entries for `font`. */
  function Gathered(pairs: seq<Pair>, n: nat, font: string): set<char>
    requires n <= |pairs|
  {
    if n == 0 then {}
    else Gathered(pairs, n - 1, font) + (if pairs[n - 1].0 == font then pairs[n - 1].1 else {})
  }

  lemma {:induction false} SeenSpec(pairs: seq<Pair>, n: nat, font: string)
    requires n <= |pairs|
    ensures Seen(pairs, n, font) <==> exists j :: 0 <= j < n && pairs[j].0 == font
  {
    if n > 0 {
      SeenSpec(pairs, n - 1, font);
      if pairs[n - 1].0 == font {
        assert 0 <= n - 1 < n && pairs[n - 1].0 == font;
      }
    }
  }

  lemma {:induction false} GatheredSpec(pairs: seq<Pair>, n: nat, font: string, c: char)
    requires n <= |pairs|
    ensures c in Gathered(pairs, n, font) <==> exists j :: 0 <= j < n && pairs[j].0 == font && c in pairs[j].1
  {
    if n > 0 {
      GatheredSpec(pairs, n - 1, font, c);
      if pairs[n - 1].0 == font && c in pairs[n - 1].1 {
        assert 0 <= n - 1 < n && pairs[n - 1].0 == font && c in pairs[n - 1].1;
      }
    }
  }

  /** A font is needed exactly when it is not ignored and some entry is for
      it; its set is the union of those entries' characters. */
  lemma {:induction false} MergeGathers(pairs: seq<Pair>, n: nat, skip: string -> bool, font: string)
    requires n <= |pairs|
    ensures font in Merge(pairs, n, skip).vals <==> !skip(font) && Seen(pairs, n, font)
    ensures font in Merge(pairs, n, skip).vals ==> Merge(pairs, n, skip).vals[font] == Gathered(pairs, n, font)
    ensures !Seen(pairs, n, font) ==> Gathered(pairs, n, font) == {}
  {
    if n > 0 {
      MergeGathers(pairs, n - 1, skip, font);
      MergeStep(pairs, n, skip, font);
    }
  }

  /** One entry adds its characters to its own font only. */
  lemma MergeStep(pairs: seq<Pair>, n: nat, skip: string -> bool, font: string)
    requires 0 < n <= |pairs|
    ensures font in Merge(pairs, n, skip).vals <==>
      font in Merge(pairs, n - 1, skip).vals || (pairs[n - 1].0 == font && !skip(font))
    ensures font in Merge(pairs, n, skip).vals ==> (Merge(pairs, n, skip).vals[font] ==
      (if font in Merge(pairs, n - 1, skip).vals then Merge(pairs, n - 1, skip).vals[font] else {})
      + (if pairs[n - 1].0 == font && !skip(font) then pairs[n - 1].1 else {}))
  {
  }

  /** The entries of the files name a font exactly when one of the files
      uses it. */
  lemma {:induction false} PairsFonts(us: seq<AssParser.Usage>, n: nat, font: string)
    requires n <= |us| && forall i :: 0 <= i < |us| ==> Valid(us[i])
    ensures var ps := Pairs(us, n);
      (exists j :: 0 <= j < |ps| && ps[j].0 == font) <==> exists i :: 0 <= i < n && font in us[i].vals
  {
    if n > 0 {
      PairsFonts(us, n - 1, font);
      assert Pairs(us, n) == Pairs(us, n - 1) + Items(us[n - 1]);
      AppendFonts(Pairs(us, n - 1), us[n - 1], font);
      if font in us[n - 1].vals {
        assert 0 <= n - 1 < n && font in us[n - 1].vals;
      }
    }
  }

  /** The entries of the files show a character in a font exactly when one
      of the files does. */
  lemma {:induction false} PairsChars(us: seq<AssParser.Usage>, n: nat, font: string, c: char)
    requires n <= |us| && forall i :: 0 <= i < |us| ==> Valid(us[i])
    ensures var ps := Pairs(us, n);
      (exists j :: 0 <= j < |ps| && ps[j].0 == font && c in ps[j].1)
        <==> exists i :: 0 <= i < n && font in us[i].vals && c in us[i].vals[font]
  {
    if n > 0 {
      PairsChars(us, n - 1, font, c);
      assert Pairs(us, n) == Pairs(us, n - 1) + Items(us[n - 1]);
      AppendChars(Pairs(us, n - 1), us[n - 1], font, c);
      if font in us[n - 1].vals && c in us[n - 1].vals[font] {
        assert 0 <= n - 1 < n && font in us[n - 1].vals && c in us[n - 1].vals[font];
      }
    }
  }

  /** The entries of a file appended to `ps0` add exactly that file's fonts. */
  lemma AppendFonts(ps0: seq<Pair>, u: AssParser.Usage, font: string)
    requires Valid(u)
    ensures var ps := ps0 + Items(u);
      (exists j :: 0 <= j < |ps| && ps[j].0 == font) <==>
        (exists j :: 0 <= j < |ps0| && ps0[j].0 == font) || font in u.vals
  {
    var it := Items(u);
    var ps := ps0 + it;
    if font in u.vals {
      var k :| 0 <= k < |u.keys| && u.keys[k] == font;
      assert ps[|ps0| + k] == it[k];
    }
    forall j | 0 <= j < |ps| && ps[j].0 == font
      ensures font in u.vals || exists j' :: 0 <= j' < |ps0| && ps0[j'].0 == font
    {
      if j >= |ps0| {
        assert ps[j] == it[j - |ps0|];
      } else {
        assert ps0[j] == ps[j];
      }
    }
    forall j | 0 <= j < |ps0| ensures ps[j] == ps0[j] { }
  }

  /** The entries of a file appended to `ps0` add exactly that file's
      characters. */
  lemma AppendChars(ps0: seq<Pair>, u: AssParser.Usage, font: string, c: char)
    requires Valid(u)
    ensures var ps := ps0 + Items(u);
      (exists j :: 0 <= j < |ps| && ps[j].0 == font && c in ps[j].1) <==>
        (exists j :: 0 <= j < |ps0| && ps0[j].0 == font && c in ps0[j].1)
        || (font in u.vals && c in u.vals[font])
  {
    var it := Items(u);
    var ps := ps0 + it;
    if font in u.vals {
      var k :| 0 <= k < |u.keys| && u.keys[k] == font;
      assert ps[|ps0| + k] == it[k];
    }
    forall j | 0 <= j < |ps| && ps[j].0 == font && c in ps[j].1
      ensures (font in u.vals && c in u.vals[font]) || exists j' :: 0 <= j' < |ps0| && ps0[j'].0 == font && c in ps0[j'].1
    {
      if j >= |ps0| {
        assert ps[j] == it[j - |ps0|];
      } else {
        assert ps0[j] == ps[j];
      }
    }
    forall j | 0 <= j < |ps0| ensures ps[j] == ps0[j] { }
  }

  /** `needed_fonts` for the analysed subtitle files. */
  function Needed(us: seq<AssParser.Usage>): (r: ODict<string, set<char>>)
    requires forall i :: 0 <= i < |us| ==> Valid(us[i])
    ensures Valid(r)
  {
    var ps := Pairs(us, |us|);
    Merge(ps, |ps|, Ignored)
  }

  /** A font is needed exactly when it is not ignored and some subtitle uses
      it, and it needs exactly the characters some subtitle shows in it. */
  lemma NeededSpec(us: seq<AssParser.Usage>, font: string, c: char)
    requires forall i :: 0 <= i < |us| ==> Valid(us[i])
    ensures font in Needed(us).vals <==> !Ignored(font) && exists i :: 0 <= i < |us| && font in us[i].vals
    ensures font in Needed(us).vals ==>
      (c in Needed(us).vals[font] <==> exists i :: 0 <= i < |us| && font in us[i].vals && c in us[i].vals[font])
  {
    var ps := Pairs(us, |us|);
    assert Needed(us) == Merge(ps, |ps|, Ignored);
    MergeGathers(ps, |ps|, Ignored, font);
    assert font in Needed(us).vals <==> !Ignored(font) && Seen(ps, |ps|, font);
    SeenSpec(ps, |ps|, font);
    GatheredSpec(ps, |ps|, font, c);
    PairsFonts(us, |us|, font);
    PairsChars(us, |us|, font, c);
  }

  /** The `Default` sentinel never reaches matching. */
  lemma DefaultNotNeeded(us: seq<AssParser.Usage>)
    requires forall i :: 0 <= i < |us| ==> Valid(us[i])
    ensures "Default" !in Needed(us).vals
  {
    DefaultIgnored();
    NeededSpec(us, "Default", 'a');
  }

  // ---- Matching --------------------------------------------------------

  /** A matched font: its subtitle name, where it was found, and the
      characters it has to show. */
  type Match = (string, FontRecord, set<char>)

  /** The index lookup `font_manager.find_font(font, smart_match)`. */
  function Finder(m: Index, smartMatch: bool): string -> Option<FontRecord> {
    (f: string) => FindFont(m, f, smartMatch)
  }

  /** The needed fonts `find` can supply, in first-use order. */
  function MatchedFonts(find: string -> Option<FontRecord>, needed: ODict<string, set<char>>): (r: seq<string>)
    ensures forall f :: f in r <==> f in needed.keys && find(f).Some?
  {
    Filter(needed.keys, (f: string) => find(f).Some?)
  }

  /** `valid_fonts`: each matched font with its index entry and characters. */
  function ValidFonts(find: string -> Option<FontRecord>, needed: ODict<string, set<char>>): (r: seq<Match>)
    requires Valid(needed)
    ensures |r| == |MatchedFonts(find, needed)|
    ensures forall i :: 0 <= i < |r| ==> r[i].0 == MatchedFonts(find, needed)[i]
    ensures forall i :: 0 <= i < |r| ==>
      find(r[i].0) == Some(r[i].1) && r[i].0 in needed.vals && r[i].2 == needed.vals[r[i].0]
  {
    var fs := MatchedFonts(find, needed);
    seq(|fs|, i requires 0 <= i < |fs| => (fs[i], find(fs[i]).value, needed.vals[fs[i]]))
  }

  function FontsOf(valid: seq<Match>): (r: seq<string>)
    ensures |r| == |valid| && forall i :: 0 <= i < |r| ==> r[i] == valid[i].0
  {
    seq(|valid|, i requires 0 <= i < |valid| => valid[i].0)
  }

  /** A needed font is matched exactly when the index finds it; each is
      matched once. */
  lemma ValidFontsSpec(find: string -> Option<FontRecord>, needed: ODict<string, set<char>>, font: string)
    requires Valid(needed)
    ensures font in FontsOf(ValidFonts(find, needed)) <==> font in needed.vals && find(font).Some?
    ensures Distinct(FontsOf(ValidFonts(find, needed)))
  {
    var fs := MatchedFonts(find, needed);
    assert FontsOf(ValidFonts(find, needed)) == fs;
    FilterDistinct(needed.keys, (f: string) => find(f).Some?);
  }

  // ---- Naming ----------------------------------------------------------

  /** The names drawn for the first `n` matched fonts; `draw(i)` are the
      choices made for the `i`-th. */
  function Names(draw: nat -> seq<nat>, n: nat): (r: seq<string>)
    requires forall i :: FontSubset.Picks(draw(i))
    ensures |r| == n && forall i :: 0 <= i < n ==> r[i] == FontSubset.RandomName(draw(i))
  {
    seq(n, i requires 0 <= i < n => FontSubset.RandomName(draw(i)))
  }

  /** `font_name_map[font_name] = random_name` for the first `n` fonts. */
  function NameMapOf(fonts: seq<string>, names: seq<string>, n: nat): (r: ODict<string, string>)
    requires n <= |fonts| && |names| == |fonts|
    ensures Valid(r)
  {
    if n == 0 then Empty() else Put(NameMapOf(fonts, names, n - 1), fonts[n - 1], names[n - 1])
  }

  /** With distinct fonts, the map lists them in order, each with its own
      name. */
  lemma {:induction false} NameMapSpec(fonts: seq<string>, names: seq<string>, n: nat)
    requires n <= |fonts| && |names| == |fonts| && Distinct(fonts)
    ensures NameMapOf(fonts, names, n).keys == fonts[..n]
    ensures forall i :: 0 <= i < n ==> fonts[i] in NameMapOf(fonts, names, n).vals && NameMapOf(fonts, names, n).vals[fonts[i]] == names[i]
  {
    if n > 0 {
      NameMapSpec(fonts, names, n - 1);
      NameMapStep(fonts, names, n, NameMapOf(fonts, names, n - 1));
    }
  }

  /** Adding the next font to a map that lists the fonts before it. */
  lemma NameMapStep(fonts: seq<string>, names: seq<string>, n: nat, d: ODict<string, string>)
    requires 0 < n <= |fonts| && |names| == |fonts| && Distinct(fonts) && Valid(d)
    requires d.keys == fonts[..n - 1]
    requires forall i :: 0 <= i < n - 1 ==> fonts[i] in d.vals && d.vals[fonts[i]] == names[i]
    ensures Put(d, fonts[n - 1], names[n - 1]).keys == fonts[..n]
    ensures forall i :: 0 <= i < n ==>
      fonts[i] in Put(d, fonts[n - 1], names[n - 1]).vals && Put(d, fonts[n - 1], names[n - 1]).vals[fonts[i]] == names[i]
  {
    var f := fonts[n - 1];
    assert f !in d.vals by {
      forall k | 0 <= k < n - 1 ensures d.keys[k] != f {
        assert d.keys[k] == fonts[k];
      }
    }
    assert fonts[..n] == fonts[..n - 1] + [f];
    forall i | 0 <= i < n - 1 ensures fonts[i] != f { }
  }

  /** `font_name_map` for the matched fonts `valid`. */
  function NameMapFor(valid: seq<Match>, draw: nat -> seq<nat>): (r: ODict<string, string>)
    requires forall i :: FontSubset.Picks(draw(i))
    ensures Valid(r)
  {
    NameMapOf(FontsOf(valid), Names(draw, |valid|), |valid|)
  }

  /** With distinct fonts, every matched font gets its own drawn name, in
      matching order. */
  lemma NameMapForSpec(valid: seq<Match>, draw: nat -> seq<nat>)
    requires forall i :: FontSubset.Picks(draw(i))
    requires Distinct(FontsOf(valid))
    ensures NameMapFor(valid, draw).keys == FontsOf(valid)
    ensures forall i :: 0 <= i < |valid| ==>
      valid[i].0 in NameMapFor(valid, draw).vals && NameMapFor(valid, draw).vals[valid[i].0] == FontSubset.RandomName(draw(i))
  {
    NameMapSpec(FontsOf(valid), Names(draw, |valid|), |valid|);
    assert FontsOf(valid)[..|valid|] == FontsOf(valid);
  }

  // ---- Subsetting ------------------------------------------------------

  function JobFor(mt: Match, name: string, tempDir: string, disable: bool): FontSubset.SubsetJob {
    FontSubset.SubsetJob(mt.1.filePath, mt.1.fontIndex, mt.2, tempDir, name, disable)
  }

  /** The `(path, mime)` results of the subsetting jobs; `subsetOk(i)` and
      `renameOk(i)` are what happened to the `i`-th. */
  function Results(valid: seq<Match>, names: seq<string>, tempDir: string, disable: bool,
                   subsetOk: nat -> bool, renameOk: nat -> bool): (r: seq<Option<(string, string)>>)
    requires |names| == |valid|
    ensures |r| == |valid| && forall i :: 0 <= i < |r| ==>
      r[i] == FontSubset.SubsetFontTask(JobFor(valid[i], names[i], tempDir, disable), subsetOk(i), renameOk(i))
    ensures forall i :: 0 <= i < |r| ==> (r[i].Some? <==> disable || (valid[i].2 != {} && subsetOk(i)))
    ensures disable ==> forall i :: 0 <= i < |r| ==>
      r[i] == Some((valid[i].1.filePath, FontSubset.MimeOf(FontSubset.OutExt(valid[i].1.filePath))))
  {
    seq(|valid|, i requires 0 <= i < |valid| =>
      FontSubset.SubsetFontTask(JobFor(valid[i], names[i], tempDir, disable), subsetOk(i), renameOk(i)))
  }

  /** `attachments`: the successful results, in order. */
  function Attachments(results: seq<Option<(string, string)>>): (r: seq<(string, string)>)
    ensures |r| <= |results|
  {
    if |results| == 0 then []
    else
      var rest := Attachments(results[1..]);
      match results[0]
      case None => rest
      case Some(a) => [a] + rest
  }

  /** A subset is attached exactly when its job produced it. */
  lemma {:induction false} AttachmentsHave(results: seq<Option<(string, string)>>, a: (string, string))
    ensures a in Attachments(results) <==> Some(a) in results
    decreases |results|
  {
    if |results| > 0 {
      AttachmentsHave(results[1..], a);
      assert Some(a) in results <==> results[0] == Some(a) || Some(a) in results[1..];
    }
  }

  /** The attachments keep the order of the jobs. */
  lemma {:induction false} AttachmentsAppend(a: seq<Option<(string, string)>>, b: seq<Option<(string, string)>>)
    ensures Attachments(a + b) == Attachments(a) + Attachments(b)
    decreases |a|
  {
    if |a| == 0 {
      assert a + b == b;
    } else {
      AttachmentsAppend(a[1..], b);
      AttachmentsStep(a, b);
    }
  }

  lemma AttachmentsStep(a: seq<Option<(string, string)>>, b: seq<Option<(string, string)>>)
    requires |a| > 0
    requires Attachments(a[1..] + b) == Attachments(a[1..]) + Attachments(b)
    ensures Attachments(a + b) == Attachments(a) + Attachments(b)
  {
    assert (a + b)[0] == a[0];
    assert (a + b)[1..] == a[1..] + b;
  }

  // ---- Output and command line -----------------------------------------

  /** Where `mkvmerge` writes: a `temp_` file in the temporary directory
      when overwriting, else the same name in an `output` directory next to
      the source. */
  function OutFile(mkvPath: string, overwrite: bool, tempDir: string): string {
    if overwrite then JoinPath(tempDir, "temp_" + Basename(mkvPath))
    else JoinPath(JoinPath(Dirname(mkvPath), "output"), Basename(mkvPath))
  }

  /** The output keeps the container's file name, prefixed with `temp_` when
      it will overwrite the source. */
  lemma OutFileName(mkvPath: string, overwrite: bool, tempDir: string)
    requires Basename(mkvPath) != ""
    ensures Basename(OutFile(mkvPath, overwrite, tempDir)) ==
      (if overwrite then "temp_" + Basename(mkvPath) else Basename(mkvPath))
  {
    var name := Basename(mkvPath);
    if overwrite {
      assert '/' !in "temp_" + name by {
        forall k | 0 <= k < |"temp_" + name| ensures ("temp_" + name)[k] != '/' {
          if k >= 5 {
            assert ("temp_" + name)[k] == name[k - 5];
          }
        }
      }
      BasenameOfJoin(tempDir, "temp_" + name);
    } else {
      BasenameOfJoin(JoinPath(Dirname(mkvPath), "output"), name);
    }
  }

  /** `["--language", "0:chi", ass]` for each subtitle. */
  function LanguageArgs(paths: seq<string>): (r: seq<string>)
    ensures |r| == 3 * |paths|
  {
    if |paths| == 0 then [] else ["--language", "0:chi", paths[0]] + LanguageArgs(paths[1..])
  }

  /** `["--attachment-mime-type", mime, "--attach-file", path]` for each attachment. */
  function AttachArgs(atts: seq<(string, string)>): (r: seq<string>)
    ensures |r| == 4 * |atts|
    ensures |r| > 0 ==> r[0] == "--attachment-mime-type"
  {
    if |atts| == 0 then [] else ["--attachment-mime-type", atts[0].1, "--attach-file", atts[0].0] + AttachArgs(atts[1..])
  }

  /** The `mkvmerge` command line. */
  function MuxCommand(out: string, mkvPath: string, paths: seq<string>, atts: seq<(string, string)>): (r: seq<string>)
    ensures |r| == 4 + 3 * |paths| + 4 * |atts|
  {
    [MkvmergeBin, "-o", out, mkvPath] + LanguageArgs(paths) + AttachArgs(atts)
  }

  /** Reads the subtitle groups at the front of `cmd`; returns them and
      what follows. */
  function DecodeLanguage(cmd: seq<string>): (seq<string>, seq<string>)
    decreases |cmd|
  {
    if |cmd| >= 3 && cmd[0] == "--language" && cmd[1] == "0:chi" then
      var (ps, rest) := DecodeLanguage(cmd[3..]);
      ([cmd[2]] + ps, rest)
    else ([], cmd)
  }

  /** Reads attachment groups up to the end of `cmd`. */
  function DecodeAttach(cmd: seq<string>): Option<seq<(string, string)>>
    decreases |cmd|
  {
    if |cmd| == 0 then Some([])
    else if |cmd| >= 4 && cmd[0] == "--attachment-mime-type" && cmd[2] == "--attach-file" then
      match DecodeAttach(cmd[4..])
      case None => None
      case Some(atts) => Some([(cmd[3], cmd[1])] + atts)
    else None
  }

  /** Reads a command line back into output, source, subtitles and attachments. */
  function DecodeMux(cmd: seq<string>): Option<(string, string, seq<string>, seq<(string, string)>)> {
    if |cmd| >= 4 && cmd[0] == MkvmergeBin && cmd[1] == "-o" then
      var (ps, rest) := DecodeLanguage(cmd[4..]);
      match DecodeAttach(rest)
      case None => None
      case Some(atts) => Some((cmd[2], cmd[3], ps, atts))
    else None
  }

  lemma {:induction false} DecodeLanguageArgs(paths: seq<string>, tail: seq<string>)
    requires tail == [] || tail[0] != "--language"
    ensures DecodeLanguage(LanguageArgs(paths) + tail) == (paths, tail)
    decreases |paths|
  {
    if |paths| == 0 {
      assert LanguageArgs(paths) + tail == tail;
    } else {
      DecodeLanguageArgs(paths[1..], tail);
      DecodeLanguageStep(paths, tail);
    }
  }

  lemma DecodeLanguageStep(paths: seq<string>, tail: seq<string>)
    requires |paths| > 0
    requires DecodeLanguage(LanguageArgs(paths[1..]) + tail) == (paths[1..], tail)
    ensures DecodeLanguage(LanguageArgs(paths) + tail) == (paths, tail)
  {
    var rest := LanguageArgs(paths[1..]) + tail;
    var cmd := ["--language", "0:chi", paths[0]] + rest;
    assert LanguageArgs(paths) + tail == cmd;
    assert cmd[3..] == rest;
    assert paths == [paths[0]] + paths[1..];
  }

  lemma {:induction false} DecodeAttachArgs(atts: seq<(string, string)>)
    ensures DecodeAttach(AttachArgs(atts)) == Some(atts)
    decreases |atts|
  {
    if |atts| > 0 {
      DecodeAttachArgs(atts[1..]);
      var cmd := AttachArgs(atts);
      assert cmd[4..] == AttachArgs(atts[1..]);
      assert atts == [(atts[0].0, atts[0].1)] + atts[1..];
    }
  }

  /** The command line says exactly what to write where, which subtitles to
      mux and which fonts to attach, each with its MIME type. */
  lemma MuxCommandDecodes(out: string, mkvPath: string, paths: seq<string>, atts: seq<(string, string)>)
    ensures DecodeMux(MuxCommand(out, mkvPath, paths, atts)) == Some((out, mkvPath, paths, atts))
  {
    var cmd := MuxCommand(out, mkvPath, paths, atts);
    var a := AttachArgs(atts);
    assert cmd[4..] == LanguageArgs(paths) + a;
    DecodeLanguageArgs(paths, a);
    DecodeAttachArgs(atts);
  }

  // ---- One container ---------------------------------------------------

  datatype Flags = Flags(
    smartMatch: bool, disableSubset: bool, overwrite: bool, onlyPrintFonts: bool, onlyPrintMatchfont: bool)

  /** How processing a container ends. */
  datatype Outcome =
    | NoSubtitles
    | ReportOnly(needed: ODict<string, set<char>>, matched: seq<Match>)
    | NoValidFonts
    | Muxed(nameMap: ODict<string, string>, subtitles: seq<seq<string>>, cmd: seq<string>)

  /** Where the subtitles handed to `mkvmerge` live: the rewritten copies in
      `temp_ass`, or the originals next to the container for an empty map. */
  function SubtitlePaths(fm: ODict<string, string>, tempDir: string, mkvPath: string, subs: seq<SubFile>): (r: seq<string>)
    ensures |r| == |subs|
  {
    if fm.keys == [] then seq(|subs|, i requires 0 <= i < |subs| => JoinPath(Dirname(mkvPath), subs[i].name))
    else seq(|subs|, i requires 0 <= i < |subs| => JoinPath(JoinPath(tempDir, "temp_ass"), subs[i].name))
  }

  function Contents(subs: seq<SubFile>): (r: seq<seq<string>>)
    ensures |r| == |subs| && forall i :: 0 <= i < |subs| ==> r[i] == subs[i].lines
  {
    seq(|subs|, i requires 0 <= i < |subs| => subs[i].lines)
  }

  function Analysed(subs: seq<SubFile>): (r: seq<AssParser.Usage>)
    ensures |r| == |subs| && forall i :: 0 <= i < |r| ==> Valid(r[i]) && r[i] == AssParser.Analyse(subs[i].lines)
  {
    seq(|subs|, i requires 0 <= i < |subs| => AssParser.Analyse(subs[i].lines))
  }

  /** The part of `process_mkv` after matching, for a container with
      subtitles `subs` and matched fonts `valid`: name, subset, rewrite and
      build the command line. */
  function Mux(flags: Flags, valid: seq<Match>, subs: seq<SubFile>, mkvPath: string, tempDir: string,
               draw: nat -> seq<nat>, subsetOk: nat -> bool, renameOk: nat -> bool): (r: Outcome)
    requires forall i :: FontSubset.Picks(draw(i))
    ensures r.Muxed? && r.nameMap == NameMapFor(valid, draw)
    ensures r.subtitles == AssRewriter.RewriteAss(NameMapFor(valid, draw), Contents(subs))
    ensures valid != [] ==>
      var results := Results(valid, Names(draw, |valid|), tempDir, flags.disableSubset, subsetOk, renameOk);
      DecodeMux(r.cmd) == Some((OutFile(mkvPath, flags.overwrite, tempDir), mkvPath,
        seq(|subs|, i requires 0 <= i < |subs| => JoinPath(JoinPath(tempDir, "temp_ass"), subs[i].name)),
        Attachments(results)))
  {
    var names := Names(draw, |valid|);
    var fm := NameMapFor(valid, draw);
    var atts := Attachments(Results(valid, names, tempDir, flags.disableSubset, subsetOk, renameOk));
    var paths := SubtitlePaths(fm, tempDir, mkvPath, subs);
    assert valid != [] ==> fm.keys != [] by {
      if valid != [] {
        NameMapNonEmpty(FontsOf(valid), names, |valid|);
        assert fm == NameMapOf(FontsOf(valid), names, |valid|);
      }
    }
    MuxCommandDecodes(OutFile(mkvPath, flags.overwrite, tempDir), mkvPath, paths, atts);
    Muxed(fm, AssRewriter.RewriteAss(fm, Contents(subs)),
      MuxCommand(OutFile(mkvPath, flags.overwrite, tempDir), mkvPath, paths, atts))
  }

  /** `process_mkv` for the container at `mkvPath` whose directory holds
      `listing`; `draw`, `subsetOk` and `renameOk` stand for the random
      choices and for what the subsetter and the renaming do. */
  function ProcessMkv(flags: Flags, m: Index, mkvPath: string, listing: seq<SubFile>, tempDir: string,
                      draw: nat -> seq<nat>, subsetOk: nat -> bool, renameOk: nat -> bool): (r: Outcome)
    requires forall i :: FontSubset.Picks(draw(i))
    ensures r.NoSubtitles? <==> forall f :: f in listing ==> !IsSubtitleFor(PathStem(mkvPath), f.name)
    ensures r.ReportOnly? <==> !r.NoSubtitles? && (flags.onlyPrintMatchfont || flags.onlyPrintFonts)
    ensures r.ReportOnly? ==> r.needed == Needed(Analysed(SelectSubtitles(PathStem(mkvPath), listing)))
    ensures r.ReportOnly? ==> r.matched == ValidFonts(Finder(m, flags.smartMatch), r.needed)
    ensures r.NoValidFonts? ==> ValidFonts(Finder(m, flags.smartMatch), Needed(Analysed(SelectSubtitles(PathStem(mkvPath), listing)))) == []
  {
    var subs := SelectSubtitles(PathStem(mkvPath), listing);
    assert subs != [] ==> subs[0] in listing && IsSubtitleFor(PathStem(mkvPath), subs[0].name) by {
      if subs != [] {
        assert subs[0] in subs;
      }
    }
    if subs == [] then NoSubtitles
    else
      var needed := Needed(Analysed(subs));
      var valid := ValidFonts(Finder(m, flags.smartMatch), needed);
      if flags.onlyPrintMatchfont || flags.onlyPrintFonts then ReportOnly(needed, valid)
      else if valid == [] then NoValidFonts
      else Mux(flags, valid, subs, mkvPath, tempDir, draw, subsetOk, renameOk)
  }

  /** The report-only switches stop before anything is subset or muxed, and
      so does a container without subtitles or without a matched font;
      otherwise the container is muxed with its matched fonts. */
  lemma MuxOnlyWhenAsked(flags: Flags, m: Index, mkvPath: string, listing: seq<SubFile>, tempDir: string,
                         draw: nat -> seq<nat>, subsetOk: nat -> bool, renameOk: nat -> bool)
    requires forall i :: FontSubset.Picks(draw(i))
    ensures var subs := SelectSubtitles(PathStem(mkvPath), listing);
      var valid := ValidFonts(Finder(m, flags.smartMatch), Needed(Analysed(subs)));
      var r := ProcessMkv(flags, m, mkvPath, listing, tempDir, draw, subsetOk, renameOk);
      && (r.Muxed? <==> subs != [] && !flags.onlyPrintFonts && !flags.onlyPrintMatchfont && valid != [])
      && (r.Muxed? ==> r == Mux(flags, valid, subs, mkvPath, tempDir, draw, subsetOk, renameOk))
  {
  }

  /** Every matched font gets a fresh name in the map, in matching order. */
  lemma MuxNames(flags: Flags, valid: seq<Match>, subs: seq<SubFile>, mkvPath: string, tempDir: string,
                 draw: nat -> seq<nat>, subsetOk: nat -> bool, renameOk: nat -> bool)
    requires forall i :: FontSubset.Picks(draw(i))
    requires Distinct(FontsOf(valid))
    ensures var r := Mux(flags, valid, subs, mkvPath, tempDir, draw, subsetOk, renameOk);
      && r.nameMap.keys == FontsOf(valid)
      && (forall i :: 0 <= i < |valid| ==> r.nameMap.vals[valid[i].0] == FontSubset.RandomName(draw(i)))
  {
    NameMapForSpec(valid, draw);
  }

  /** The names are given before any subsetting: neither the map nor the
      rewritten subtitles depend on what the subsetter or the renaming do. */
  lemma NamesBeforeSubsetting(flags: Flags, valid: seq<Match>, subs: seq<SubFile>, mkvPath: string, tempDir: string,
                              draw: nat -> seq<nat>, subsetOk: nat -> bool, renameOk: nat -> bool,
                              subsetOk': nat -> bool, renameOk': nat -> bool)
    requires forall i :: FontSubset.Picks(draw(i))
    ensures var r := Mux(flags, valid, subs, mkvPath, tempDir, draw, subsetOk, renameOk);
      var r' := Mux(flags, valid, subs, mkvPath, tempDir, draw, subsetOk', renameOk');
      r'.nameMap == r.nameMap && r'.subtitles == r.subtitles
  {
  }

  /** The fonts matched for a container are distinct, so the name lemma
      applies to them. */
  lemma MatchedDistinct(m: Index, smartMatch: bool, subs: seq<SubFile>)
    ensures Distinct(FontsOf(ValidFonts(Finder(m, smartMatch), Needed(Analysed(subs)))))
  {
    ValidFontsSpec(Finder(m, smartMatch), Needed(Analysed(subs)), "");
  }

  lemma NameMapNonEmpty(fonts: seq<string>, names: seq<string>, n: nat)
    requires 0 < n <= |fonts| && |names| == |fonts|
    ensures NameMapOf(fonts, names, n).keys != []
  {
    assert fonts[n - 1] in NameMapOf(fonts, names, n).vals;
  }
}

=== FILE: font_subset.dfy ===
/**
 Naming of the subset fonts of the MKV font tool (`subset_font_task`,
 `obfuscate_font_names` and `generate_random_name` in mkvFontmux.py): where a
 subset is written, which extension and MIME type it gets, what becomes of it
 when the subsetter or the renaming fails, and how the OpenType `name` table
 is rewritten so the embedded font carries the random family name.
 */
module FontSubset {
  import opened Wrappers
  import opened Text
  import opened Paths
  import opened FontIndex

  /** The `k`-th character of `string.ascii_letters + string.digits`: the
      lower-case letters, the upper-case letters, then the digits. */
  function AlphabetChar(k: nat): (c: char)
    requires k < 62
    ensures IsAlphabetChar(c)
  {
    if k < 26 then (97 + k) as char
    else if k < 52 then (65 + (k - 26)) as char
    else (48 + (k - 52)) as char
  }

  /** `string.ascii_letters + string.digits`. */
  function Alphabet(): (r: seq<char>)
    ensures |r| == 62 && forall k :: 0 <= k < 62 ==> r[k] == AlphabetChar(k)
  {
    seq(62, k requires 0 <= k < 62 => AlphabetChar(k))
  }

  /** The length of a generated family name. */
  const RandomNameLength: nat := 10

  predicate IsAlphabetChar(c: char) {
    ('a' <= c <= 'z') || ('A' <= c <= 'Z') || ('0' <= c <= '9')
  }

  /** Random choices `generate_random_name` can make: one position in the
      alphabet per character. */
  predicate Picks(picks: seq<nat>) {
    |picks| == RandomNameLength && forall i :: 0 <= i < |picks| ==> picks[i] < |Alphabet()|
  }

  /** `generate_random_name()`, given its random choices. */
  function RandomName(picks: seq<nat>): (r: string)
    requires Picks(picks)
    ensures |r| == RandomNameLength
    ensures forall i :: 0 <= i < |r| ==> r[i] == Alphabet()[picks[i]] && IsAlphabetChar(r[i])
  {
    seq(RandomNameLength, i requires 0 <= i < RandomNameLength => Alphabet()[picks[i]])
  }

  /** The position of an alphabet character. */
  function AlphabetIndex(c: char): (k: nat)
    requires IsAlphabetChar(c)
    ensures k < |Alphabet()| && Alphabet()[k] == c
  {
    if 'a' <= c <= 'z' then (c as int - 'a' as int)
    else if 'A' <= c <= 'Z' then 26 + (c as int - 'A' as int)
    else 52 + (c as int - '0' as int)
  }

  /** Every ten-character name over the alphabet can come out of the generator,
      so the generator's results are exactly those names. */
  lemma RandomNameCovers(name: string)
    requires |name| == RandomNameLength && forall i :: 0 <= i < |name| ==> IsAlphabetChar(name[i])
    ensures exists picks: seq<nat> :: Picks(picks) && RandomName(picks) == name
  {
    var picks := seq(RandomNameLength, i requires 0 <= i < RandomNameLength => AlphabetIndex(name[i]));
    assert RandomName(picks) == name;
  }

  /** The stem of the output file: the source stem, plus `_sub{index}` for a
      face other than the first of a collection. */
  function OutputBase(fontPath: string, fontIndex: nat): (r: string)
    ensures '/' !in r
    ensures fontIndex == 0 ==> r == PathStem(fontPath)
    ensures fontIndex > 0 ==> r == PathStem(fontPath) + "_sub" + NatToString(fontIndex)
  {
    var stem := PathStem(fontPath);
    assert '/' !in NatToString(fontIndex) by {
      var d := NatToString(fontIndex);
      assert forall i :: 0 <= i < |d| ==> IsDigit(d[i]);
    }
    if fontIndex > 0 then stem + "_sub" + NatToString(fontIndex) else stem
  }

  /** Two faces of the same file never share an output stem. */
  lemma OutputBaseInjective(fontPath: string, i: nat, j: nat)
    requires OutputBase(fontPath, i) == OutputBase(fontPath, j)
    ensures i == j
  {
    var stem := PathStem(fontPath);
    if i > 0 && j > 0 {
      var a := NatToString(i);
      var b := NatToString(j);
      assert stem + "_sub" + a == stem + "_sub" + b;
      assert a == (stem + "_sub" + a)[|stem| + 4..];
      assert b == (stem + "_sub" + b)[|stem| + 4..];
    } else {
      assert |OutputBase(fontPath, i)| == |stem| + (if i > 0 then 4 + |NatToString(i)| else 0);
      assert |OutputBase(fontPath, j)| == |stem| + (if j > 0 then 4 + |NatToString(j)| else 0);
    }
  }

  const OtfMime: string := "application/vnd.ms-opentype"
  const TtfMime: string := "application/x-truetype-font"

  /** The output extension: `.otf` exactly when the source's lower-cased suffix is `.otf`. */
  function OutExt(fontPath: string): (r: string)
    ensures r == ".otf" <==> Lower(PathSuffix(fontPath)) == ".otf"
    ensures r == ".otf" || r == ".ttf"
  {
    if Lower(PathSuffix(fontPath)) == ".otf" then ".otf" else ".ttf"
  }

  /** The MIME type follows the output extension. */
  function MimeOf(ext: string): (r: string)
    ensures r == OtfMime <==> ext == ".otf"
  {
    if ext == ".otf" then OtfMime else TtfMime
  }

  /** The inputs of one subsetting job. */
  datatype SubsetJob = SubsetJob(
    fontPath: string, fontIndex: nat, text: set<char>, outputDir: string, newName: string, disable: bool)

  /** Where the subsetter writes. */
  function SubsetPath(job: SubsetJob): string {
    JoinPath(job.outputDir, OutputBase(job.fontPath, job.fontIndex) + "_subset" + OutExt(job.fontPath))
  }

  /** Where the renamed subset is moved. */
  function RenamedPath(job: SubsetJob): string {
    JoinPath(job.outputDir, OutputBase(job.fontPath, job.fontIndex) + "_" + job.newName + OutExt(job.fontPath))
  }

  predicate IsWoff2(fontPath: string) {
    Lower(PathSuffix(fontPath)) == ".woff2"
  }

  /** The arguments handed to the subsetter for the font at `fontPath`:
      `textStr` is the job's characters in the order the set yields them and
      `outPath` is the job's `SubsetPath`; a WOFF2 source adds a flavor flag. */
  function SubsetArgs(fontPath: string, fontIndex: nat, textStr: string, outPath: string): (r: seq<string>)
    ensures |r| == 6 || |r| == 7
    ensures |r| == 7 <==> IsWoff2(fontPath)
    ensures r[0] == fontPath && r[1] == "--text=" + textStr && r[2] == "--output-file=" + outPath
    ensures r[3] == "--font-number=" + NatToString(fontIndex)
  {
    var base := [fontPath, "--text=" + textStr, "--output-file=" + outPath,
      "--font-number=" + NatToString(fontIndex), "--layout-features=*", "--name-IDs=*"];
    var r := if IsWoff2(fontPath) then base + ["--flavor=woff2"] else base;
    assert r[..4] == base[..4];
    r
  }

  /** `subset_font_task`: `subsetOk` says whether the subsetter succeeded and
      `renameOk` whether the name table could be rewritten; the result is the
      path to attach with its MIME type, or `None` for `(None, None)`. */
  function SubsetFontTask(job: SubsetJob, subsetOk: bool, renameOk: bool): (r: Option<(string, string)>)
    ensures job.disable ==> r == Some((job.fontPath, MimeOf(OutExt(job.fontPath))))
    ensures !job.disable && job.text == {} ==> r.None?
    ensures !job.disable && job.text != {} ==> (r.Some? <==> subsetOk)
    ensures r.Some? && !job.disable && renameOk ==> r.value.0 == RenamedPath(job)
    ensures r.Some? && !job.disable && !renameOk ==> r.value.0 == SubsetPath(job)
    ensures r.Some? ==> r.value.1 == MimeOf(OutExt(job.fontPath))
  {
    var mime := MimeOf(OutExt(job.fontPath));
    if job.disable then Some((job.fontPath, mime))
    else if job.text == {} then None
    else if !subsetOk then None
    else if renameOk then Some((RenamedPath(job), mime))
    else Some((SubsetPath(job), mime))
  }

  /** An output file name built from a stem and an output extension splits
      back into both. */
  lemma OutputNameSplits(dir: string, stem: string, ext: string)
    requires stem != "" && '/' !in stem && (ext == ".otf" || ext == ".ttf")
    ensures PathSuffix(JoinPath(dir, stem + ext)) == ext && PathStem(JoinPath(dir, stem + ext)) == stem
  {
    OutExtShape(ext);
    BasenameOfJoin(dir, stem + ext);
    NameSplits(JoinPath(dir, stem + ext), stem, ext);
  }

  /** Both output extensions are a dot followed by a dot-free, slash-free name. */
  lemma OutExtShape(ext: string)
    requires ext == ".otf" || ext == ".ttf"
    ensures |ext| >= 2 && ext[0] == '.' && '/' !in ext
    ensures forall j :: 1 <= j < |ext| ==> ext[j] != '.'
  {
  }

  /** A font written by `subset_font_task` can be told apart by its name: its suffix is
      the output extension, so its MIME type can be recovered from it, and its
      stem ends in `_subset` or in `_` plus the new family name. */
  lemma SubsetNameRecoverable(job: SubsetJob, subsetOk: bool, renameOk: bool)
    requires !job.disable && '/' !in job.newName
    requires SubsetFontTask(job, subsetOk, renameOk).Some?
    ensures var (path, mime) := SubsetFontTask(job, subsetOk, renameOk).value;
      && PathSuffix(path) == OutExt(job.fontPath) && mime == MimeOf(PathSuffix(path))
      && (renameOk ==> PathStem(path) == OutputBase(job.fontPath, job.fontIndex) + "_" + job.newName)
      && (!renameOk ==> PathStem(path) == OutputBase(job.fontPath, job.fontIndex) + "_subset")
  {
    var base := OutputBase(job.fontPath, job.fontIndex);
    if renameOk {
      OutputNameSplits(job.outputDir, base + "_" + job.newName, OutExt(job.fontPath));
    } else {
      OutputNameSplits(job.outputDir, base + "_subset", OutExt(job.fontPath));
    }
  }

  /** The key of a `name` table record. */
  datatype NameKey = NameKey(platformID: int, platEncID: int, langID: int, nameID: int)

  /** A `name` table: one string per record key. */
  type NameTable = map<NameKey, string>

  /** The (platform, encoding, language) triples that carry a family, full or
      PostScript name. */
  function Targets(t: NameTable): (r: set<(int, int, int)>)
    ensures forall tr :: tr in r <==> exists k :: k in t && IsFontNameID(k.nameID) && tr == (k.platformID, k.platEncID, k.langID)
  {
    set k | k in t && IsFontNameID(k.nameID) :: (k.platformID, k.platEncID, k.langID)
  }

  /** The records `setName` writes for one triple each: IDs 1, 4 and 6. */
  predicate IsRenamed(targets: set<(int, int, int)>, k: NameKey) {
    IsFontNameID(k.nameID) && (k.platformID, k.platEncID, k.langID) in targets
  }

  function RenamedKeys(targets: set<(int, int, int)>): (r: set<NameKey>)
    ensures forall k :: k in r <==> IsRenamed(targets, k)
  {
    set tr, id | tr in targets && id in {1, 4, 6} :: NameKey(tr.0, tr.1, tr.2, id)
  }

  /** `obfuscate_font_names` on the name table: every triple that carries one
      of the three names gets all three set to the new name (created when
      missing); every other record is kept. */
  function Obfuscate(t: NameTable, newName: string): (r: NameTable)
    ensures r.Keys == t.Keys + RenamedKeys(Targets(t))
    ensures forall k :: k in r && IsRenamed(Targets(t), k) ==> r[k] == newName
    ensures forall k :: k in t && !IsRenamed(Targets(t), k) ==> r[k] == t[k]
  {
    var renamed := RenamedKeys(Targets(t));
    map k | k in t.Keys + renamed :: if k in renamed then newName else t[k]
  }

  /** Renaming adds records only for triples it already renames, so the
      targets do not change. */
  lemma ObfuscateTargets(t: NameTable, newName: string)
    ensures Targets(Obfuscate(t, newName)) == Targets(t)
  {
    var r := Obfuscate(t, newName);
    forall tr | tr in Targets(r) ensures tr in Targets(t) {
      var k :| k in r && IsFontNameID(k.nameID) && tr == (k.platformID, k.platEncID, k.langID);
      if k !in t {
        assert IsRenamed(Targets(t), k);
      }
    }
  }

  /** After renaming, every family, full and PostScript name reads the new name. */
  lemma ObfuscateSetsNames(t: NameTable, newName: string)
    ensures forall k :: k in Obfuscate(t, newName) && IsFontNameID(k.nameID) ==> Obfuscate(t, newName)[k] == newName
  {
    var r := Obfuscate(t, newName);
    forall k | k in r && IsFontNameID(k.nameID) ensures r[k] == newName {
      if k in t {
        assert (k.platformID, k.platEncID, k.langID) in Targets(t);
      }
    }
  }

  /** Renaming again with the same name changes nothing. */
  lemma ObfuscateIdempotent(t: NameTable, newName: string)
    ensures Obfuscate(Obfuscate(t, newName), newName) == Obfuscate(t, newName)
  {
    ObfuscateAgain(t, newName);
    MapExtensional(Obfuscate(Obfuscate(t, newName), newName), Obfuscate(t, newName));
  }

  lemma MapExtensional<K, V>(a: map<K, V>, b: map<K, V>)
    requires a.Keys == b.Keys && forall k :: k in a ==> a[k] == b[k]
    ensures a == b
  {
  }

  /** Renaming twice gives the same keys and the same strings as renaming once. */
  lemma ObfuscateAgain(t: NameTable, newName: string)
    ensures Obfuscate(Obfuscate(t, newName), newName).Keys == Obfuscate(t, newName).Keys
    ensures forall k :: k in Obfuscate(t, newName) ==>
      Obfuscate(Obfuscate(t, newName), newName)[k] == Obfuscate(t, newName)[k]
  {
    var r := Obfuscate(t, newName);
    var r2 := Obfuscate(r, newName);
    ObfuscateTargets(t, newName);
    assert r2.Keys == r.Keys;
    forall k | k in r ensures r2[k] == r[k] {
      if IsRenamed(Targets(r), k) {
        assert IsRenamed(Targets(t), k);
      }
    }
  }
}

=== FILE: fontautoconv.dfy ===
/**
 fontautoconv.py: collects the characters of some web pages and cuts a
 WOFF2 subset of a font holding just those characters. The page texts are
 parameters (a page that cannot be fetched reads as empty text), and the
 font file check is a predicate.
 */
module FontAutoConv {
  import opened Wrappers
  import opened Text
  import opened Seqs
  import opened Paths

  /** Strictly increasing by code point, hence without repeats. */
  predicate Increasing(s: seq<char>) {
    forall i, j :: 0 <= i < j < |s| ==> s[i] < s[j]
  }

  /** Adding `c` to an increasing list, in its place, unless it is there. */
  function Insert(s: seq<char>, c: char): (r: seq<char>)
    requires Increasing(s)
    ensures Increasing(r)
    ensures forall x :: x in r <==> x in s || x == c
    decreases |s|
  {
    if s == [] then [c]
    else if c < s[0] then [c] + s
    else if c == s[0] then s
    else
      var rest := Insert(s[1..], c);
      ConsIncreasing(s, rest);
      [s[0]] + rest
  }

  lemma ConsIncreasing(s: seq<char>, rest: seq<char>)
    requires Increasing(s) && |s| > 0 && Increasing(rest)
    requires forall x :: x in rest ==> x in s[1..] || s[0] < x
    ensures Increasing([s[0]] + rest)
  {
    var r := [s[0]] + rest;
    forall i, j | 0 <= i < j < |r| ensures r[i] < r[j] {
      if i == 0 {
        assert r[j] in rest;
        if r[j] in s[1..] {
          var k :| 0 <= k < |s[1..]| && s[1..][k] == r[j];
          assert s[k + 1] == r[j];
        }
      } else {
        assert r[i] == rest[i - 1] && r[j] == rest[j - 1];
      }
    }
  }

  /** `sorted(set(cs), key=ord)`. */
  function SortChars(cs: seq<char>): (r: seq<char>)
    ensures Increasing(r)
    ensures forall x :: x in r <==> x in cs
    decreases |cs|
  {
    if cs == [] then []
    else
      var r := Insert(SortChars(cs[..|cs| - 1]), cs[|cs| - 1]);
      assert cs == cs[..|cs| - 1] + [cs[|cs| - 1]];
      r
  }

  /** Two increasing lists with the same elements are the same list. */
  lemma {:induction false} IncreasingUnique(a: seq<char>, b: seq<char>)
    requires Increasing(a) && Increasing(b)
    requires forall x :: x in a <==> x in b
    ensures a == b
    decreases |a|
  {
    assert a != [] ==> a[0] in b;
    assert b != [] ==> b[0] in a;
    if a != [] {
      assert a[0] == b[0] by {
        assert a[0] in b && b[0] in a;
      }
      forall x ensures x in a[1..] <==> x in b[1..] {
        if x in a[1..] {
          assert x in a && x != a[0];
        }
        if x in b[1..] {
          assert x in b && x != b[0];
        }
      }
      IncreasingUnique(a[1..], b[1..]);
      assert a == [a[0]] + a[1..] && b == [b[0]] + b[1..];
    }
  }

  /** `get_chars`: the characters of `text` that `\s` does not match, each
      once, in code point order. */
  function GetChars(text: string): (r: seq<char>)
    ensures Increasing(r)
    ensures forall x :: x in r <==> x in text && !IsSpace(x)
  {
    SortChars(Filter(text, (c: char) => !IsSpace(c)))
  }

  /** The characters of all pages: each page's characters appended, then
      sorted and deduplicated once more. A page read as empty text adds
      nothing, which is what skipping it does. */
  function Merge(texts: seq<string>): (r: seq<char>)
    ensures Increasing(r)
  {
    SortChars(Concat(seq(|texts|, i requires 0 <= i < |texts| => GetChars(texts[i]))))
  }

  /** Collecting page by page gives what collecting from all the pages'
      text at once would give. */
  lemma MergeIsGetChars(texts: seq<string>)
    ensures Merge(texts) == GetChars(Concat(texts))
  {
    var ss := seq(|texts|, i requires 0 <= i < |texts| => GetChars(texts[i]));
    assert forall i :: 0 <= i < |texts| ==> ss[i] == GetChars(texts[i]);
    forall x ensures x in Merge(texts) <==> x in GetChars(Concat(texts)) {
      ConcatHas(ss, x);
      ConcatHas(texts, x);
    }
    IncreasingUnique(Merge(texts), GetChars(Concat(texts)));
  }

  /** `os.path.join(out_dir, f"{name_no_ext}_subset.woff2")` with `out_dir`
      the font's directory. */
  function SubsetPath(font: string): string {
    JoinPath(Dirname(font), SplitExt(Basename(font)).0 + "_subset.woff2")
  }

  /** The subset sits in the font's directory and is named after the
      font's stem. */
  lemma SubsetPathSpec(font: string)
    ensures Basename(SubsetPath(font)) == SplitExt(Basename(font)).0 + "_subset.woff2"
    ensures StartsWith(SubsetPath(font), Dirname(font))
  {
    var name := SplitExt(Basename(font)).0 + "_subset.woff2";
    SubsetNameSlashFree(font);
    BasenameOfJoin(Dirname(font), name);
    JoinKeepsDir(Dirname(font), name);
  }

  lemma SubsetNameSlashFree(font: string)
    ensures '/' !in SplitExt(Basename(font)).0 + "_subset.woff2"
  {
    var b := Basename(font);
    var stem := SplitExt(b).0;
    assert stem == b[..|stem|];
  }

  /** Joining a relative name onto a directory keeps the directory in front. */
  lemma JoinKeepsDir(dir: string, name: string)
    requires name != [] && '/' !in name
    ensures StartsWith(JoinPath(dir, name), dir)
  {
    assert !StartsWith(name, "/") by { assert name[0] != '/'; }
  }

  /** The `pyftsubset` command for `font` and the collected characters. */
  function SubsetCommand(font: string, chars: seq<char>): (r: seq<string>)
    ensures |r| == 5 && r[0] == "pyftsubset" && r[1] == font
    ensures StartsWith(r[2], "--text=") && r[2][7..] == chars
  {
    ["pyftsubset", font, "--text=" + chars, "--flavor=woff2", "--output-file=" + SubsetPath(font)]
  }

  /** `main`: the font name is stripped; a name that is not a file stops
      the script, otherwise the subset command lists every non-whitespace
      character of the pages once. */
  function SubsetJob(isFile: string -> bool, texts: seq<string>, fontInput: string): (r: Option<seq<string>>)
    ensures r.Some? <==> isFile(Strip(fontInput))
    ensures r.Some? ==> (|r.value| == 5 && r.value[1] == Strip(fontInput) && |r.value[2]| >= 7
      && forall x :: x in r.value[2][7..] <==> x in Concat(texts) && !IsSpace(x))
  {
    var font := Strip(fontInput);
    if !isFile(font) then None
    else
      MergeIsGetChars(texts);
      Some(SubsetCommand(font, Merge(texts)))
  }
}

=== FILE: ordered_maps.dfy ===
/**
 Python dictionaries keep the order in which keys were first inserted, and the
 scripts let that order show (the order of the `; FontMap:` comment lines, of
 the attachments, of the report rows). An `ODict` is a map together with that
 order.
 */
module OrderedMaps {

  datatype ODict<K, V> = ODict(keys: seq<K>, vals: map<K, V>)

  /** The keys are listed once each, and exactly the keys of the map are listed. */
  predicate Valid<K, V>(d: ODict<K, V>) {
    && (forall i, j :: 0 <= i < j < |d.keys| ==> d.keys[i] != d.keys[j])
    && (forall k | k in d.vals :: k in d.keys)
    && (forall i | 0 <= i < |d.keys| :: d.keys[i] in d.vals)
  }

  function Empty<K, V>(): (r: ODict<K, V>)
    ensures Valid(r) && r.keys == [] && r.vals == map[]
  {
    ODict([], map[])
  }

  /** `d[k] = v`: a new key goes to the end, an existing key keeps its place. */
  function Put<K, V>(d: ODict<K, V>, k: K, v: V): (r: ODict<K, V>)
    requires Valid(d)
    ensures Valid(r)
    ensures r.vals == d.vals[k := v]
    ensures k in d.vals ==> r.keys == d.keys
    ensures k !in d.vals ==> r.keys == d.keys + [k]
  {
    if k in d.vals then ODict(d.keys, d.vals[k := v])
    else ODict(d.keys + [k], d.vals[k := v])
  }

  /** `d.items()`, in insertion order. */
  function Items<K, V>(d: ODict<K, V>): (r: seq<(K, V)>)
    requires Valid(d)
    ensures |r| == |d.keys|
    ensures forall i :: 0 <= i < |r| ==> r[i].0 == d.keys[i] && r[i].1 == d.vals[d.keys[i]]
  {
    seq(|d.keys|, i requires 0 <= i < |d.keys| => (d.keys[i], d.vals[d.keys[i]]))
  }
}

=== FILE: paths.dfy ===
/**
 Path arithmetic as the scripts perform it, on POSIX paths ('/' separator):
 `os.path.basename`/`dirname`/`join`/`splitext`, pathlib's `name`/`stem`/`suffix`,
 and GLib's `g_path_get_dirname`/`g_build_filename`.
 */
module Paths {
  import opened Wrappers
  import opened Text

  /** Where the last path component of `p` begins: just after the last '/'. */
  function NameStart(p: string): (i: nat)
    ensures i <= |p| && forall j :: i <= j < |p| ==> p[j] != '/'
    ensures i > 0 ==> p[i - 1] == '/'
    ensures '/' !in p ==> i == 0
  {
    match LastIndexOf(p, '/')
    case None => 0
    case Some(k) => k + 1
  }

  /** `os.path.basename`: everything after the last '/'. */
  function Basename(p: string): (r: string)
    ensures '/' !in r
    ensures r == p[NameStart(p)..]
    ensures '/' !in p ==> r == p
  {
    p[NameStart(p)..]
  }

  predicate AllSlash(s: string) {
    forall i :: 0 <= i < |s| ==> s[i] == '/'
  }

  /** `s.rstrip('/')`. */
  function TrimSlashEnd(s: string): (r: string)
    ensures r <= s && AllSlash(s[|r|..])
    ensures |r| > 0 ==> r[|r| - 1] != '/'
  {
    if |s| > 0 && s[|s| - 1] == '/' then
      var r := TrimSlashEnd(s[..|s| - 1]);
      assert s[|r|..] == s[..|s| - 1][|r|..] + ['/'];
      r
    else s
  }

  /** `s.lstrip('/')`. */
  function TrimSlashStart(s: string): (r: string)
    ensures |r| <= |s| && r == s[|s| - |r|..]
    ensures |r| > 0 ==> r[0] != '/'
  {
    if |s| > 0 && s[0] == '/' then TrimSlashStart(s[1..]) else s
  }

  /** `os.path.dirname`: the part up to the last '/', with trailing slashes
      removed unless it consists of slashes only. */
  function Dirname(p: string): (r: string)
    ensures '/' !in p ==> r == ""
  {
    var head := match LastIndexOf(p, '/') case None => "" case Some(k) => p[..k + 1];
    if head != "" && !AllSlash(head) then TrimSlashEnd(head) else head
  }

  /** `os.path.join(a, b)`. */
  function JoinPath(a: string, b: string): (r: string)
    ensures EndsWith(r, b)
  {
    if StartsWith(b, "/") then b
    else if a == "" || EndsWith(a, "/") then a + b
    else a + "/" + b
  }

  /** A file name joined onto a directory is the base name of the result. */
  lemma BasenameOfJoin(a: string, b: string)
    requires b != "" && '/' !in b
    ensures Basename(JoinPath(a, b)) == b
  {
    var r := JoinPath(a, b);
    var pre := r[..|r| - |b|];
    assert r == pre + b;
    assert !StartsWith(b, "/") by { assert b[0] != '/'; }
    assert pre == "" || pre[|pre| - 1] == '/' by {
      if a == "" {
        assert r == b;
      } else if EndsWith(a, "/") {
        assert pre == a;
      } else {
        assert pre == a + "/";
      }
    }
    match LastIndexOf(r, '/')
    case None =>
      assert pre == "";
    case Some(k) =>
      assert k == |pre| - 1;
      assert r[k + 1..] == b;
  }

  /** A name after a '/' is the base name. */
  lemma BasenameAfterSlash(dir: string, b: string)
    requires '/' !in b
    ensures Basename(dir + "/" + b) == b
  {
    var r := dir + "/" + b;
    assert r[|dir|] == '/';
    assert forall j :: |dir| < j < |r| ==> r[j] == b[j - |dir| - 1];
    assert LastIndexOf(r, '/') == Some(|dir|);
    assert r[|dir| + 1..] == b;
  }

  /** `os.path.splitext(p)`: the extension starts at the last '.' of the last
      path component, unless that component has only dots before it. */
  function SplitExt(p: string): (r: (string, string))
    ensures r.0 + r.1 == p
    ensures r.1 == "" || (r.1[0] == '.' && (forall j :: 1 <= j < |r.1| ==> r.1[j] != '.') && '/' !in r.1)
  {
    var start := NameStart(p);
    match LastIndexOf(p, '.')
    case None => (p, "")
    case Some(d) =>
      if d >= start && exists k | start <= k < d :: p[k] != '.' then
        assert p[..d] + p[d..] == p;
        (p[..d], p[d..])
      else (p, "")
  }

  /** The index in `p` of the dot that starts pathlib's suffix: the last '.'
      of the name, when it is neither the first nor the last character of the
      name. */
  function SuffixDot(p: string): (r: Option<nat>)
    ensures r.Some? ==> NameStart(p) < r.value < |p| - 1 && p[r.value] == '.'
    ensures r.Some? ==> forall j :: r.value < j < |p| ==> p[j] != '.'
  {
    match LastIndexOf(p, '.')
    case None => None
    case Some(d) => if NameStart(p) < d < |p| - 1 then Some(d) else None
  }

  /** pathlib's `PurePath.suffix`: from the last '.' of the name, when that dot
      is neither the first nor the last character of the name. */
  function PathSuffix(p: string): (r: string)
    ensures r == "" || (|r| >= 2 && r[0] == '.' && forall j :: 1 <= j < |r| ==> r[j] != '.')
  {
    match SuffixDot(p)
    case None => ""
    case Some(d) => p[d..]
  }

  /** pathlib's `PurePath.stem`: the name without its suffix. */
  function PathStem(p: string): (r: string)
    ensures r + PathSuffix(p) == Basename(p)
    ensures '/' !in r
  {
    match SuffixDot(p)
    case None => Basename(p)
    case Some(d) =>
      assert p[NameStart(p)..d] + p[d..] == p[NameStart(p)..];
      p[NameStart(p)..d]
  }

  /** A path whose name is a non-empty stem followed by an extension `.x`
      splits back into both. */
  lemma NameSplits(p: string, stem: string, ext: string)
    requires Basename(p) == stem + ext && stem != ""
    requires |ext| >= 2 && ext[0] == '.' && forall j :: 1 <= j < |ext| ==> ext[j] != '.'
    ensures PathSuffix(p) == ext && PathStem(p) == stem
  {
    var ns := NameStart(p);
    var d := ns + |stem|;
    assert p[ns..] == stem + ext;
    assert p[d] == ext[0];
    assert forall j :: d < j < |p| ==> p[j] == ext[j - d];
    assert LastIndexOf(p, '.') == Some(d);
    assert p[d..] == ext;
    assert p[ns..d] == stem;
  }

  /** `g_path_get_dirname`: like `os.path.dirname`, but "." when there is no directory part. */
  function GDirname(p: string): string {
    var d := Dirname(p);
    if d == "" then "." else d
  }

  /** `g_build_filename(dir, name)`: the two parts joined by exactly one separator. */
  function GBuildFilename(dir: string, name: string): (r: string)
    ensures Contains(r, "/")
  {
    var r := TrimSlashEnd(dir) + "/" + TrimSlashStart(name);
    assert OccursAt(r, "/", |TrimSlashEnd(dir)|);
    r
  }
}

=== FILE: rarer.dfy ===
/**
 rarer.py: stores every regular file of a directory, uncompressed, in its
 own RAR archive under the directory's `compressed` subdirectory. The file
 system and the archiver are parameters.
 */
module Rarer {
  import opened Wrappers
  import opened Text
  import opened Seqs
  import opened Paths

  const CompressedDir: string := "compressed"

  /** `ext[1:] if ext.startswith('.') else ext`. */
  function ExtNoDot(ext: string): (r: string)
    ensures StartsWith(ext, ".") ==> "." + r == ext
    ensures !StartsWith(ext, ".") ==> r == ext
  {
    if StartsWith(ext, ".") then ext[1..] else ext
  }

  /** `f"{name} [NS] ({ext_no_dot}).rar"` from `os.path.splitext(file_name)`. */
  function ArchiveName(fileName: string): string {
    var (name, ext) := SplitExt(fileName);
    name + " [NS] (" + ExtNoDot(ext) + ").rar"
  }

  /** A file `stem.ext` is stored as `stem [NS] (ext).rar`: the extension
      loses exactly its one leading dot. */
  lemma ArchiveNameOfExt(stem: string, ext: string)
    requires stem != "" && '/' !in stem && exists k | 0 <= k < |stem| :: stem[k] != '.'
    requires ext != "" && '.' !in ext && '/' !in ext
    ensures ArchiveName(stem + "." + ext) == stem + " [NS] (" + ext + ").rar"
  {
    var f := stem + "." + ext;
    SplitAtLastDot(stem, ext);
    assert ExtNoDot("." + ext) == ext by {
      assert ("." + ext)[1..] == ext;
    }
  }

  lemma SplitAtLastDot(stem: string, ext: string)
    requires stem != "" && '/' !in stem && exists k | 0 <= k < |stem| :: stem[k] != '.'
    requires ext != "" && '.' !in ext && '/' !in ext
    ensures SplitExt(stem + "." + ext) == (stem, "." + ext)
  {
    var f := stem + "." + ext;
    assert '/' !in f;
    assert NameStart(f) == 0 by {
      assert Basename(f) == f;
    }
    assert forall j :: |stem| < j < |f| ==> f[j] == ext[j - |stem| - 1];
    assert forall j :: |stem| < j < |f| ==> f[j] != '.';
    assert f[|stem|] == '.';
    assert LastIndexOf(f, '.') == Some(|stem|);
    var k :| 0 <= k < |stem| && stem[k] != '.';
    assert f[k] != '.';
    assert f[..|stem|] == stem && f[|stem|..] == "." + ext;
  }

  /** A file without an extension is stored as `name [NS] ().rar`. */
  lemma ArchiveNameNoExt(fileName: string)
    requires '.' !in fileName
    ensures ArchiveName(fileName) == fileName + " [NS] ().rar"
  {
    assert LastIndexOf(fileName, '.').None?;
  }

  /** A directory entry is archived only when it is a regular file. */
  function FilesToStore(isFile: string -> bool, sourceDir: string, listing: seq<string>): (r: seq<string>)
    ensures forall f :: f in r <==> f in listing && isFile(JoinPath(sourceDir, f))
  {
    Filter(listing, (f: string) => isFile(JoinPath(sourceDir, f)))
  }

  /** `rar a -m0 <archive> <file>`: store mode, no compression. */
  function StoreCommand(archive: string, file: string): (r: seq<string>)
    ensures |r| == 5 && r[3] == archive && r[4] == file
  {
    ["rar", "a", "-m0", archive, file]
  }

  /** Where the archive of `fileName` goes. */
  function ArchivePath(sourceDir: string, fileName: string): string {
    JoinPath(JoinPath(sourceDir, CompressedDir), ArchiveName(fileName))
  }

  /** The archive lands in `compressed` under the source directory. */
  lemma ArchiveInCompressed(sourceDir: string, fileName: string)
    requires fileName != "" && '/' !in fileName
    ensures Basename(ArchivePath(sourceDir, fileName)) == ArchiveName(fileName)
    ensures Dirname(ArchivePath(sourceDir, fileName)) == JoinPath(sourceDir, CompressedDir)
  {
    var name := ArchiveName(fileName);
    ArchiveNamePlain(fileName);
    BasenameOfJoin(JoinPath(sourceDir, CompressedDir), name);
    DirnameOfJoin(JoinPath(sourceDir, CompressedDir), name);
  }

  /** An archive name is a plain, non-empty file name. */
  lemma ArchiveNamePlain(fileName: string)
    requires '/' !in fileName
    ensures ArchiveName(fileName) != "" && '/' !in ArchiveName(fileName)
  {
    var (stem, ext) := SplitExt(fileName);
    assert stem == fileName[..|stem|];
    assert ext == fileName[|stem|..];
  }

  /** The directory part of `dir` joined with a plain name is `dir` itself,
      when `dir` is not empty and has no trailing `/`. */
  lemma DirnameOfJoin(dir: string, name: string)
    requires name != "" && '/' !in name
    requires EndsWith(dir, CompressedDir)
    ensures Dirname(JoinPath(dir, name)) == dir
  {
    var r := JoinPath(dir, name);
    assert !StartsWith(name, "/") by { assert name[0] != '/'; }
    assert !EndsWith(dir, "/") by { assert dir[|dir| - 1] == 'd'; }
    assert r == dir + "/" + name;
    LastSlashAt(dir, name);
    assert r[..|dir| + 1] == dir + "/";
    assert dir[|dir| - 1] != '/';
    TrimOneSlash(dir);
  }

  lemma LastSlashAt(dir: string, name: string)
    requires '/' !in name
    ensures LastIndexOf(dir + "/" + name, '/') == Some(|dir|)
  {
    var r := dir + "/" + name;
    assert forall j :: |dir| < j < |r| ==> r[j] == name[j - |dir| - 1];
    assert r[|dir|] == '/';
  }

  lemma TrimOneSlash(dir: string)
    requires |dir| > 0 && dir[|dir| - 1] != '/'
    ensures TrimSlashEnd(dir + "/") == dir && !AllSlash(dir + "/")
  {
    assert (dir + "/")[|dir| - 1] == dir[|dir| - 1];
  }

  /** What running the archiver did: it ran and succeeded, it ran and
      failed (`CalledProcessError`, caught), or it could not be started
      (an exception the script does not catch). */
  datatype RunStatus = Succeeded | ExitFailure | NotStarted

  datatype Report = Stored(fileName: string) | StoreFailed(fileName: string)

  /** The loop over the files: a failed archive is reported and the loop
      goes on; an archiver that cannot be started ends the script. */
  function StoreAll(status: string -> RunStatus, files: seq<string>): (r: (seq<Report>, bool))
    ensures !r.1 ==> |r.0| == |files|
    ensures r.1 ==> |r.0| < |files| && status(files[|r.0|]) == NotStarted
    ensures forall i :: 0 <= i < |r.0| ==> (r.0[i].fileName == files[i]
      && (r.0[i].StoreFailed? <==> status(files[i]) == ExitFailure))
    decreases |files|
  {
    if files == [] then ([], false)
    else
      match status(files[0])
      case NotStarted => ([], true)
      case Succeeded =>
        var rest := StoreAll(status, files[1..]);
        ([Stored(files[0])] + rest.0, rest.1)
      case ExitFailure =>
        var rest := StoreAll(status, files[1..]);
        ([StoreFailed(files[0])] + rest.0, rest.1)
  }

  /** `main`: the argument count and the directory are checked first; then
      every regular file is stored, `None` standing for an exit with an
      error message. */
  function Main(isDir: string -> bool, isFile: string -> bool, run: seq<string> -> RunStatus,
                argv: seq<string>, listing: seq<string>): (r: Option<(seq<Report>, bool)>)
    ensures r.Some? <==> |argv| == 2 && isDir(argv[1])
  {
    if |argv| != 2 || !isDir(argv[1]) then None
    else Some(StoreAll((f: string) => run(StoreCommand(ArchivePath(argv[1], f), JoinPath(argv[1], f))), FilesToStore(isFile, argv[1], listing)))
  }
}

=== FILE: seqs.dfy ===
/** Generic sequence helpers: list-comprehension filtering, and the first or last element that passes a test. */
module Seqs {
  import opened Wrappers

  /** `[x for x in s if p(x)]`. */
  function Filter<T(!new)>(s: seq<T>, p: T -> bool): (r: seq<T>)
    ensures |r| <= |s|
    ensures forall x :: x in r <==> x in s && p(x)
    ensures forall i :: 0 <= i < |r| ==> p(r[i])
  {
    if |s| == 0 then []
    else if p(s[0]) then [s[0]] + Filter(s[1..], p)
    else Filter(s[1..], p)
  }

  /** Filtering keeps the order: it distributes over concatenation. */
  lemma {:induction false} FilterAppend<T(!new)>(a: seq<T>, b: seq<T>, p: T -> bool)
    ensures Filter(a + b, p) == Filter(a, p) + Filter(b, p)
    decreases |a|
  {
    if |a| == 0 {
      assert a + b == b;
    } else {
      assert (a + b)[1..] == a[1..] + b;
      FilterAppend(a[1..], b, p);
    }
  }

  /** Filtering a list whose every element passes returns it unchanged. */
  lemma {:induction false} FilterAll<T(!new)>(s: seq<T>, p: T -> bool)
    requires forall i :: 0 <= i < |s| ==> p(s[i])
    ensures Filter(s, p) == s
    decreases |s|
  {
    if |s| > 0 {
      FilterAll(s[1..], p);
    }
  }

  predicate Distinct<T(==)>(s: seq<T>) {
    forall i, j :: 0 <= i < j < |s| ==> s[i] != s[j]
  }

  /** Filtering a list without repeats gives a list without repeats. */
  lemma {:induction false} FilterDistinct<T(!new)>(s: seq<T>, p: T -> bool)
    requires Distinct(s)
    ensures Distinct(Filter(s, p))
    decreases |s|
  {
    if |s| > 0 {
      FilterDistinct(s[1..], p);
      var rest := Filter(s[1..], p);
      if p(s[0]) {
        assert s[0] !in s[1..] by {
          forall k | 0 <= k < |s| - 1 ensures s[1..][k] != s[0] {
            assert s[1..][k] == s[k + 1];
          }
        }
        assert s[0] !in rest;
        var r := [s[0]] + rest;
        forall i, j | 0 <= i < j < |r| ensures r[i] != r[j] {
          if i == 0 {
            assert r[j] == rest[j - 1];
            assert rest[j - 1] in rest;
          } else {
            assert r[i] == rest[i - 1] && r[j] == rest[j - 1];
          }
        }
      }
    }
  }

  /** The index of the first element satisfying `p`. */
  function FirstIndex<T>(s: seq<T>, p: T -> bool): (r: Option<nat>)
    ensures r.Some? ==> r.value < |s| && p(s[r.value])
    ensures r.Some? ==> forall j :: 0 <= j < r.value ==> !p(s[j])
    ensures r.None? <==> forall j :: 0 <= j < |s| ==> !p(s[j])
  {
    if |s| == 0 then None
    else if p(s[0]) then Some(0)
    else
      match FirstIndex(s[1..], p)
      case None => None
      case Some(k) => Some(k + 1)
  }

  /** The lists of `ss` one after the other. */
  function Concat<T>(ss: seq<seq<T>>): (r: seq<T>) {
    if ss == [] then [] else ss[0] + Concat(ss[1..])
  }

  /** An element of the concatenation comes from one of the lists. */
  lemma {:induction false} ConcatHas<T>(ss: seq<seq<T>>, x: T)
    ensures x in Concat(ss) <==> exists i :: 0 <= i < |ss| && x in ss[i]
    decreases |ss|
  {
    if ss != [] {
      ConcatHas(ss[1..], x);
      if x in ss[0] {
        assert 0 <= 0 < |ss| && x in ss[0];
      }
      forall i | 1 <= i < |ss| && x in ss[i]
        ensures exists i' :: 0 <= i' < |ss[1..]| && x in ss[1..][i']
      {
        assert ss[1..][i - 1] == ss[i];
      }
    }
  }

  /** The index of the last element satisfying `p`. */
  function LastIndex<T>(s: seq<T>, p: T -> bool): (r: Option<nat>)
    ensures r.Some? ==> r.value < |s| && p(s[r.value])
    ensures r.Some? ==> forall j :: r.value < j < |s| ==> !p(s[j])
    ensures r.None? <==> forall j :: 0 <= j < |s| ==> !p(s[j])
  {
    if |s| == 0 then None
    else if p(s[|s| - 1]) then Some(|s| - 1)
    else LastIndex(s[..|s| - 1], p)
  }

  /** An index holding `p` with none after it is the last such index. */
  lemma LastIndexIs<T>(s: seq<T>, p: T -> bool, v: nat)
    requires v < |s| && p(s[v])
    requires forall j :: v < j < |s| ==> !p(s[j])
    ensures LastIndex(s, p) == Some(v)
  {
    var r := LastIndex(s, p);
    assert r.Some?;
  }

  /** The last index holding `p` is found in the tail, shifted by one, or
      else is the head if it holds `p`. */
  lemma LastIndexCons<T>(s: seq<T>, p: T -> bool)
    requires |s| > 0
    ensures LastIndex(s[1..], p).Some? ==> LastIndex(s, p) == Some(LastIndex(s[1..], p).value + 1)
    ensures LastIndex(s[1..], p).None? ==> LastIndex(s, p) == (if p(s[0]) then Some(0) else None)
  {
    var t := s[1..];
    match LastIndex(t, p)
    case Some(j) =>
      assert s[j + 1] == t[j];
      forall i | j + 1 < i < |s| ensures !p(s[i]) {
        assert s[i] == t[i - 1];
      }
      LastIndexIs(s, p, j + 1);
    case None =>
      forall i | 0 < i < |s| ensures !p(s[i]) {
        assert s[i] == t[i - 1];
      }
      if p(s[0]) {
        LastIndexIs(s, p, 0);
      }
  }

  /** `next((x for x in s if p(x)), None)`. */
  function First<T>(s: seq<T>, p: T -> bool): (r: Option<T>)
    ensures r.Some? ==> r.value in s && p(r.value)
    ensures r.None? <==> forall j :: 0 <= j < |s| ==> !p(s[j])
    ensures r.Some? ==> exists i :: 0 <= i < |s| && s[i] == r.value && forall j :: 0 <= j < i ==> !p(s[j])
  {
    match FirstIndex(s, p)
    case None => None
    case Some(i) => Some(s[i])
  }
}

=== FILE: ss_search.dfy ===
/**
 ss.search.py: looks for a keyword in every row of every `.ods` spreadsheet
 of a tree and prints each matching row, tidied: a `密码：` (password) label
 becomes a `?pwd=` query, the second cell keeps only the part between its
 first and second `}` (all that follows a lone `}`), and empty cells go.
 Opening a document is a parameter that gives its sheets, each a list of
 rows of cells; a cell is `None` or the text `str` makes of its value.
 */
module SheetSearch {
  import opened Wrappers
  import opened Text
  import opened Seqs
  import opened Paths

  // ---- Documents ---------------------------------------------------------

  predicate IsOds(name: string) {
    EndsWith(name, ".ods")
  }

  /** The documents the walk visits: each directory's `.ods` files, joined
      onto the directory, in walk and listing order. */
  function OdsPaths(walk: seq<(string, seq<string>)>): (r: seq<string>)
    ensures forall p :: p in r ==> exists i, f :: 0 <= i < |walk| && f in walk[i].1 && IsOds(f) && p == JoinPath(walk[i].0, f)
    decreases |walk|
  {
    if walk == [] then []
    else
      var here := Filter(walk[0].1, IsOds);
      var mine := seq(|here|, j requires 0 <= j < |here| => JoinPath(walk[0].0, here[j]));
      var rest := OdsPaths(walk[1..]);
      OdsPathsStep(walk, mine, rest);
      mine + rest
  }

  lemma OdsPathsStep(walk: seq<(string, seq<string>)>, mine: seq<string>, rest: seq<string>)
    requires |walk| > 0
    requires |mine| == |Filter(walk[0].1, IsOds)|
    requires forall j :: 0 <= j < |mine| ==> mine[j] == JoinPath(walk[0].0, Filter(walk[0].1, IsOds)[j])
    requires forall p :: p in rest ==> exists i, f :: 0 <= i < |walk[1..]| && f in walk[1..][i].1 && IsOds(f) && p == JoinPath(walk[1..][i].0, f)
    ensures forall p :: p in mine + rest ==> exists i, f :: 0 <= i < |walk| && f in walk[i].1 && IsOds(f) && p == JoinPath(walk[i].0, f)
  {
    var here := Filter(walk[0].1, IsOds);
    forall p | p in mine + rest
      ensures exists i, f :: 0 <= i < |walk| && f in walk[i].1 && IsOds(f) && p == JoinPath(walk[i].0, f)
    {
      if p in mine {
        var j :| 0 <= j < |mine| && mine[j] == p;
        assert here[j] in here;
        assert 0 <= 0 < |walk| && here[j] in walk[0].1 && IsOds(here[j]) && p == JoinPath(walk[0].0, here[j]);
      } else {
        var i, f :| 0 <= i < |walk[1..]| && f in walk[1..][i].1 && IsOds(f) && p == JoinPath(walk[1..][i].0, f);
        assert walk[1..][i] == walk[i + 1];
      }
    }
  }

  /** Every `.ods` file of the walk is searched. */
  lemma {:induction false} OdsPathsComplete(walk: seq<(string, seq<string>)>, i: nat, f: string)
    requires i < |walk| && f in walk[i].1 && IsOds(f)
    ensures JoinPath(walk[i].0, f) in OdsPaths(walk)
    decreases i
  {
    var here := Filter(walk[0].1, IsOds);
    var mine := seq(|here|, j requires 0 <= j < |here| => JoinPath(walk[0].0, here[j]));
    assert OdsPaths(walk) == mine + OdsPaths(walk[1..]);
    if i == 0 {
      assert f in here;
      var j :| 0 <= j < |here| && here[j] == f;
      assert mine[j] == JoinPath(walk[0].0, f);
    } else {
      assert walk[1..][i - 1] == walk[i];
      OdsPathsComplete(walk[1..], i - 1, f);
    }
  }

  /** The rows of the documents, sheet after sheet, document after document. */
  function Rows(open: string -> seq<seq<seq<Option<string>>>>, paths: seq<string>): seq<seq<Option<string>>>
    decreases |paths|
  {
    if paths == [] then [] else Concat(open(paths[0])) + Rows(open, paths[1..])
  }

  // ---- Rows --------------------------------------------------------------

  /** `str(cell.value).strip() if cell.value is not None else ''`: the text
      is trimmed, and only its whitespace is lost. */
  function Cell(v: Option<string>): (r: string)
    ensures Trimmed(r)
    ensures v.None? ==> r == ""
    ensures v.Some? ==> (r == "" <==> AllSpace(v.value))
    ensures v.Some? ==> forall c :: c in v.value && !IsSpace(c) ==> c in r
  {
    match v
    case None => ""
    case Some(s) =>
      StripKeepsAll(s);
      Strip(s)
  }

  lemma StripKeepsAll(s: string)
    ensures forall c :: c in s && !IsSpace(c) ==> c in Strip(s)
  {
    forall c | c in s && !IsSpace(c) ensures c in Strip(s) {
      StripKeeps(s, c);
    }
  }

  function RowData(row: seq<Option<string>>): (r: seq<string>)
    ensures |r| == |row| && forall i :: 0 <= i < |row| ==> r[i] == Cell(row[i])
  {
    seq(|row|, i requires 0 <= i < |row| => Cell(row[i]))
  }

  /** `any(kw in d.lower() for d in data)`, left to right. */
  function AnyHas(data: seq<string>, kw: string): (r: bool)
    ensures r <==> exists i :: 0 <= i < |data| && Contains(Lower(data[i]), kw)
    decreases |data|
  {
    if data == [] then false
    else
      var rest := AnyHas(data[1..], kw);
      assert forall i :: 1 <= i < |data| ==> data[i] == data[1..][i - 1];
      Contains(Lower(data[0]), kw) || rest
  }

  /** A row is reported when the lower-cased keyword occurs in some
      lower-cased cell. */
  predicate RowMatches(keyword: string, data: seq<string>) {
    AnyHas(data, Lower(keyword))
  }

  /** The case of the keyword does not matter. */
  lemma KeywordCaseIgnored(keyword: string, other: string, data: seq<string>)
    requires Lower(keyword) == Lower(other)
    ensures RowMatches(keyword, data) <==> RowMatches(other, data)
  {
  }

  const Pwd: string := "密码："
  const PwdQuery: string := "?pwd="

  /** A cell holding the password label has every label turned into the
      query and then every space dropped; any other cell is kept. */
  function TransformCell(c: string): (r: string)
    ensures !Contains(c, Pwd) ==> r == c
    ensures Contains(c, Pwd) ==> ' ' !in r
  {
    if Contains(c, Pwd) then Without(Replace(c, Pwd, PwdQuery), ' ') else c
  }

  lemma PwdHeadOnce()
    ensures HeadOnce(Pwd)
  {
  }

  /** A cell with one label: the text around it is kept, without its
      spaces, and the label becomes the query. */
  lemma PwdCellRewrites(a: string, b: string)
    requires !Contains(a, Pwd) && !Contains(b, Pwd)
    ensures TransformCell(a + Pwd + b) == Without(a + PwdQuery + b, ' ')
  {
    var c := a + Pwd + b;
    assert OccursAt(c, Pwd, |a|) by {
      assert c[|a|..|a| + |Pwd|] == Pwd;
    }
    PwdHeadOnce();
    assert Join([a, b], Pwd) == c by {
      assert [a, b][1..] == [b];
    }
    SplitJoinSep([a, b], Pwd);
    assert Join([a, b], PwdQuery) == a + PwdQuery + b by {
      assert [a, b][1..] == [b];
    }
  }

  /** `c.split('}')[1] if '}' in c else c`. */
  function SecondField(c: string): (r: string)
    ensures '}' !in c ==> r == c
    ensures '}' in c ==> '}' !in r
  {
    if '}' in c then
      SplitHasTwo(c, '}');
      var parts := Split(c, "}");
      assert "}" == ['}'];
      ContainsChar(parts[1], '}');
      parts[1]
    else c
  }

  /** A string holding `c` splits on it into at least two pieces. */
  lemma SplitHasTwo(s: string, c: char)
    requires c in s
    ensures |Split(s, [c])| >= 2
  {
    ContainsChar(s, c);
  }

  /** Splitting on `}` at a first `}`. */
  lemma SplitAtBrace(a: string, t: string)
    requires '}' !in a
    ensures Split(a + "}" + t, "}") == [a] + Split(t, "}")
  {
    var s := a + "}" + t;
    ContainsChar(a, '}');
    assert "}" == ['}'];
    assert HeadOnce("}");
    FirstJoint(a, t, "}");
    assert s[..|a|] == a && s[|a| + 1..] == t;
  }

  /** The second field is what lies between the first and the second `}`. */
  lemma SecondFieldBetween(a: string, b: string, rest: string)
    requires '}' !in a && '}' !in b
    ensures SecondField(a + "}" + b + "}" + rest) == b
  {
    var t := b + "}" + rest;
    var s := a + "}" + t;
    assert s == a + "}" + b + "}" + rest;
    assert Split(s, "}") == [a] + Split(t, "}") by { SplitAtBrace(a, t); }
    assert Split(t, "}") == [b] + Split(rest, "}") by { SplitAtBrace(b, rest); }
    assert '}' in s by { assert s[|a|] == '}'; }
  }

  /** With a single `}`, the second field is what follows it. */
  lemma SecondFieldAfterOnly(a: string, b: string)
    requires '}' !in a && '}' !in b
    ensures SecondField(a + "}" + b) == b
  {
    var s := a + "}" + b;
    SplitAtBrace(a, b);
    ContainsChar(b, '}');
    assert Split(b, "}") == [b] by {
      assert "}" == ['}'];
    }
    assert s[|a|] == '}';
  }

  predicate NonEmpty(s: string) {
    s != ""
  }

  /** The printed form of a matching row: every cell transformed, the second
      one cut at `}`, the empty ones dropped. A row of fewer than two cells
      has no second cell: `None` is the `IndexError` that ends the search. */
  function TransformRow(data: seq<string>): (r: Option<seq<string>>)
    ensures r.None? <==> |data| < 2
    ensures r.Some? ==> forall x :: x in r.value ==> x != ""
    ensures r.Some? ==> forall x :: x in r.value <==> (x != "" && (x == SecondField(TransformCell(data[1]))
      || exists i :: 0 <= i < |data| && i != 1 && x == TransformCell(data[i])))
  {
    if |data| < 2 then None
    else
      var p := seq(|data|, i requires 0 <= i < |data| => TransformCell(data[i]));
      var q := p[1 := SecondField(p[1])];
      CellsOfRow(data, q);
      Some(Filter(q, NonEmpty))
  }

  lemma CellsOfRow(data: seq<string>, q: seq<string>)
    requires |data| >= 2 && |q| == |data|
    requires q[1] == SecondField(TransformCell(data[1]))
    requires forall i :: 0 <= i < |data| && i != 1 ==> q[i] == TransformCell(data[i])
    ensures forall x :: x in q <==> (x == SecondField(TransformCell(data[1]))
      || exists i :: 0 <= i < |data| && i != 1 && x == TransformCell(data[i]))
  {
    forall x | x in q
      ensures x == SecondField(TransformCell(data[1])) || exists i :: 0 <= i < |data| && i != 1 && x == TransformCell(data[i])
    {
      var i :| 0 <= i < |q| && q[i] == x;
    }
    forall i | 0 <= i < |data| && i != 1 ensures TransformCell(data[i]) in q {
      assert q[i] == TransformCell(data[i]);
    }
    assert q[1] in q;
  }

  /** No cell is dropped from a row whose cells all stay non-empty, and
      the cells keep their places. */
  lemma TransformRowKeepsAll(data: seq<string>)
    requires |data| >= 2
    requires SecondField(TransformCell(data[1])) != ""
    requires forall i :: 0 <= i < |data| && i != 1 ==> TransformCell(data[i]) != ""
    ensures |TransformRow(data).value| == |data|
    ensures TransformRow(data).value[1] == SecondField(TransformCell(data[1]))
    ensures forall i :: 0 <= i < |data| && i != 1 ==> TransformRow(data).value[i] == TransformCell(data[i])
  {
    var p := seq(|data|, i requires 0 <= i < |data| => TransformCell(data[i]));
    var q := p[1 := SecondField(p[1])];
    assert forall i :: 0 <= i < |q| ==> NonEmpty(q[i]);
    FilterAll(q, NonEmpty);
  }

  // ---- The search --------------------------------------------------------

  /** The matching test as a function value, so that filtering by it names
      one and the same test everywhere. */
  function Hit(keyword: string): seq<Option<string>> -> bool {
    row => RowMatches(keyword, RowData(row))
  }

  /** `r` reports the matching rows `m`: each is printed transformed, in
      order, until one with fewer than two cells ends the search. */
  predicate Reports(m: seq<seq<Option<string>>>, r: (seq<seq<string>>, bool)) {
    && (!r.1 ==> |r.0| == |m|)
    && (r.1 ==> |r.0| < |m| && |m[|r.0|]| < 2)
    && forall i :: 0 <= i < |r.0| ==> TransformRow(RowData(m[i])) == Some(r.0[i])
  }

  lemma ReportsCons(m: seq<seq<Option<string>>>, row: seq<Option<string>>, printed: seq<string>, rest: (seq<seq<string>>, bool))
    requires TransformRow(RowData(row)) == Some(printed) && Reports(m, rest)
    ensures Reports([row] + m, ([printed] + rest.0, rest.1))
  {
    var m' := [row] + m;
    var r := [printed] + rest.0;
    forall i | 0 <= i < |r| ensures TransformRow(RowData(m'[i])) == Some(r[i]) {
      if i > 0 {
        assert m'[i] == m[i - 1] && r[i] == rest.0[i - 1];
      }
    }
    if rest.1 {
      assert m'[|r|] == m[|rest.0|];
    }
  }

  /** The rows printed, in order, and whether an `IndexError` ended the
      search: exactly the matching rows are printed, each transformed, up
      to the first matching row that has fewer than two cells. */
  function SearchRows(keyword: string, rows: seq<seq<Option<string>>>): (r: (seq<seq<string>>, bool))
    ensures Reports(Filter(rows, Hit(keyword)), r)
    decreases |rows|
  {
    if rows == [] then ([], false)
    else if !Hit(keyword)(rows[0]) then
      assert Filter(rows, Hit(keyword)) == Filter(rows[1..], Hit(keyword));
      SearchRows(keyword, rows[1..])
    else
      assert Filter(rows, Hit(keyword)) == [rows[0]] + Filter(rows[1..], Hit(keyword));
      match TransformRow(RowData(rows[0]))
      case None => ([], true)
      case Some(printed) =>
        var rest := SearchRows(keyword, rows[1..]);
        ReportsCons(Filter(rows[1..], Hit(keyword)), rows[0], printed, rest);
        ([printed] + rest.0, rest.1)
  }

  /** `search`: the rows of every `.ods` document of the walk. */
  function Search(open: string -> seq<seq<seq<Option<string>>>>, walk: seq<(string, seq<string>)>, keyword: string): (seq<seq<string>>, bool) {
    SearchRows(keyword, Rows(open, OdsPaths(walk)))
  }
}

=== FILE: text.dfy ===
/**
 Python's `str` operations as the scripts use them, on `string` (a sequence of
 code points): `isspace`/`strip`, ASCII `lower`, `startswith`/`endswith`, `in`,
 `find`/`rfind`, `split` (with and without `maxsplit`), `join`, `replace`,
 slicing with negative indices, and decimal formatting of naturals.
 */
module Text {
  import opened Wrappers

  /** The characters Python's `str.isspace` accepts, which are also the ones the
      `\s` class of `re` matches in a `str` pattern. */
  predicate IsSpace(c: char) {
    || ('\t' <= c <= '\r')
    || ('\U{1c}' <= c <= '\U{1f}')
    || c == ' '
    || c == '\U{85}'
    || c == '\U{a0}'
    || c == '\U{1680}'
    || ('\U{2000}' <= c <= '\U{200a}')
    || c == '\U{2028}'
    || c == '\U{2029}'
    || c == '\U{202f}'
    || c == '\U{205f}'
    || c == '\U{3000}'
  }

  predicate AllSpace(s: string) {
    forall i :: 0 <= i < |s| ==> IsSpace(s[i])
  }

  /** Neither end of `s` is whitespace: the shape of every `strip()` result. */
  predicate Trimmed(s: string) {
    |s| > 0 ==> !IsSpace(s[0]) && !IsSpace(s[|s| - 1])
  }

  predicate IsDigit(c: char) {
    '0' <= c <= '9'
  }

  predicate IsAsciiLetter(c: char) {
    ('a' <= c <= 'z') || ('A' <= c <= 'Z')
  }

  /** The first index at or after `i` that does not hold whitespace. */
  function SkipSpace(s: string, i: nat): (j: nat)
    requires i <= |s|
    ensures i <= j <= |s|
    ensures forall k :: i <= k < j ==> IsSpace(s[k])
    ensures j < |s| ==> !IsSpace(s[j])
    decreases |s| - i
  {
    if i < |s| && IsSpace(s[i]) then SkipSpace(s, i + 1) else i
  }

  /** The end of `s[lo..j]` once its trailing whitespace is dropped. */
  function SkipSpaceBack(s: string, lo: nat, j: nat): (i: nat)
    requires lo <= j <= |s|
    ensures lo <= i <= j
    ensures forall k :: i <= k < j ==> IsSpace(s[k])
    ensures i > lo ==> !IsSpace(s[i - 1])
    decreases j
  {
    if j > lo && IsSpace(s[j - 1]) then SkipSpaceBack(s, lo, j - 1) else j
  }

  /** `strip()`. The result is a slice of `s`, both of its ends are
      non-whitespace, and it is empty exactly when `s` is all whitespace. */
  function Strip(s: string): (r: string)
    ensures Trimmed(r)
    ensures |r| <= |s|
    ensures r == "" <==> AllSpace(s)
  {
    var a := SkipSpace(s, 0);
    var b := SkipSpaceBack(s, a, |s|);
    s[a..b]
  }

  /** `strip()` removes exactly the whitespace padding around a trimmed core. */
  lemma StripPadded(a: string, core: string, b: string)
    requires AllSpace(a) && AllSpace(b) && Trimmed(core) && core != ""
    ensures Strip(a + core + b) == core
  {
    var s := a + core + b;
    assert s[|a|] == core[0];
    SkipSpaceStops(s, 0, |a|);
    assert s[|a| + |core| - 1] == core[|core| - 1];
    SkipSpaceBackStops(s, |a|, |s|, |a| + |core|);
    assert s[|a|..|a| + |core|] == core;
  }

  lemma SkipSpaceStops(s: string, i: nat, n: nat)
    requires i <= n < |s| && !IsSpace(s[n])
    requires forall k :: i <= k < n ==> IsSpace(s[k])
    ensures SkipSpace(s, i) == n
    decreases n - i
  {
    if i < n {
      SkipSpaceStops(s, i + 1, n);
    }
  }

  lemma SkipSpaceBackStops(s: string, lo: nat, j: nat, n: nat)
    requires lo < n <= j <= |s| && !IsSpace(s[n - 1])
    requires forall k :: n <= k < j ==> IsSpace(s[k])
    ensures SkipSpaceBack(s, lo, j) == n
    decreases j
  {
    if j > n {
      SkipSpaceBackStops(s, lo, j - 1, n);
    }
  }

  /** Stripping twice is stripping once. */
  lemma StripIdempotent(s: string)
    ensures Strip(Strip(s)) == Strip(s)
  {
    var r := Strip(s);
    if r != "" {
      StripPadded("", r, "");
      assert "" + r + "" == r;
    }
  }

  /** Stripping a trimmed string changes nothing. */
  lemma StripTrimmed(s: string)
    requires Trimmed(s)
    ensures Strip(s) == s
  {
    if s != "" {
      StripPadded("", s, "");
      assert "" + s + "" == s;
    }
  }

  /** `strip()` removes whitespace only: every other character of `s`
      survives it. */
  lemma StripKeeps(s: string, c: char)
    requires c in s && !IsSpace(c)
    ensures c in Strip(s)
  {
    var k :| 0 <= k < |s| && s[k] == c;
    var a := SkipSpace(s, 0);
    var b := SkipSpaceBack(s, a, |s|);
    assert a <= k < b;
    assert Strip(s)[k - a] == c;
  }

  function LowerChar(c: char): char {
    if 'A' <= c <= 'Z' then (c as int + 32) as char else c
  }

  /** `lower()`, restricted to ASCII letters; every other character is kept. */
  function Lower(s: string): (r: string)
    ensures |r| == |s|
    ensures forall i :: 0 <= i < |s| ==> r[i] == LowerChar(s[i])
  {
    seq(|s|, i requires 0 <= i < |s| => LowerChar(s[i]))
  }

  lemma LowerIdempotent(s: string)
    ensures Lower(Lower(s)) == Lower(s)
  {
  }

  predicate StartsWith(s: string, prefix: string) {
    prefix <= s
  }

  predicate EndsWith(s: string, suffix: string) {
    |suffix| <= |s| && s[|s| - |suffix|..] == suffix
  }

  /** `s.lower().endswith(suffix)`, compared from the last character back. */
  predicate LowerEndsWith(s: string, suffix: string)
    decreases |suffix|
  {
    |suffix| == 0 ||
    (|s| > 0 && LowerChar(s[|s| - 1]) == suffix[|suffix| - 1] && LowerEndsWith(s[..|s| - 1], suffix[..|suffix| - 1]))
  }

  lemma {:induction false} LowerEndsWithSpec(s: string, suffix: string)
    ensures LowerEndsWith(s, suffix) <==> EndsWith(Lower(s), suffix)
    decreases |suffix|
  {
    if |suffix| > 0 && |s| > 0 {
      var s', x' := s[..|s| - 1], suffix[..|suffix| - 1];
      LowerEndsWithSpec(s', x');
      var l := Lower(s);
      assert Lower(s') == l[..|s| - 1];
      if |suffix| <= |s| {
        assert l[|s| - |suffix|..] == l[..|s| - 1][|s'| - |x'|..] + [l[|s| - 1]];
        assert suffix == x' + [suffix[|suffix| - 1]];
      }
    }
  }

  /** `sub` occurs in `s` starting at index `k`. */
  predicate OccursAt(s: string, sub: string, k: int) {
    0 <= k && k + |sub| <= |s| && s[k..k + |sub|] == sub
  }

  /** Python's `sub in s`. */
  predicate Contains(s: string, sub: string) {
    exists k | 0 <= k <= |s| - |sub| :: OccursAt(s, sub, k)
  }

  lemma OccursInPrefix(s: string, sub: string, k: int, n: int)
    requires 0 <= n <= |s| && OccursAt(s[..n], sub, k)
    ensures OccursAt(s, sub, k)
  {
    assert s[..n][k..k + |sub|] == s[k..k + |sub|];
  }

  lemma OccursInSuffix(s: string, sub: string, k: int, n: int)
    requires 0 <= n <= |s| && OccursAt(s[n..], sub, k)
    ensures OccursAt(s, sub, n + k)
  {
    assert s[n..][k..k + |sub|] == s[n + k..n + k + |sub|];
  }

  /** The first occurrence of `sub` at or after `from`. */
  function FindFrom(s: string, sub: string, from: nat): (r: Option<nat>)
    requires from <= |s|
    ensures r.Some? ==> from <= r.value && OccursAt(s, sub, r.value)
    ensures r.Some? ==> forall k :: from <= k < r.value ==> !OccursAt(s, sub, k)
    ensures r.None? ==> forall k :: from <= k ==> !OccursAt(s, sub, k)
    decreases |s| - from
  {
    if OccursAt(s, sub, from) then Some(from)
    else if from == |s| then None
    else FindFrom(s, sub, from + 1)
  }

  /** `s.find(sub)`, with `None` for Python's `-1`. */
  function Find(s: string, sub: string): (r: Option<nat>)
    ensures r.Some? ==> OccursAt(s, sub, r.value) && forall k :: 0 <= k < r.value ==> !OccursAt(s, sub, k)
    ensures r.None? <==> !Contains(s, sub)
  {
    FindFrom(s, sub, 0)
  }

  /** For a one-character needle, `Contains` is membership. */
  lemma ContainsChar(s: string, c: char)
    ensures Contains(s, [c]) <==> c in s
  {
    if c in s {
      var k :| 0 <= k < |s| && s[k] == c;
      assert OccursAt(s, [c], k);
    }
    if Contains(s, [c]) {
      var k :| 0 <= k <= |s| - 1 && OccursAt(s, [c], k);
      assert s[k..k + 1][0] == s[k];
    }
  }

  /** `sep.join(parts)`. */
  function Join(parts: seq<string>, sep: string): string
  {
    if |parts| == 0 then ""
    else if |parts| == 1 then parts[0]
    else parts[0] + sep + Join(parts[1..], sep)
  }

  /** A piece cut off before the first occurrence of `sep` does not contain `sep`. */
  lemma NoOccurrenceBefore(s: string, sep: string, k: nat)
    requires |sep| > 0 && k <= |s| && forall j :: 0 <= j < k ==> !OccursAt(s, sep, j)
    ensures !Contains(s[..k], sep)
  {
    forall j | 0 <= j <= k - |sep| && OccursAt(s[..k], sep, j)
      ensures false
    {
      OccursInPrefix(s, sep, j, k);
    }
  }

  /** `s.split(sep)` for a non-empty separator: joining the pieces gives `s`
      back and no piece contains the separator. */
  function Split(s: string, sep: string): (r: seq<string>)
    requires |sep| > 0
    ensures |r| >= 1
    ensures Join(r, sep) == s
    ensures forall i :: 0 <= i < |r| ==> !Contains(r[i], sep)
    decreases |s|
  {
    match Find(s, sep)
    case None => [s]
    case Some(k) =>
      NoOccurrenceBefore(s, sep, k);
      var rest := Split(s[k + |sep|..], sep);
      assert s == s[..k] + sep + s[k + |sep|..];
      [s[..k]] + rest
  }

  /** An occurrence cuts a string into the part before it, itself, and the part after it. */
  lemma CutAt(s: string, sep: string, k: nat)
    requires OccursAt(s, sep, k)
    ensures s == s[..k] + sep + s[k + |sep|..]
  {
    assert s[..k] + s[k..k + |sep|] + s[k + |sep|..] == s;
  }

  /** Joining a piece onto a non-empty list of pieces. */
  lemma JoinCons(head: string, rest: seq<string>, sep: string)
    requires |rest| >= 1
    ensures Join([head] + rest, sep) == head + sep + Join(rest, sep)
  {
    assert ([head] + rest)[1..] == rest;
  }

  /** `s.split(sep, n)`: at most `n` cuts, the remainder kept whole in the last
      piece. Every piece but the last is free of `sep`, and so is the last one
      when fewer than `n` cuts were made. */
  function SplitN(s: string, sep: string, n: nat): (r: seq<string>)
    requires |sep| > 0
    ensures 1 <= |r| <= n + 1
    ensures Join(r, sep) == s
    ensures forall i :: 0 <= i < |r| - 1 ==> !Contains(r[i], sep)
    ensures |r| <= n ==> forall i :: 0 <= i < |r| ==> !Contains(r[i], sep)
    decreases n
  {
    if n == 0 then [s]
    else
      match Find(s, sep)
      case None => [s]
      case Some(k) =>
        NoOccurrenceBefore(s, sep, k);
        var rest := SplitN(s[k + |sep|..], sep, n - 1);
        SplitNStep(s, sep, k, rest, n);
        [s[..k]] + rest
  }

  /** One cut of `SplitN`: the piece before the first occurrence, followed by
      the split of the rest, splits `s`. */
  lemma SplitNStep(s: string, sep: string, k: nat, rest: seq<string>, n: nat)
    requires |sep| > 0 && OccursAt(s, sep, k) && !Contains(s[..k], sep) && n >= 1
    requires 1 <= |rest| <= n && Join(rest, sep) == s[k + |sep|..]
    requires forall i :: 0 <= i < |rest| - 1 ==> !Contains(rest[i], sep)
    requires |rest| <= n - 1 ==> forall i :: 0 <= i < |rest| ==> !Contains(rest[i], sep)
    ensures var r := [s[..k]] + rest;
      && 1 <= |r| <= n + 1 && Join(r, sep) == s
      && (forall i :: 0 <= i < |r| - 1 ==> !Contains(r[i], sep))
      && (|r| <= n ==> forall i :: 0 <= i < |r| ==> !Contains(r[i], sep))
  {
    CutAt(s, sep, k);
    JoinCons(s[..k], rest, sep);
    ConsFree(s[..k], rest, sep, n);
  }

  /** A piece free of `sep` put in front keeps the pieces free of it. */
  lemma ConsFree(head: string, rest: seq<string>, sep: string, n: nat)
    requires !Contains(head, sep) && 1 <= |rest| <= n
    requires forall i :: 0 <= i < |rest| - 1 ==> !Contains(rest[i], sep)
    requires |rest| <= n - 1 ==> forall i :: 0 <= i < |rest| ==> !Contains(rest[i], sep)
    ensures var r := [head] + rest;
      && (forall i :: 0 <= i < |r| - 1 ==> !Contains(r[i], sep))
      && (|r| <= n ==> forall i :: 0 <= i < |r| ==> !Contains(r[i], sep))
  {
    var r := [head] + rest;
    assert forall i :: 1 <= i < |r| ==> r[i] == rest[i - 1];
  }

  /** Splitting on one character undoes joining on it, when no part holds it. */
  lemma {:induction false} SplitJoin(parts: seq<string>, c: char)
    requires |parts| >= 1
    requires forall i :: 0 <= i < |parts| ==> c !in parts[i]
    ensures Split(Join(parts, [c]), [c]) == parts
  {
    var s := Join(parts, [c]);
    if |parts| == 1 {
      ContainsChar(s, c);
    } else {
      var a := parts[0];
      var b := Join(parts[1..], [c]);
      assert s == a + [c] + b;
      assert OccursAt(s, [c], |a|);
      forall k | 0 <= k < |a| ensures !OccursAt(s, [c], k) {
        assert s[k] == a[k];
        assert s[k..k + 1][0] == s[k];
      }
      assert Find(s, [c]) == Some(|a|);
      assert s[..|a|] == a;
      assert s[|a| + 1..] == b;
      SplitJoin(parts[1..], c);
    }
  }

  /** A separator whose first character does not recur in it: two of its
      occurrences cannot overlap. */
  predicate HeadOnce(sep: string) {
    |sep| > 0 && forall j :: 1 <= j < |sep| ==> sep[j] != sep[0]
  }

  /** The first occurrence of such a separator in `a + sep + b` is the
      joint, when `a` holds none. */
  lemma FirstJoint(a: string, b: string, sep: string)
    requires HeadOnce(sep) && !Contains(a, sep)
    ensures Find(a + sep + b, sep) == Some(|a|)
  {
    var s := a + sep + b;
    assert OccursAt(s, sep, |a|) by {
      assert s[|a|..|a| + |sep|] == sep;
    }
    forall k | 0 <= k < |a| ensures !OccursAt(s, sep, k) {
      if k + |sep| <= |a| {
        if OccursAt(s, sep, k) {
          assert s[k..k + |sep|] == a[k..k + |sep|];
          assert OccursAt(a, sep, k);
        }
      } else {
        assert s[|a|] == sep[0] && sep[|a| - k] != sep[0];
      }
    }
  }

  /** Splitting on such a separator undoes joining on it, when no part
      holds it (as with `", "`). */
  lemma {:induction false} SplitJoinSep(parts: seq<string>, sep: string)
    requires HeadOnce(sep) && |parts| >= 1
    requires forall i :: 0 <= i < |parts| ==> !Contains(parts[i], sep)
    ensures Split(Join(parts, sep), sep) == parts
    decreases |parts|
  {
    if |parts| > 1 {
      var a := parts[0];
      var b := Join(parts[1..], sep);
      var s := a + sep + b;
      FirstJoint(a, b, sep);
      assert s[..|a|] == a;
      assert s[|a| + |sep|..] == b;
      SplitJoinSep(parts[1..], sep);
    }
  }

  /** Replacing one field of a split and joining again gives a string that
      splits into exactly the new fields, when the new field holds no
      separator. */
  lemma SplitReplaceField(s: string, sep: string, i: nat, field: string)
    requires |sep| == 1 && i < |Split(s, sep)| && sep[0] !in field
    ensures Split(Join(Split(s, sep)[i := field], sep), sep) == Split(s, sep)[i := field]
  {
    var c := sep[0];
    assert sep == [c];
    var parts := Split(s, sep);
    var np := parts[i := field];
    forall j | 0 <= j < |np| ensures c !in np[j] {
      if j != i {
        ContainsChar(parts[j], c);
      }
    }
    SplitJoin(np, c);
  }

  /** `s.replace(pat, repl)` for a non-empty `pat`: Python replaces the
      non-overlapping occurrences from left to right, which is exactly
      `repl.join(s.split(pat))`. */
  function Replace(s: string, pat: string, repl: string): (r: string)
    requires |pat| > 0
  {
    Join(Split(s, pat), repl)
  }

  /** Replacing something that does not occur changes nothing. */
  lemma ReplaceAbsent(s: string, pat: string, repl: string)
    requires |pat| > 0 && !Contains(s, pat)
    ensures Replace(s, pat, repl) == s
  {
  }

  /** Removing a pattern that ends the string and whose first character does
      not occur before it leaves exactly the part before it. */
  lemma ReplaceTrailing(a: string, pat: string)
    requires |pat| > 0 && pat[0] !in a
    ensures Replace(a + pat, pat, "") == a
  {
    var s := a + pat;
    forall k | 0 <= k < |a| ensures !OccursAt(s, pat, k) {
      assert s[k] == a[k] != pat[0];
    }
    assert OccursAt(s, pat, |a|) by { assert s[|a|..|a| + |pat|] == pat; }
    assert Find(s, pat) == Some(|a|);
    assert s[..|a|] == a && s[|a| + |pat|..] == "";
    assert Find("", pat) == None;
    assert Split(s, pat) == [a, ""];
    assert [a, ""][1..] == [""];
    assert Join([a, ""], "") == a + "" + "";
  }

  /** `s` with every `a` turned into `b`, character by character. */
  function Subst(s: string, a: char, b: char): (r: string)
    ensures |r| == |s|
  {
    if |s| == 0 then "" else [if s[0] == a then b else s[0]] + Subst(s[1..], a, b)
  }

  lemma {:induction false} SubstAppend(x: string, y: string, a: char, b: char)
    ensures Subst(x + y, a, b) == Subst(x, a, b) + Subst(y, a, b)
    decreases |x|
  {
    if |x| > 0 {
      assert (x + y)[1..] == x[1..] + y;
      SubstAppend(x[1..], y, a, b);
    } else {
      assert x + y == y;
    }
  }

  lemma {:induction false} SubstAbsent(s: string, a: char, b: char)
    requires a !in s
    ensures Subst(s, a, b) == s
    decreases |s|
  {
    if |s| > 0 {
      assert a !in s[1..];
      SubstAbsent(s[1..], a, b);
    }
  }

  /** Every position of `Subst(s, a, b)` holds `b` where `s` holds `a`, and
      `s`'s own character elsewhere. */
  lemma {:induction false} SubstAt(s: string, a: char, b: char, i: nat)
    requires i < |s|
    ensures Subst(s, a, b)[i] == if s[i] == a then b else s[i]
    decreases i
  {
    if i > 0 {
      SubstAt(s[1..], a, b, i - 1);
    }
  }

  /** `s.replace(a, b)` for one-character strings is `Subst`. */
  lemma {:induction false} ReplaceOneChar(s: string, a: char, b: char)
    ensures Replace(s, [a], [b]) == Subst(s, a, b)
    decreases |s|
  {
    match Find(s, [a])
    case None =>
      ContainsChar(s, a);
      SubstAbsent(s, a, b);
    case Some(k) =>
      ReplaceOneChar(s[k + 1..], a, b);
      ReplaceOneCharStep(s, a, b, k);
  }

  lemma ReplaceOneCharStep(s: string, a: char, b: char, k: nat)
    requires Find(s, [a]) == Some(k)
    requires Replace(s[k + 1..], [a], [b]) == Subst(s[k + 1..], a, b)
    ensures Replace(s, [a], [b]) == Subst(s, a, b)
  {
    ReplaceAtFirst(s, a, b, k);
    SubstAtFirst(s, a, b, k);
  }

  lemma ReplaceAtFirst(s: string, a: char, b: char, k: nat)
    requires Find(s, [a]) == Some(k)
    ensures Replace(s, [a], [b]) == s[..k] + [b] + Replace(s[k + 1..], [a], [b])
  {
    var parts := Split(s[k + 1..], [a]);
    assert Split(s, [a]) == [s[..k]] + parts;
    JoinCons(s[..k], parts, [b]);
  }

  lemma SubstAtFirst(s: string, a: char, b: char, k: nat)
    requires Find(s, [a]) == Some(k)
    ensures Subst(s, a, b) == s[..k] + [b] + Subst(s[k + 1..], a, b)
  {
    FirstCharAt(s, a, k);
    SubstAbsent(s[..k], a, b);
    assert s == s[..k] + ([a] + s[k + 1..]);
    SubstCons(s[..k], a, b, s[k + 1..]);
  }

  lemma FirstCharAt(s: string, a: char, k: nat)
    requires Find(s, [a]) == Some(k)
    ensures k < |s| && s[k] == a && a !in s[..k]
  {
    assert !Contains(s[..k], [a]) by { NoOccurrenceBefore(s, [a], k); }
    ContainsChar(s[..k], a);
    assert s[k..k + 1] == [a];
  }

  lemma SubstCons(x: string, a: char, b: char, rest: string)
    ensures Subst(x + ([a] + rest), a, b) == Subst(x, a, b) + [b] + Subst(rest, a, b)
  {
    SubstAppend(x, [a] + rest, a, b);
    SubstHead(a, b, rest);
  }

  lemma SubstHead(a: char, b: char, rest: string)
    ensures Subst([a] + rest, a, b) == [b] + Subst(rest, a, b)
  {
    assert ([a] + rest)[1..] == rest;
  }

  /** `s` with every `c` dropped: the independent meaning of `replace(c, "")`. */
  function Without(s: string, c: char): (r: string)
    ensures c !in r
    ensures forall x :: x in r <==> x in s && x != c
  {
    if |s| == 0 then ""
    else if s[0] == c then Without(s[1..], c)
    else [s[0]] + Without(s[1..], c)
  }

  lemma WithoutAppend(a: string, b: string, c: char)
    ensures Without(a + b, c) == Without(a, c) + Without(b, c)
  {
    if |a| == 0 {
      assert a + b == b;
    } else {
      assert (a + b)[1..] == a[1..] + b;
      WithoutAppend(a[1..], b, c);
    }
  }

  /** `replace(c, "")` removes every `c` and keeps every other character in order. */
  lemma {:induction false} ReplaceCharByEmpty(s: string, c: char)
    ensures Replace(s, [c], "") == Without(s, c)
    decreases |s|
  {
    match Find(s, [c])
    case None =>
      ContainsChar(s, c);
      WithoutAbsent(s, c);
    case Some(k) =>
      var rest := s[k + 1..];
      var parts := Split(rest, [c]);
      assert Split(s, [c]) == [s[..k]] + parts;
      assert Replace(s, [c], "") == s[..k] + Replace(rest, [c], "") by {
        assert ([s[..k]] + parts)[1..] == parts;
      }
      ReplaceCharByEmpty(rest, c);
      assert !Contains(s[..k], [c]) by { NoOccurrenceBefore(s, [c], k); }
      ContainsChar(s[..k], c);
      WithoutAbsent(s[..k], c);
      assert s == s[..k] + ([c] + rest);
      WithoutAppend(s[..k], [c] + rest, c);
      assert ([c] + rest)[1..] == rest;
  }

  lemma WithoutAbsent(s: string, c: char)
    requires c !in s
    ensures Without(s, c) == s
  {
    if |s| > 0 {
      assert c !in s[1..];
      WithoutAbsent(s[1..], c);
    }
  }

  /** The last index below `n` holding `c`. */
  function LastIndexBelow(s: string, c: char, n: nat): (r: Option<nat>)
    requires n <= |s|
    ensures r.Some? ==> r.value < n && s[r.value] == c && forall j :: r.value < j < n ==> s[j] != c
    ensures r.None? ==> forall j :: 0 <= j < n ==> s[j] != c
    decreases n
  {
    if n == 0 then None
    else if s[n - 1] == c then Some(n - 1)
    else LastIndexBelow(s, c, n - 1)
  }

  /** The last index of `c` in `s` (`rfind`), `None` for Python's `-1`. */
  function LastIndexOf(s: string, c: char): (r: Option<nat>)
    ensures r.Some? ==> r.value < |s| && s[r.value] == c && forall j :: r.value < j < |s| ==> s[j] != c
    ensures r.None? <==> c !in s
  {
    LastIndexBelow(s, c, |s|)
  }

  /** The first index of `c` in `s` (`find`), `None` for Python's `-1`. */
  function IndexOf(s: string, c: char): (r: Option<nat>)
    ensures r.Some? ==> r.value < |s| && s[r.value] == c && c !in s[..r.value]
    ensures r.None? <==> c !in s
  {
    if |s| == 0 then None
    else if s[0] == c then Some(0)
    else
      match IndexOf(s[1..], c)
      case None => None
      case Some(k) =>
        assert s[..k + 1] == [s[0]] + s[1..][..k];
        Some(k + 1)
  }

  /** `s.rsplit(c, 1)[0]`: everything before the last `c`, or all of `s`. */
  function BeforeLast(s: string, c: char): (r: string)
    ensures r <= s
    ensures c !in s ==> r == s
    ensures c in s ==> |r| < |s| && s[|r|] == c && forall j :: |r| < j < |s| ==> s[j] != c
  {
    match LastIndexOf(s, c)
    case None => s
    case Some(k) => s[..k]
  }

  /** A Python index after adding `n` to a negative one and clamping into `0..n`. */
  function PyBound(i: int, n: nat): (r: nat)
    ensures r <= n
  {
    if i < 0 then (if i + n < 0 then 0 else i + n)
    else if i > n then n
    else i
  }

  /** Python's slice `s[a:b]`. */
  function PySlice(s: string, a: int, b: int): (r: string)
    ensures |r| <= |s|
  {
    var lo := PyBound(a, |s|);
    var hi := PyBound(b, |s|);
    if lo < hi then s[lo..hi] else ""
  }

  function DigitChar(d: nat): (c: char)
    requires d < 10
    ensures IsDigit(c) && c as int == '0' as int + d
  {
    (('0' as int) + d) as char
  }

  /** The value of a string of decimal digits. */
  function DigitsValue(s: string): nat
    requires forall i :: 0 <= i < |s| ==> IsDigit(s[i])
  {
    if |s| == 0 then 0
    else
      assert IsDigit(s[|s| - 1]);
      DigitsValue(s[..|s| - 1]) * 10 + (s[|s| - 1] as int - '0' as int)
  }

  /** `str(n)` for a natural number: decimal digits that read back as `n`,
      with no leading zero. */
  function NatToString(n: nat): (r: string)
    ensures |r| > 0 && forall i :: 0 <= i < |r| ==> IsDigit(r[i])
    ensures DigitsValue(r) == n
    ensures |r| > 1 ==> r[0] != '0'
  {
    if n < 10 then [DigitChar(n)]
    else
      var q := NatToString(n / 10);
      assert DigitsValue(q) == n / 10;
      var r := q + [DigitChar(n % 10)];
      assert r[..|r| - 1] == q;
      assert r[|r| - 1] == DigitChar(n % 10);
      assert DigitsValue(r) == DigitsValue(q) * 10 + n % 10;
      assert n == (n / 10) * 10 + n % 10;
      r
  }

  /** A digit string with a non-zero lead has a positive value. */
  lemma {:induction false} DigitsPositive(t: string)
    requires |t| > 0 && forall i :: 0 <= i < |t| ==> IsDigit(t[i])
    requires t[0] != '0'
    ensures DigitsValue(t) > 0
    decreases |t|
  {
    if |t| > 1 {
      DigitsPositive(t[..|t| - 1]);
    }
  }

  /** `str(int(t))` is `t` for a digit string without a leading zero. */
  lemma {:induction false} NatToStringOfDigits(t: string)
    requires |t| > 0 && forall i :: 0 <= i < |t| ==> IsDigit(t[i])
    requires |t| > 1 ==> t[0] != '0'
    ensures NatToString(DigitsValue(t)) == t
    decreases |t|
  {
    if |t| > 1 {
      var p := t[..|t| - 1];
      var n := DigitsValue(t);
      var d := t[|t| - 1] as int - '0' as int;
      DigitsPositive(p);
      NatToStringOfDigits(p);
      assert n == DigitsValue(p) * 10 + d;
      assert n / 10 == DigitsValue(p) && n % 10 == d;
      assert DigitChar(d) == t[|t| - 1];
      assert NatToString(n) == NatToString(n / 10) + [DigitChar(n % 10)];
      assert t == p + [t[|t| - 1]];
    }
  }

  /** The value of two digits. */
  lemma DigitsValueTwo(t: string)
    requires |t| == 2 && IsDigit(t[0]) && IsDigit(t[1])
    ensures DigitsValue(t) == (t[0] as int - '0' as int) * 10 + (t[1] as int - '0' as int)
  {
    assert t[..1][..0] == [];
    assert DigitsValue(t[..1]) == t[0] as int - '0' as int;
  }

  /** Two digits formatted with `%02d` read back unchanged. */
  lemma Pad2OfDigits(t: string)
    requires |t| == 2 && IsDigit(t[0]) && IsDigit(t[1])
    ensures DigitsValue(t) < 100 && Pad2(DigitsValue(t)) == t
  {
    DigitsValueTwo(t);
    assert DigitChar(t[0] as int - '0' as int) == t[0];
    assert DigitChar(t[1] as int - '0' as int) == t[1];
  }

  /** `%02d`-style formatting of a number below 100. */
  function Pad2(n: nat): (r: string)
    requires n < 100
    ensures |r| == 2 && IsDigit(r[0]) && IsDigit(r[1])
    ensures DigitsValue(r) == n
  {
    var r := [DigitChar(n / 10), DigitChar(n % 10)];
    assert r[..1] == [DigitChar(n / 10)];
    assert r[..1][..0] == [];
    assert DigitsValue(r[..1]) == n / 10;
    r
  }
}

=== FILE: vndb.dfy ===
/** A member of a JSON object as `dict.get` sees it: missing, `null`, or a value. */
module JsonFields {
  datatype Field<T> = Absent | Null | Present(value: T)
}

/**
 vndb.py: fetches visual-novel records from the VNDB API and writes one
 BBCode post per record. The model covers what the script makes of a
 record: the fields it picks, the screenshots it keeps, the file name it
 writes to, and how it reads the list of IDs. The HTTP request is a
 parameter.
 */
module Vndb {
  import opened Wrappers
  import opened Text
  import opened Seqs
  import opened Paths
  import opened JsonFields

  datatype Title = Title(lang: string, title: string, latin: Field<string>, official: Field<bool>)

  /** Scores are VNDB's 0–2 averages. */
  datatype Screenshot = Screenshot(url: string, sexual: Field<real>, violence: Field<real>)

  /** A record holding the fields the query asks for. `image` is the image
      object, itself holding an optional `url`. */
  datatype VnRecord = VnRecord(
    titles: seq<Title>,
    released: Field<string>,
    developers: Field<seq<string>>,
    description: Field<string>,
    image: Field<Field<string>>,
    screenshots: Field<seq<Screenshot>>)

  const Unknown: string := "Unknown"
  const NoDescription: string := "No description available."
  const NoCover: string := "No cover available."
  const NoScreenshots: string := "No screenshots available."
  const OutDir: string := "D:/"

  /** How an f-string shows a value that may be `None`. */
  function Shown(v: Option<string>): string {
    match v
    case Some(s) => s
    case None => "None"
  }

  // ---- Titles ----------------------------------------------------------

  /** `t["lang"] == "ja" and t.get("official")`: only a `true` flag is truthy. */
  predicate OfficialJa(t: Title) {
    t.lang == "ja" && t.official == Present(true)
  }

  predicate IsJa(t: Title) {
    t.lang == "ja"
  }

  /** The Japanese title: the first official Japanese one, else `Unknown`. */
  function JpTitle(titles: seq<Title>): string {
    match First(titles, OfficialJa)
    case Some(t) => t.title
    case None => Unknown
  }

  /** `Unknown` exactly when no official Japanese title exists, otherwise
      the title of the first one in list order. */
  lemma JpTitleSpec(titles: seq<Title>, i: nat)
    ensures (forall j :: 0 <= j < |titles| ==> !OfficialJa(titles[j])) ==> JpTitle(titles) == Unknown
    ensures i < |titles| && OfficialJa(titles[i]) && (forall j :: 0 <= j < i ==> !OfficialJa(titles[j]))
      ==> JpTitle(titles) == titles[i].title
  {
    var r := First(titles, OfficialJa);
    if r.Some? {
      var k :| 0 <= k < |titles| && titles[k] == r.value && forall j :: 0 <= j < k ==> !OfficialJa(titles[j]);
      if i < |titles| && OfficialJa(titles[i]) && (forall j :: 0 <= j < i ==> !OfficialJa(titles[j])) {
        assert !(k < i) && !(i < k);
      }
    }
  }

  /** The romanised title: the `latin` of the first Japanese title, official
      or not (`None` when it has none), else `Unknown`. */
  function RomanTitle(titles: seq<Title>): (r: Option<string>)
    ensures (forall j :: 0 <= j < |titles| ==> !IsJa(titles[j])) ==> r == Some(Unknown)
    ensures r.None? ==> exists j :: 0 <= j < |titles| && IsJa(titles[j]) && !titles[j].latin.Present?
  {
    match First(titles, IsJa)
    case Some(t) => (match t.latin case Present(l) => Some(l) case _ => None)
    case None => Some(Unknown)
  }

  /** The romanised title comes from the first Japanese title even when a
      later one is the official title shown beside it. */
  lemma RomanFromFirstJa(titles: seq<Title>, i: nat)
    requires i < |titles| && IsJa(titles[i]) && forall j :: 0 <= j < i ==> !IsJa(titles[j])
    ensures RomanTitle(titles) == match titles[i].latin case Present(l) => Some(l) case _ => None
  {
    var r := First(titles, IsJa);
    var k :| 0 <= k < |titles| && titles[k] == r.value && forall j :: 0 <= j < k ==> !IsJa(titles[j]);
    assert !(k < i) && !(i < k);
  }

  // ---- Release date, developers, description, cover --------------------

  /** `data.get("released", "Unknown").replace("-", "/")`; a `null` date
      raises. */
  function DateText(released: Field<string>): Option<string> {
    match released
    case Absent => Some(Replace(Unknown, "-", "/"))
    case Null => None
    case Present(s) => Some(Replace(s, "-", "/"))
  }

  /** The date keeps its length, holds no `-` afterwards, and has `/` exactly
      where the API's date had `-`. */
  lemma DateSlashes(s: string)
    ensures var d := DateText(Present(s)).value;
      |d| == |s| && '-' !in d
      && forall i :: 0 <= i < |s| ==> d[i] == if s[i] == '-' then '/' else s[i]
  {
    ReplaceOneChar(s, '-', '/');
    forall i | 0 <= i < |s| ensures Subst(s, '-', '/')[i] == if s[i] == '-' then '/' else s[i] {
      SubstAt(s, '-', '/', i);
    }
  }

  /** A missing date shows as `Unknown`. */
  lemma MissingDateUnknown()
    ensures DateText(Absent) == Some(Unknown)
  {
    ReplaceOneChar(Unknown, '-', '/');
    SubstAbsent(Unknown, '-', '/');
  }

  /** `", ".join(names) or "Unknown"`. */
  function Devs(names: seq<string>): string {
    var j := Join(names, ", ");
    if j == "" then Unknown else j
  }

  /** No developer gives `Unknown`; otherwise the names can be split back
      out of the text, in order, when none is empty or holds `", "`. */
  lemma DevsSpec(names: seq<string>)
    ensures names == [] ==> Devs(names) == Unknown
    ensures names != [] && (forall i :: 0 <= i < |names| ==> names[i] != "" && !Contains(names[i], ", "))
      ==> Split(Devs(names), ", ") == names
  {
    if names != [] && (forall i :: 0 <= i < |names| ==> names[i] != "" && !Contains(names[i], ", ")) {
      JoinNonEmpty(names, ", ");
      SplitJoinSep(names, ", ");
    }
  }

  lemma JoinNonEmpty(parts: seq<string>, sep: string)
    requires |parts| > 0 && parts[0] != ""
    ensures |Join(parts, sep)| >= |parts[0]| && Join(parts, sep)[..|parts[0]|] == parts[0]
  {
  }

  /** `data.get("developers", [])`, joined; a `null` list raises. */
  function DevsText(developers: Field<seq<string>>): Option<string> {
    match developers
    case Absent => Some(Devs([]))
    case Null => None
    case Present(ns) => Some(Devs(ns))
  }

  function DescriptionText(description: Field<string>): string {
    match description
    case Absent => NoDescription
    case Null => Shown(None)
    case Present(d) => d
  }

  /** `data.get("image", {}).get("url", "No cover available.")`; a `null`
      image raises. */
  function CoverText(image: Field<Field<string>>): (r: Option<string>)
    ensures r.None? <==> image.Null?
    ensures image.Present? && image.value.Present? ==> r == Some(image.value.value)
    ensures image.Absent? || image == Present(Absent) ==> r == Some(NoCover)
  {
    match image
    case Absent => Some(NoCover)
    case Null => None
    case Present(obj) =>
      match obj
      case Absent => Some(NoCover)
      case Null => Some(Shown(None))
      case Present(u) => Some(u)
  }

  // ---- Screenshots -----------------------------------------------------

  /** `s.get(key, 0)`, with `None` where comparing a `null` score raises. */
  function Score(f: Field<real>): Option<real> {
    match f
    case Absent => Some(0.0)
    case Null => None
    case Present(v) => Some(v)
  }

  /** The filter condition evaluated left to right: a `null` score raises,
      unless `sexual` has already failed the test. */
  function Keep(s: Screenshot): Option<bool> {
    match Score(s.sexual)
    case None => None
    case Some(x) =>
      if x > 1.0 then Some(false)
      else match Score(s.violence)
        case None => None
        case Some(y) => Some(y <= 1.0)
  }

  /** The reference rule: both scores at most 1, a missing score counting as 0. */
  predicate Tame(s: Screenshot) {
    Score(s.sexual).Some? && Score(s.violence).Some?
    && Score(s.sexual).value <= 1.0 && Score(s.violence).value <= 1.0
  }

  predicate NoNullScore(s: Screenshot) {
    s.sexual != Null && s.violence != Null
  }

  function ImgTag(url: string): (r: string)
    ensures |r| > 0 && r[0] == '['
  {
    "[img]" + url + "[/img]"
  }

  function Images(shots: seq<Screenshot>): (r: seq<string>)
    ensures |r| == |shots|
  {
    seq(|shots|, i requires 0 <= i < |shots| => ImgTag(shots[i].url))
  }

  /** The `[img]` lines of the kept screenshots, or `None` when a `null`
      score is compared. */
  function ShotLines(shots: seq<Screenshot>): Option<seq<string>> {
    if shots == [] then Some([])
    else
      match Keep(shots[0])
      case None => None
      case Some(k) =>
        match ShotLines(shots[1..])
        case None => None
        case Some(rest) => Some((if k then [ImgTag(shots[0].url)] else []) + rest)
  }

  /** Without `null` scores the lines are those of the tame screenshots, in
      their original order. */
  lemma {:induction false} ShotLinesKeepTame(shots: seq<Screenshot>)
    requires forall i :: 0 <= i < |shots| ==> NoNullScore(shots[i])
    ensures ShotLines(shots) == Some(Images(Filter(shots, Tame)))
    decreases |shots|
  {
    if shots != [] {
      var tail := shots[1..];
      ShotLinesKeepTame(tail);
      assert Keep(shots[0]) == Some(Tame(shots[0]));
      if Tame(shots[0]) {
        assert Filter(shots, Tame) == [shots[0]] + Filter(tail, Tame);
        ImagesCons(shots[0], Filter(tail, Tame));
      } else {
        assert Filter(shots, Tame) == Filter(tail, Tame);
        assert ShotLines(shots) == Some([] + Images(Filter(tail, Tame)));
        assert [] + Images(Filter(tail, Tame)) == Images(Filter(tail, Tame));
      }
    }
  }

  lemma ImagesCons(s: Screenshot, rest: seq<Screenshot>)
    ensures Images([s] + rest) == [ImgTag(s.url)] + Images(rest)
  {
  }

  /** The screenshots fail exactly when some screenshot's test reads a
      `null` score. */
  lemma {:induction false} ShotLinesFail(shots: seq<Screenshot>)
    ensures ShotLines(shots).None? <==> exists i :: 0 <= i < |shots| && Keep(shots[i]).None?
    decreases |shots|
  {
    if shots != [] {
      var tail := shots[1..];
      ShotLinesFail(tail);
      if exists i :: 0 <= i < |shots| && Keep(shots[i]).None? {
        var i :| 0 <= i < |shots| && Keep(shots[i]).None?;
        if i > 0 {
          assert tail[i - 1] == shots[i];
        }
      }
      if exists i :: 0 <= i < |tail| && Keep(tail[i]).None? {
        var i :| 0 <= i < |tail| && Keep(tail[i]).None?;
        assert shots[i + 1] == tail[i];
      }
    }
  }

  /** `"\n".join(lines) or "No screenshots available."`. */
  function ShotsText(shots: seq<Screenshot>): Option<string> {
    match ShotLines(shots)
    case None => None
    case Some(lines) =>
      var j := Join(lines, "\n");
      Some(if j == "" then NoScreenshots else j)
  }

  /** The placeholder appears exactly when no screenshot is kept. */
  lemma PlaceholderWhenNoneKept(shots: seq<Screenshot>)
    requires ShotLines(shots).Some?
    ensures ShotsText(shots) == Some(NoScreenshots) <==> ShotLines(shots).value == []
  {
    var lines := ShotLines(shots).value;
    if lines != [] {
      LinesAreTags(shots);
      JoinNonEmpty(lines, "\n");
      assert Join(lines, "\n")[0] == '[';
    }
  }

  lemma {:induction false} LinesAreTags(shots: seq<Screenshot>)
    requires ShotLines(shots).Some?
    ensures forall i :: 0 <= i < |ShotLines(shots).value| ==>
      |ShotLines(shots).value[i]| > 0 && ShotLines(shots).value[i][0] == '['
    decreases |shots|
  {
    if shots != [] {
      LinesAreTags(shots[1..]);
    }
  }

  // ---- The post --------------------------------------------------------

  function BbCode(cover: string, jp: string, roman: string, date: string, devs: string, desc: string, shots: string): string {
    "[img]" + cover + "[/img]\n\n"
    + "[b]Title:[/b] " + jp + "\n"
    + "[b]Romanized title:[/b] " + roman + "\n"
    + "[b]Release date:[/b] " + date + "\n"
    + "[b]Developer:[/b] " + devs + "\n"
    + "[b]Description:[/b]\n" + desc + "\n"
    + "[b]Screenshots:[/b] " + shots + "\n"
  }

  /** `content`: the post, the Japanese title and the date, or `None` when
      a `null` field makes the script raise. */
  function Content(rec: VnRecord): (r: Option<(string, string, string)>)
    ensures r.Some? <==> (rec.released != Null && rec.developers != Null && rec.image != Null
      && rec.screenshots != Null
      && (rec.screenshots.Present? ==> ShotLines(rec.screenshots.value).Some?))
    ensures r.Some? ==> r.value.1 == JpTitle(rec.titles) && Some(r.value.2) == DateText(rec.released)
  {
    var shots := match rec.screenshots case Absent => Some(NoScreenshots) case Null => None case Present(ss) => ShotsText(ss);
    match (DateText(rec.released), DevsText(rec.developers), CoverText(rec.image), shots)
    case (Some(date), Some(devs), Some(cover), Some(st)) =>
      var jp := JpTitle(rec.titles);
      Some((BbCode(cover, jp, Shown(RomanTitle(rec.titles)), date, devs, DescriptionText(rec.description), st), jp, date))
    case _ => None
  }

  // ---- The file name ---------------------------------------------------

  /** `(date.split("/") + ["00", "00"])[:3]`. */
  function DateParts(date: string): (r: seq<string>)
    ensures |r| == 3 && forall i :: 0 <= i < 3 ==> '/' !in r[i]
  {
    var parts := Split(date, "/");
    forall i | 0 <= i < |parts| ensures '/' !in parts[i] {
      ContainsChar(parts[i], '/');
    }
    (parts + ["00", "00"])[..3]
  }

  /** A `YYYY-MM-DD` style date from the API reads back as its three parts;
      a date without separators is padded with `00` twice. */
  lemma DatePartsOfRelease(y: string, m: string, d: string)
    requires '-' !in y && '-' !in m && '-' !in d
    requires '/' !in y && '/' !in m && '/' !in d
    ensures DateParts(DateText(Present(y + "-" + m + "-" + d)).value) == [y, m, d]
    ensures DateParts(DateText(Present(y)).value) == [y, "00", "00"]
  {
    var s := y + "-" + m + "-" + d;
    ReplaceOneChar(s, '-', '/');
    DashesToSlashes(y, m, d);
    JoinThree(y, m, d);
    SplitJoin([y, m, d], '/');
    PlainDateParts(y);
  }

  lemma JoinThree(y: string, m: string, d: string)
    ensures Join([y, m, d], "/") == y + "/" + m + "/" + d
  {
    assert [y, m, d][1..] == [m, d];
    assert [m, d][1..] == [d];
    assert Join([m, d], "/") == m + "/" + d;
    assert Join([y, m, d], "/") == y + "/" + (m + "/" + d);
  }

  lemma DashesToSlashes(y: string, m: string, d: string)
    requires '-' !in y && '-' !in m && '-' !in d
    ensures Subst(y + "-" + m + "-" + d, '-', '/') == y + "/" + m + "/" + d
  {
    var a := m + "-" + d;
    assert y + "-" + m + "-" + d == y + "-" + a;
    SubstDash(y, a);
    SubstDash(m, d);
    SubstAbsent(d, '-', '/');
    assert y + "/" + (m + "/" + d) == y + "/" + m + "/" + d;
  }

  lemma SubstDash(x: string, z: string)
    requires '-' !in x
    ensures Subst(x + "-" + z, '-', '/') == x + "/" + Subst(z, '-', '/')
  {
    SubstAppend(x + "-", z, '-', '/');
    SubstAppend(x, "-", '-', '/');
    SubstAbsent(x, '-', '/');
    assert Subst("-", '-', '/') == "/";
  }

  lemma PlainDateParts(y: string)
    requires '-' !in y && '/' !in y
    ensures DateParts(DateText(Present(y)).value) == [y, "00", "00"]
  {
    ReplaceOneChar(y, '-', '/');
    SubstAbsent(y, '-', '/');
    ContainsChar(y, '/');
  }

  /** A character is kept when `isalnum()` holds for it or it is one of ` _-[]`. */
  function SafeChar(isAlnum: char -> bool, c: char): char {
    if isAlnum(c) || c in " _-[]" then c else '_'
  }

  /** The title made safe for a file name; `isAlnum` stands for Python's
      Unicode `str.isalnum`. An empty title becomes `Unknown`. */
  function SafeTitle(isAlnum: char -> bool, title: string): (r: string)
    ensures |r| == if title == "" then |Unknown| else |title|
  {
    var t := if title == "" then Unknown else title;
    seq(|t|, i requires 0 <= i < |t| => SafeChar(isAlnum, t[i]))
  }

  /** Every character of a safe title is alphanumeric or one of ` _-[]`, and
      making it safe again changes nothing. */
  lemma SafeTitleSafe(isAlnum: char -> bool, title: string)
    ensures forall c :: c in SafeTitle(isAlnum, title) ==> isAlnum(c) || c in " _-[]"
    ensures SafeTitle(isAlnum, SafeTitle(isAlnum, title)) == SafeTitle(isAlnum, title)
  {
    var r := SafeTitle(isAlnum, title);
    var t := if title == "" then Unknown else title;
    forall c | c in r ensures isAlnum(c) || c in " _-[]" {
      var i :| 0 <= i < |r| && r[i] == c;
      assert r[i] == SafeChar(isAlnum, t[i]);
    }
    assert r != "";
    var r2 := SafeTitle(isAlnum, r);
    forall i | 0 <= i < |r| ensures r2[i] == r[i] {
      assert r[i] == SafeChar(isAlnum, t[i]);
      assert r2[i] == SafeChar(isAlnum, r[i]);
    }
  }

  /** A non-empty title whose characters all pass is kept as it is. */
  lemma SafeTitleKeeps(isAlnum: char -> bool, title: string)
    requires title != "" && forall i :: 0 <= i < |title| ==> isAlnum(title[i]) || title[i] in " _-[]"
    ensures SafeTitle(isAlnum, title) == title
  {
    var r := SafeTitle(isAlnum, title);
    forall i | 0 <= i < |title| ensures r[i] == title[i] {
      assert r[i] == SafeChar(isAlnum, title[i]);
    }
  }

  /** `f"[{year}{month}{day}] {safe_title}.txt"`. */
  function FileName(isAlnum: char -> bool, date: string, title: string): (r: string)
    ensures StartsWith(r, "[") && EndsWith(r, ".txt")
  {
    var p := DateParts(date);
    "[" + p[0] + p[1] + p[2] + "] " + SafeTitle(isAlnum, title) + ".txt"
  }

  /** As long as `/` is not alphanumeric, the file name has no `/`, so the
      post is written directly inside the output directory. */
  lemma FileNameHasNoSlash(isAlnum: char -> bool, date: string, title: string)
    requires !isAlnum('/')
    ensures '/' !in FileName(isAlnum, date, title)
  {
    SafeTitleSafe(isAlnum, title);
  }

  // ---- The run ---------------------------------------------------------

  /** `input(...).split(",")`, each ID stripped; empty IDs are kept. */
  function SplitIds(input: string): (r: seq<string>)
    ensures |r| == |Split(input, ",")| && forall i :: 0 <= i < |r| ==> Trimmed(r[i])
  {
    var parts := Split(input, ",");
    seq(|parts|, i requires 0 <= i < |parts| => Strip(parts[i]))
  }

  /** Joining trimmed IDs with commas reads back the same IDs. */
  lemma SplitIdsJoin(ids: seq<string>)
    requires |ids| >= 1 && forall i :: 0 <= i < |ids| ==> Trimmed(ids[i]) && ',' !in ids[i]
    ensures SplitIds(Join(ids, ",")) == ids
  {
    SplitJoin(ids, ',');
    forall i | 0 <= i < |ids| ensures Strip(ids[i]) == ids[i] {
      StripTrimmed(ids[i]);
    }
  }

  datatype Outcome = Generated(path: string, post: string) | Failed(id: string)

  /** One ID: fetched by `fetch` (`None` for an HTTP error or an empty
      result), formatted and named; any error is reported and skipped. */
  function Process(fetch: string -> Option<VnRecord>, isAlnum: char -> bool, id: string): (r: Outcome)
    ensures r.Failed? <==> fetch(id).None? || Content(fetch(id).value).None?
    ensures r.Failed? ==> r.id == id
  {
    match fetch(id)
    case None => Failed(id)
    case Some(rec) =>
      match Content(rec)
      case None => Failed(id)
      case Some(c) => Generated(JoinPath(OutDir, FileName(isAlnum, c.2, c.1)), c.0)
  }

  /** A post is written inside the output directory, under the name built
      from the record's date and Japanese title. */
  lemma GeneratedPath(fetch: string -> Option<VnRecord>, isAlnum: char -> bool, id: string)
    requires Process(fetch, isAlnum, id).Generated?
    ensures var c := Content(fetch(id).value).value;
      Process(fetch, isAlnum, id).path == OutDir + FileName(isAlnum, c.2, c.1)
      && Process(fetch, isAlnum, id).post == c.0
  {
    var c := Content(fetch(id).value).value;
    var f := FileName(isAlnum, c.2, c.1);
    assert f[0] == '[';
    assert !StartsWith(f, "/");
  }

  /** `main`: every ID of the input gets its own outcome, in order; an
      error on one does not stop the others. */
  function Run(fetch: string -> Option<VnRecord>, isAlnum: char -> bool, input: string): (r: seq<Outcome>)
    ensures |r| == |SplitIds(input)|
  {
    var ids := SplitIds(input);
    seq(|ids|, i requires 0 <= i < |ids| => Process(fetch, isAlnum, ids[i]))
  }
}

/**
 vndb_draft.py: fetches a record per VNDB ID and writes a Markdown draft
 named after its release date and title. Unlike vndb.py, an error while
 formatting a record ends the whole run.
 */
module VndbDraft {
  import opened Wrappers
  import opened Text
  import opened Seqs
  import opened JsonFields

  datatype Title = Title(title: string, lang: string, main: bool)

  datatype VnRecord = VnRecord(
    id: string,
    titles: seq<Title>,
    released: Field<string>,
    description: Field<string>,
    tags: Field<seq<string>>)

  const Tba: string := "TBA"

  // ---- Title -----------------------------------------------------------

  predicate MainJa(t: Title) {
    t.lang == "ja" && t.main
  }

  /** The first Japanese main title, else the first title; with no title at
      all the default `titles[0]` raises, which is `None` here. */
  function MainTitle(titles: seq<Title>): (r: Option<string>)
    ensures r.None? <==> titles == []
  {
    if titles == [] then None
    else
      match First(titles, MainJa)
      case Some(t) => Some(t.title)
      case None => Some(titles[0].title)
  }

  /** The title is that of the first Japanese main entry, or of the first
      entry when no entry is both Japanese and main. */
  lemma MainTitleSpec(titles: seq<Title>, i: nat)
    ensures titles != [] && (forall j :: 0 <= j < |titles| ==> !MainJa(titles[j]))
      ==> MainTitle(titles) == Some(titles[0].title)
    ensures i < |titles| && MainJa(titles[i]) && (forall j :: 0 <= j < i ==> !MainJa(titles[j]))
      ==> MainTitle(titles) == Some(titles[i].title)
  {
    if titles != [] {
      var r := First(titles, MainJa);
      if r.Some? {
        var k :| 0 <= k < |titles| && titles[k] == r.value && forall j :: 0 <= j < k ==> !MainJa(titles[j]);
        if i < |titles| && MainJa(titles[i]) && (forall j :: 0 <= j < i ==> !MainJa(titles[j])) {
          assert !(k < i) && !(i < k);
        }
      }
    }
  }

  // ---- Release date ----------------------------------------------------

  datatype Date = Date(year: nat, month: nat, day: nat)

  predicate Leap(y: nat) {
    y % 4 == 0 && (y % 100 != 0 || y % 400 == 0)
  }

  function DaysIn(year: nat, month: nat): nat
    requires 1 <= month <= 12
  {
    if month == 2 then (if Leap(year) then 29 else 28)
    else if month == 4 || month == 6 || month == 9 || month == 11 then 30
    else 31
  }

  /** What `datetime` accepts. */
  predicate Valid(d: Date) {
    1 <= d.year <= 9999 && 1 <= d.month <= 12 && 1 <= d.day <= DaysIn(d.year, d.month)
  }

  predicate AllDigits(s: string) {
    forall i :: 0 <= i < |s| ==> IsDigit(s[i])
  }

  function DigitOf(c: char): int {
    c as int - '0' as int
  }

  /** A whole month field as `%m` reads it: `1[0-2]`, `0[1-9]` or `[1-9]`. */
  function MonthField(t: string): (r: Option<nat>)
    ensures r.Some? ==> 1 <= r.value <= 12
  {
    if |t| == 2 && ((t[0] == '1' && '0' <= t[1] <= '2') || (t[0] == '0' && '1' <= t[1] <= '9'))
    then Some(DigitOf(t[0]) * 10 + DigitOf(t[1]))
    else if |t| == 1 && '1' <= t[0] <= '9' then Some(DigitOf(t[0]))
    else None
  }

  /** A whole day field as `%d` reads it: `3[01]`, `[12]\d`, `0[1-9]`,
      `[1-9]` or a space followed by `[1-9]`. */
  function DayField(t: string): (r: Option<nat>)
    ensures r.Some? ==> 1 <= r.value <= 31
  {
    if |t| == 2 && ((t[0] == '3' && '0' <= t[1] <= '1') || ('1' <= t[0] <= '2' && IsDigit(t[1]))
      || (t[0] == '0' && '1' <= t[1] <= '9'))
    then Some(DigitOf(t[0]) * 10 + DigitOf(t[1]))
    else if |t| == 2 && t[0] == ' ' && '1' <= t[1] <= '9' then Some(DigitOf(t[1]))
    else if |t| == 1 && '1' <= t[0] <= '9' then Some(DigitOf(t[0]))
    else None
  }

  /** `datetime.strptime(s, "%Y-%m-%d")`: four digits, `-`, a month field,
      `-`, and a day field reaching the end of `s`, forming a real date.
      Digits are ASCII here. */
  function ParseDate(s: string): (r: Option<Date>)
    ensures r.Some? ==> Valid(r.value)
  {
    if |s| < 5 || !AllDigits(s[..4]) || s[4] != '-' then None
    else
      var rest := s[5..];
      match IndexOf(rest, '-')
      case None => None
      case Some(k) =>
        match (MonthField(rest[..k]), DayField(rest[k + 1..]))
        case (Some(m), Some(d)) =>
          var date := Date(DigitsValue(s[..4]), m, d);
          if Valid(date) then Some(date) else None
        case _ => None
  }

  /** `strftime("%y%m%d")`. */
  function FileDate(d: Date): (r: string)
    requires Valid(d)
    ensures |r| == 6
  {
    Pad2(d.year % 100) + Pad2(d.month) + Pad2(d.day)
  }

  /** `strftime("%Y/%m/%d")`, with the year printed unpadded as the GNU C
      library prints it. */
  function DisplayDate(d: Date): string
    requires Valid(d)
  {
    NatToString(d.year) + "/" + Pad2(d.month) + "/" + Pad2(d.day)
  }

  /** The file date and display date for a `released` field: `TBA` for both
      when it is missing or `TBA`, `None` when it is `null` or not a date. */
  function Dates(released: Field<string>): (r: Option<(string, string)>)
    ensures released.Absent? || released == Present(Tba) ==> r == Some((Tba, Tba))
    ensures released.Null? ==> r.None?
  {
    match released
    case Absent => Some((Tba, Tba))
    case Null => None
    case Present(s) =>
      if s == Tba then Some((Tba, Tba))
      else
        match ParseDate(s)
        case None => None
        case Some(d) => Some((FileDate(d), DisplayDate(d)))
  }

  /** A zero-padded `YYYY-MM-DD` date */
  predicate Padded(s: string) {
    |s| == 10 && s[4] == '-' && s[7] == '-' && s[0] != '0'
    && AllDigits(s[..4]) && AllDigits(s[5..7]) && AllDigits(s[8..10])
  }

  function PaddedDate(s: string): Date
    requires Padded(s)
  {
    Date(DigitsValue(s[..4]), DigitsValue(s[5..7]), DigitsValue(s[8..10]))
  }

  /** A padded date naming a real day gives file date `yymmdd` and display
      date `YYYY/MM/DD`, both cut from the API's text. */
  lemma PaddedDates(s: string)
    requires Padded(s) && Valid(PaddedDate(s))
    ensures Dates(Present(s)) == Some((s[2..4] + s[5..7] + s[8..10], s[..4] + "/" + s[5..7] + "/" + s[8..10]))
  {
    var d := PaddedDate(s);
    ParsePadded(s);
    assert s != Tba;
    assert d.year % 100 == DigitsValue(s[2..4]) by { YearValue(s[..4]); assert s[..4][2..] == s[2..4]; }
    Pad2OfDigits(s[2..4]);
    Pad2OfDigits(s[5..7]);
    Pad2OfDigits(s[8..10]);
    NatToStringOfDigits(s[..4]);
  }

  lemma ParsePadded(s: string)
    requires Padded(s) && Valid(PaddedDate(s))
    ensures ParseDate(s) == Some(PaddedDate(s))
  {
    var rest := s[5..];
    assert rest[2] == '-' && rest[0] != '-' && rest[1] != '-';
    assert IndexOf(rest, '-') == Some(2);
    assert rest[..2] == s[5..7] && rest[3..] == s[8..10];
    DigitsValueTwo(s[5..7]);
    DigitsValueTwo(s[8..10]);
  }

  /** A four-digit year is below 10000, and its last two digits are its
      value modulo 100. */
  lemma YearValue(t: string)
    requires |t| == 4 && AllDigits(t)
    ensures DigitsValue(t) < 10000 && DigitsValue(t) % 100 == DigitsValue(t[2..])
  {
    assert t[..3][..2] == t[..2];
    DigitsValueTwo(t[..2]);
    DigitsValueTwo(t[2..]);
    assert DigitsValue(t) == DigitsValue(t[..2]) * 100 + DigitsValue(t[2..]);
  }

  /** `strptime` also takes one-digit months and days. */
  lemma ShortFields(y: string, m: char, d: char)
    requires |y| == 4 && AllDigits(y) && y[0] != '0'
    requires '1' <= m <= '9' && '1' <= d <= '9'
    ensures ParseDate(y + "-" + [m] + "-" + [d]) == Some(Date(DigitsValue(y), DigitOf(m), DigitOf(d)))
  {
    var s := y + "-" + [m] + "-" + [d];
    assert s[..4] == y;
    var rest := s[5..];
    assert rest == [m] + "-" + [d];
    assert IndexOf(rest, '-') == Some(1);
    assert rest[..1] == [m] && rest[2..] == [d];
    DigitsPositive(y);
    YearValue(y);
    assert [m][..0] == [] && [d][..0] == [];
  }

  // ---- The draft -------------------------------------------------------

  function DraftName(fileDate: string, title: string): string {
    "[" + fileDate + "] " + title + ".md"
  }

  function Link(id: string): string {
    "https://vndb.org/" + id
  }

  function Markdown(title: string, link: string, displayDate: string, description: string, tags: string): string {
    "Title: [" + title + "](" + link + ")\n"
    + "Release date: " + displayDate + "\n"
    + "Description: " + description + "\n"
    + "Tags: " + tags + "\n"
  }

  function DescriptionText(description: Field<string>): string {
    match description
    case Absent => ""
    case Null => "None"
    case Present(d) => d
  }

  /** `", ".join` of the tag names; a `null` list raises. */
  function TagsText(tags: Field<seq<string>>): Option<string> {
    match tags
    case Absent => Some("")
    case Null => None
    case Present(ts) => Some(Join(ts, ", "))
  }

  /** `create_markdown`: the file name and the draft, or `None` where the
      script raises. */
  function CreateMarkdown(rec: VnRecord): (r: Option<(string, string)>)
    ensures r.Some? <==> (rec.titles != [] && rec.tags != Null && Dates(rec.released).Some?)
  {
    match (MainTitle(rec.titles), TagsText(rec.tags), Dates(rec.released))
    case (Some(title), Some(tags), Some(dates)) =>
      Some((DraftName(dates.0, title), Markdown(title, Link(rec.id), dates.1, DescriptionText(rec.description), tags)))
    case _ => None
  }

  /** Without a date the draft is filed under `[TBA]`. */
  lemma TbaDraftName(rec: VnRecord)
    requires rec.titles != [] && rec.tags != Null
    requires rec.released.Absent? || rec.released == Present(Tba)
    ensures CreateMarkdown(rec).Some?
    ensures CreateMarkdown(rec).value.0 == "[TBA] " + MainTitle(rec.titles).value + ".md"
  {
  }

  /** With a padded date the draft is filed under `[yymmdd]`. */
  lemma PaddedDraftName(rec: VnRecord, s: string)
    requires rec.titles != [] && rec.tags != Null
    requires rec.released == Present(s) && Padded(s) && Valid(PaddedDate(s))
    ensures CreateMarkdown(rec).Some?
    ensures CreateMarkdown(rec).value.0 == "[" + s[2..4] + s[5..7] + s[8..10] + "] " + MainTitle(rec.titles).value + ".md"
  {
    PaddedDates(s);
  }

  /** The tag names can be split back out of the `Tags:` text, in order,
      when none is empty or holds `", "`. */
  lemma TagsInOrder(ts: seq<string>)
    requires |ts| >= 1 && forall i :: 0 <= i < |ts| ==> !Contains(ts[i], ", ")
    ensures Split(TagsText(Present(ts)).value, ", ") == ts
  {
    SplitJoinSep(ts, ", ");
  }

  // ---- The run ---------------------------------------------------------

  function StripAll(parts: seq<string>): (r: seq<string>)
    ensures |r| == |parts| && forall i :: 0 <= i < |r| ==> Trimmed(r[i])
  {
    seq(|parts|, i requires 0 <= i < |parts| => Strip(parts[i]))
  }

  /** `input(...).split(", ")`, stripped, empty IDs dropped. */
  function ParseIds(input: string): (r: seq<string>)
    ensures forall i :: 0 <= i < |r| ==> r[i] != "" && Trimmed(r[i])
  {
    Filter(StripAll(Split(input, ", ")), (id: string) => id != "")
  }

  /** Joining non-empty trimmed IDs with `", "` reads back the same IDs;
      an empty input gives none. */
  lemma ParseIdsJoin(ids: seq<string>)
    requires forall i :: 0 <= i < |ids| ==> ids[i] != "" && Trimmed(ids[i]) && !Contains(ids[i], ", ")
    ensures ParseIds(Join(ids, ", ")) == ids
  {
    if ids == [] {
      NoIdsInEmpty();
    } else {
      SplitJoinSep(ids, ", ");
      KeptIds(ids);
    }
  }

  lemma KeptIds(ids: seq<string>)
    requires forall i :: 0 <= i < |ids| ==> ids[i] != "" && Trimmed(ids[i])
    ensures Filter(StripAll(ids), (id: string) => id != "") == ids
  {
    StripAllTrimmed(ids);
    FilterAll(ids, (id: string) => id != "");
  }

  lemma NoIdsInEmpty()
    ensures ParseIds("") == []
  {
    assert !Contains("", ", ");
    assert Split("", ", ") == [""];
    assert StripAll([""]) == [""];
  }

  lemma StripAllTrimmed(ids: seq<string>)
    requires forall i :: 0 <= i < |ids| ==> Trimmed(ids[i])
    ensures StripAll(ids) == ids
  {
    forall i | 0 <= i < |ids| ensures StripAll(ids)[i] == ids[i] {
      StripTrimmed(ids[i]);
    }
  }

  datatype Step = Written(fileName: string, draft: string) | NotFound(id: string)

  /** The step an ID that did not end the run leaves behind. */
  predicate StepFor(lookup: string -> Option<VnRecord>, id: string, step: Step) {
    match lookup(id)
    case None => step == NotFound(id)
    case Some(rec) =>
      match CreateMarkdown(rec)
      case None => false
      case Some(f) => step == Written(f.0, f.1)
  }

  /** The drafts written for `ids` in order, and whether a formatting error
      ended the run early. `lookup` stands for `get_vn_info`, `None` being
      an unknown ID or a failed request. */
  function Steps(lookup: string -> Option<VnRecord>, ids: seq<string>): (r: (seq<Step>, bool))
    ensures !r.1 ==> |r.0| == |ids|
    ensures r.1 ==> |r.0| < |ids| && lookup(ids[|r.0|]).Some? && CreateMarkdown(lookup(ids[|r.0|]).value).None?
    ensures forall i :: 0 <= i < |r.0| ==> StepFor(lookup, ids[i], r.0[i])
    decreases |ids|
  {
    if ids == [] then ([], false)
    else
      var rest := Steps(lookup, ids[1..]);
      match lookup(ids[0])
      case None => ([NotFound(ids[0])] + rest.0, rest.1)
      case Some(rec) =>
        match CreateMarkdown(rec)
        case None => ([], true)
        case Some(f) => ([Written(f.0, f.1)] + rest.0, rest.1)
  }

  datatype RunResult = NoIds | Ran(steps: seq<Step>, aborted: bool)

  /** `main`: nothing to do without IDs, else the steps for every ID. */
  function Run(lookup: string -> Option<VnRecord>, input: string): (r: RunResult)
    ensures r.NoIds? <==> ParseIds(input) == []
  {
    var ids := ParseIds(input);
    if ids == [] then NoIds
    else
      var s := Steps(lookup, ids);
      Ran(s.0, s.1)
  }
}

=== FILE: wrappers.dfy ===
/** Failure-compatible result wrappers shared by every module of the model. */
module Wrappers {

  /** A value that may be absent: Python's `None` versus a value. */
  datatype Option<+T> = None | Some(value: T) {

    /** The wrapped value, or `default` when absent. */
    function GetOr(default: T): T {
      match this
      case Some(v) => v
      case None => default
    }
  }
}
